=== FILE: README.md ===
# Ingredient pricing search and assistant run loop, in Dafny

This project models the core of a chat front-end that prices grocery
ingredients. The main conversational assistant answers the user. When it
needs prices, it calls the tool `invocar_agente_sql` with a comma-separated
ingredient phrase. The pricing side splits the phrase into terms, searches a
price store for each term, groups the rows it finds by term, and sends the
grouped response back as the tool's output.

The model covers:

- **The query guard** (`validateQuery`): the SELECT prefix check, then the
  forbidden operations in list order, then the price table check.
- **The query generator** (`generateSearchQuery`): the sanitiser, and the
  four templates chosen by attempt number (exact, partial, fuzzy, and the
  store's own search function).
- **The recursive search** (`recursiveSearch` and `executeSearch`):
  - per-term attempt numbering;
  - error classification;
  - the timeout catch;
  - `validateMatch`;
  - the three-pass retry loop;
  - the final status.
- **The direct search** (`invokeSqlAgent` in `sql/index.ts`):
  - one store call per term, logging an attempt and an outcome for each;
  - grouping of the rows by search token into an object;
  - the response's status and metadata;
  - the `catch` path;
  - the response message to the main assistant.
- **The run loop** (`runs.ts`):
  - cancelling a thread's unfinished runs;
  - `processToolCall`;
  - the `waitForRun` polling state machine, including tool-output
    submission, the attempt counter and the timeout;
  - `runAssistant`.
- **The message bus** (`messages.ts`): the append-only agent log, its
  per-thread view, and `addMessageToThread`.
- **The assistants' exchange** (`sql/agent-communication.ts`): the prepared
  query message and the response formatter, with its fallback.

External collaborators become parameters:

- The price store is a function from (call number, query or term) to a reply:
  rows, an error object, or a thrown error.
- The conversation engine's run status is a function from the poll number to
  a snapshot.
- Listing runs, creating a run and reading the thread's messages are values
  passed in.
- Every request to the engine (cancel, submit tool outputs, create run) is
  appended to a trace. Every agent message is appended to a log.
- JavaScript exceptions are `Result` values that carry the error message.

Modules, one file each:

| module | file | role |
|---|---|---|
| `Wrappers` | wrappers.dfy | `Option`, `Result` |
| `Text` | text.dfy | `trim`, `toLowerCase`, `split`, `includes`, `startsWith` on `seq<char>` |
| `SeqFacts` | seq_facts.dfy | distinctness, occurrence counts, set insertion |
| `SqlTypes` | sql_types.dfy | price rows, response objects, store replies |
| `AgentTypes` | agent_types.dfy | assistant ids, tool names, agent messages, run snapshots |
| `Messages` | messages.dfy | the agent message log |
| `Terms` | terms.dfy | phrase → terms |
| `QueryGuard` | query_guard.dfy | `validateQuery` |
| `SearchQuery` | search_query.dfy | sanitiser and query templates |
| `RecursiveSearch` | recursive_search.dfy | `executeSearch`, `validateMatch`, `recursiveSearch` |
| `Grouping` | grouping.dfy | the `reduce` into an object keyed by search token |
| `DirectSearch` | direct_search.dfy | `invokeSqlAgent`, `executeDirectQueries`, its `sendResponseToAgent1` |
| `AgentCommunication` | agent_communication.dfy | `sendToSqlAgent`, the formatting `sendResponseToAgent1` |
| `Runs` | runs.dfy | `cancelRun`, `cleanupIncompleteRuns`, `processToolCall`, `waitForRun`, `runAssistant` |

Behaviours of the code that the model keeps as written:

- **Blank phrase.** A phrase with no terms gives status `success`: zero found
  terms equals zero terms.
- **Repeated terms.** The found terms are a `Set`, so a phrase that repeats a
  term can never reach `success`. `RecursiveSearch.SearchStatusMeaning`
  states exactly when each status occurs.
- **Error log kind.** The recursive search logs its errors with kind `query`,
  not `error`.
- **Direct search status.** The direct search reports only `success` or
  `error`. Success means some key was grouped.
- **Query guard.** No search path calls `validateQuery`. The guard refuses
  every fallback query, because that query reads `search_ingredients_v3`
  rather than `price_data`. It also refuses the query of `sendToSqlAgent`,
  which starts with `WITH`.
- **Response schema.** The schema drops the formatter's
  `total_ingredients_found` and `search_summary` metadata.
- **Formatter never called.** The formatting `sendResponseToAgent1` of
  `agent-communication.ts` is not called on any path. If it were given the
  direct search's response, the data would already be an object with no
  `reduce`. It would then always take the fallback
  (`AgentCommunication.DirectResponseFallsBack`).
- **Inherited keys.** A search token that names a member every object
  inherits (`constructor`, `toString`, `__proto__`, ...) makes the grouping's
  `push` throw. Both groupings then take their error path. The model states
  this exactly.

## Model

| member | source | states |
|---|---|---|
| QueryGuard.ValidateQuery | src/lib/agents/sql/recursive-search.ts:28-60 | a query is valid exactly when its trimmed, lower-cased text starts with `select`, mentions no forbidden operation and mentions `from price_data`; without the prefix the verdict is the SELECT error, and with prefix and no forbidden operation but no table it is the table error |
| QueryGuard.FirstOccurring | src/lib/agents/sql/recursive-search.ts:41-49 | none exactly when no operation of the list occurs; otherwise an operation that occurs with no earlier-listed one occurring |
| QueryGuard.FirstForbiddenIsNamed | src/lib/agents/sql/recursive-search.ts:42-48 | when several forbidden operations occur, the error names the first one in list order |
| SearchQuery.KeepAllowed | src/lib/agents/sql/recursive-search.ts:65 | the result holds only kept characters and every kept character of the input |
| SearchQuery.KeepAllowedOfClean | src/lib/agents/sql/recursive-search.ts:65 | a text of kept characters passes the filter unchanged |
| SearchQuery.Sanitize | src/lib/agents/sql/recursive-search.ts:65 | the sanitised term holds only kept characters and is trimmed, so it holds no quote, `%` or `_` |
| SearchQuery.SanitizeKeepsAllowed | src/lib/agents/sql/recursive-search.ts:65 | every kept non-space character of the term survives sanitising |
| SearchQuery.SanitizeIdempotent | src/lib/agents/sql/recursive-search.ts:65 | sanitising twice equals sanitising once |
| SearchQuery.SanitizeKeepsCleanTerm | src/lib/agents/sql/recursive-search.ts:65 | a trimmed term of kept characters is its own sanitised form |
| SearchQuery.GenerateSearchQuery | src/lib/agents/sql/recursive-search.ts:63-136 | every generated query contains the sanitised term |
| SearchQuery.TermInQuery | src/lib/agents/sql/recursive-search.ts:68-135 | every laid-out template contains the term it was filled with |
| SearchQuery.NormalizedQuery | src/lib/agents/sql/recursive-search.ts:68-135 | the guard's normalisation of a laid-out template is its lower-cased body: the layout white space is trimmed away |
| SearchQuery.TemplateStartsWithSelect | src/lib/agents/sql/recursive-search.ts:68-135 | every template, once normalised, starts with `select` |
| SearchQuery.GeneratedStartsWithSelect | src/lib/agents/sql/recursive-search.ts:63-136 | every generated query passes the guard's first check |
| SearchQuery.ExactReadsPriceTable | src/lib/agents/sql/recursive-search.ts:69-84 | the exact-match template reads `from price_data` |
| SearchQuery.PartialReadsPriceTable | src/lib/agents/sql/recursive-search.ts:86-101 | the partial-match template reads `from price_data` |
| SearchQuery.FuzzyReadsPriceTable | src/lib/agents/sql/recursive-search.ts:103-119 | the similarity template reads `from price_data` |
| SearchQuery.FallbackShape | src/lib/agents/sql/recursive-search.ts:121-134 | the fallback template never contains `from price_data`, whatever sanitised term fills it |
| SearchQuery.TemplateReadsPriceTable | src/lib/agents/sql/recursive-search.ts:68-135 | a normalised template reads the price table exactly when its strategy is not the fallback |
| SearchQuery.PriceTableIffNarrowStrategy | src/lib/agents/sql/recursive-search.ts:68-135 | a generated query reads the price table exactly when its attempt number is 1, 2 or 3 |
| SearchQuery.GuardOnGeneratedQuery | src/lib/agents/sql/recursive-search.ts:28-136 | the guard accepts a generated query exactly when its attempt number is 1 to 3 and it mentions no forbidden operation |
| SearchQuery.ForbiddenTermIsRefused | src/lib/agents/sql/recursive-search.ts:41-49 | a term that spells a forbidden operation gets its query refused, whatever the attempt |
| Terms.TrimmedNonEmpty | src/lib/agents/sql/recursive-search.ts:272-273 | every kept segment is non-empty, trimmed and comma-free, and no more terms come out than segments went in |
| Terms.SplitTerms | src/lib/agents/sql/recursive-search.ts:270-273 | every term is non-empty, trimmed and comma-free; there are no more terms than comma-separated segments |
| Terms.SplitTermsAppend | src/lib/agents/sql/recursive-search.ts:270-273 | the terms of two phrases joined by a comma are the terms of each, in order |
| Terms.SplitTermsJoin | src/lib/agents/sql/recursive-search.ts:270-273 | joining well-formed terms with commas and splitting again gives the same terms, duplicates and order included |
| Terms.BlankPhraseHasNoTerms | src/lib/agents/sql/recursive-search.ts:270-273 | a phrase of commas and white space has no terms |
| Text.Trim | src/lib/agents/sql/recursive-search.ts:30 | the trimmed text has no white space at either end and is no longer than the input |
| Text.TrimChars | src/lib/agents/sql/recursive-search.ts:30 | trimming adds no character and loses no non-space character |
| Text.TrimOfTrimmed | src/lib/agents/sql/recursive-search.ts:30 | trimming a trimmed text changes nothing |
| Text.TrimPadded | src/lib/agents/sql/recursive-search.ts:30 | trimming removes exactly the white space around a text that starts and ends with other characters |
| Text.LowerTrim | src/lib/agents/sql/recursive-search.ts:255-256 | trimming and lower-casing commute, so lower-casing a trimmed text gives `s.toLowerCase().trim()` |
| Text.LowerMeaning | src/lib/agents/sql/recursive-search.ts:30 | lower-casing keeps the length, leaves no capital A-Z, moves each capital 32 code points to its small letter, keeps every other character, and is idempotent |
| Text.Split | src/lib/agents/sql/index.ts:18-19 | splitting always gives at least one segment |
| Text.SplitSegmentsFree | src/lib/agents/sql/index.ts:18-19 | no segment holds the separator |
| Text.SplitAppend | src/lib/agents/sql/index.ts:18-19 | splitting two texts joined by the separator gives the segments of each, in order |
| Text.JoinSplit | src/lib/agents/sql/index.ts:18-19 | joining the segments of a text with the separator gives the text back |
| Text.SplitJoin | src/lib/agents/sql/index.ts:18-19 | splitting a separator-free list of segments joined by the separator gives the list back |
| SeqFacts.AddNew | src/lib/agents/sql/recursive-search.ts:294 | adding to the found terms keeps them distinct, adds exactly the new term, keeps the earlier terms first in their order, and changes nothing when the term is already there |
| RecursiveSearch.Classify | src/lib/agents/sql/recursive-search.ts:220-222 | `timeout` exactly when the message mentions timeout; `syntax` exactly when it mentions syntax and not timeout; never `no_results` or `validation` |
| RecursiveSearch.CountTokenPush | src/lib/agents/sql/recursive-search.ts:194-196 | recording an attempt raises the count of its own term by one and leaves every other term's count alone |
| RecursiveSearch.BestMatchOf | src/lib/agents/sql/recursive-search.ts:232-238 | there is a best match exactly when there are rows; it names the first row; its similarity is the first row's when that is present and non-zero, and 1 when it is absent or zero |
| RecursiveSearch.ExecuteSearch | src/lib/agents/sql/recursive-search.ts:189-252 | one store call, numbered one past the attempts recorded for the term and carrying that number's query; a thrown store error records nothing, any other reply records exactly one attempt, for the term only, with the call's number and query, success exactly for rows, the rows and best match for rows, and the message and its class for an error object; rows are returned as they are, an error mentioning timeout returns no rows, and any other error is raised with its message; the log only grows |
| RecursiveSearch.Answer | src/lib/agents/sql/recursive-search.ts:216-241 | with no new call: a thrown error records nothing and is raised; rows are recorded with their best match and returned; an error object is recorded with its message and class, then reads as no rows when it mentions timeout and is raised otherwise |
| RecursiveSearch.Absorb | src/lib/agents/sql/recursive-search.ts:242-251 | an error mentioning timeout reads as no rows, and any other is raised again; the attempts are not touched |
| RecursiveSearch.ValidateMatchMeaning | src/lib/agents/sql/recursive-search.ts:254-259 | the check lower-cases and then trims both names and passes when either contains the other (the model trims first; `Text.LowerTrim` shows the orders agree); so it is symmetric, names equal once normalised pass, and a term that is blank once normalised passes every name |
| RecursiveSearch.ValidRows | src/lib/agents/sql/recursive-search.ts:288-290 | a row is kept exactly when it is among the rows and its name passes `validateMatch` against the term |
| RecursiveSearch.ValidRowsOne | src/lib/agents/sql/recursive-search.ts:288-290 | a single row is kept exactly when its name passes `validateMatch` |
| RecursiveSearch.ValidRowsAppend | src/lib/agents/sql/recursive-search.ts:288-290 | filtering two lists in a row gives the two filtered lists in a row, so order and duplicates are kept |
| RecursiveSearch.Stamp | src/lib/agents/sql/recursive-search.ts:297-300 | the rows keep their number and order; each carries the term as its token, and restoring its old token gives back the original row |
| RecursiveSearch.Examine | src/lib/agents/sql/recursive-search.ts:285-323 | the term is found exactly when the search returned a row that passes `validateMatch`; then the term is added once and the valid rows are appended, labelled; otherwise found terms and rows are unchanged; the log grows |
| RecursiveSearch.TermLoop | src/lib/agents/sql/recursive-search.ts:276-283 | the loop makes at least one and at most the remaining of three calls, and all three when the term is not found; its stop rule is stated by `TermLoopMisses`, `TermLoopFound` and `TermLoopKeeps` |
| RecursiveSearch.RoundKeeps | src/lib/agents/sql/recursive-search.ts:285-302 | one pass makes exactly one call, for its term; it finds the term exactly when the store answered that call with rows of which at least one passes `validateMatch`, and it appends exactly those rows labelled with the term, nothing otherwise |
| RecursiveSearch.TermLoopMisses | src/lib/agents/sql/recursive-search.ts:283-293 | every call of the attempt loop is appended after the earlier calls and is for its term, and none but the last is fruitful: the loop never makes another call after a fruitful one |
| RecursiveSearch.TermLoopFound | src/lib/agents/sql/recursive-search.ts:283-293 | the loop ends having found its term exactly when its last call was fruitful |
| RecursiveSearch.TermLoopKeeps | src/lib/agents/sql/recursive-search.ts:288-302 | the only rows the loop appends are the valid rows of its last call labelled with the term, and nothing when that call was unfruitful |
| RecursiveSearch.TermLoopFrame | src/lib/agents/sql/recursive-search.ts:283-330 | the loop only calls for its own term, only appends to calls and log, and records the term when it finds it |
| RecursiveSearch.SearchTermFrame | src/lib/agents/sql/recursive-search.ts:279-335 | a term ends up found exactly when it already was or its attempt loop found it |
| RecursiveSearch.SearchTerm | src/lib/agents/sql/recursive-search.ts:276-283 | one term costs one to three calls |
| RecursiveSearch.SearchTermStopRule | src/lib/agents/sql/recursive-search.ts:279-335 | one term's calls form one attempt loop: one to three calls for the term, none fruitful but possibly the last, and three unless the last is fruitful; the rows it adds are the labelled valid rows of its last call |
| RecursiveSearch.SearchAll | src/lib/agents/sql/recursive-search.ts:276-283 | the terms cost between one and three calls each |
| RecursiveSearch.SearchAllLoops | src/lib/agents/sql/recursive-search.ts:279-335 | searching the terms in turn cuts the new calls into one attempt loop per term, in order, the last loop ending with the last call; the rows added are, loop by loop, the labelled valid rows of the loop's last call |
| RecursiveSearch.SearchTermCounts | src/lib/agents/sql/recursive-search.ts:276-330 | one term adds at most three calls, all counted for that term |
| RecursiveSearch.SearchAllCounts | src/lib/agents/sql/recursive-search.ts:276-335 | a term gets at most three calls per occurrence in the phrase |
| RecursiveSearch.SoundExecuteNumbering | src/lib/agents/sql/recursive-search.ts:194-208 | after one search every call, the new one included, is numbered one plus its term's earlier answered calls and carries that number's query |
| RecursiveSearch.SoundExecuteCounts | src/lib/agents/sql/recursive-search.ts:194-208 | after one search each term's recorded attempts equal its calls the store answered without throwing |
| RecursiveSearch.SoundExecute | src/lib/agents/sql/recursive-search.ts:194-208 | every call's number is exactly one plus the earlier calls for its term that the store answered without throwing, and its query is the one built for that number; each term's recorded attempts equal its answered calls |
| RecursiveSearch.SoundExamine | src/lib/agents/sql/recursive-search.ts:288-302 | every kept row carries a found term that its name passes `validateMatch` for; every found term has a row; found terms stay distinct |
| RecursiveSearch.StatusOf | src/lib/agents/sql/recursive-search.ts:337-339 | `success` exactly when found equals wanted, `error` exactly when nothing was found out of some |
| RecursiveSearch.Search | src/lib/agents/sql/recursive-search.ts:261-346 | the search makes between one and three calls per term of the phrase |
| RecursiveSearch.SearchKeepsFirstFruitfulRows | src/lib/agents/sql/recursive-search.ts:279-340 | the response's calls are cut into one attempt loop per term of the phrase, in order, each of one to three calls for its term that stops at its first fruitful call; the data is, term by term, the valid rows of that fruitful call labelled with the term, and nothing for a term whose three calls were all unfruitful |
| RecursiveSearch.SearchIsSound | src/lib/agents/sql/recursive-search.ts:189-303 | every call is for a term of the phrase, numbered exactly one plus its term's earlier calls that the store answered without throwing, and made with that number's generated query; every row carries a found term it passes the name check for; every found term is a term of the phrase with a row, listed once; the log only grows |
| RecursiveSearch.SearchStatusMeaning | src/lib/agents/sql/recursive-search.ts:337-339 | `success` exactly when the terms are distinct and all found; `error` exactly when there are terms and no row was kept; `partial_success` only with rows |
| RecursiveSearch.BlankPhraseSucceeds | src/lib/agents/sql/recursive-search.ts:269-339 | a phrase of commas and white space makes no call and reports `success` with no rows |
| RecursiveSearch.SingleTermQueriesReadPriceTable | src/lib/agents/sql/recursive-search.ts:194-198 | a term that occurs once is searched with attempt numbers 1 to 3 only, so each of its queries reads the price table, and the guard would accept it exactly when it spells no forbidden operation |
| RecursiveSearch.SearchFindsFruitfulTerms | src/lib/agents/sql/recursive-search.ts:285-302 | a term is found exactly when one of its calls got rows from the store of which at least one passes `validateMatch` |
| RecursiveSearch.AnsweringStoreNumbersCalls | src/lib/agents/sql/recursive-search.ts:194-198 | when the store never throws, the k-th call for a term carries attempt number k and that number's generated query |
| RecursiveSearch.BarrenStoreFindsNothing | src/lib/agents/sql/recursive-search.ts:276-339 | against a store that never returns a row, each term is called exactly three times, nothing is found, and a phrase with terms gets `error` |
| Messages.OnThread | src/lib/agents/messages.ts:10 | a message is in the thread's view exactly when it is in the log on that thread |
| Messages.OnThreadAppend | src/lib/agents/messages.ts:8-13 | the thread view of two logs in a row is the two views in a row, so insertion order is kept |
| Messages.GetAgentMessages | src/lib/agents/messages.ts:8-13 | with a non-empty thread id, exactly that thread's messages; otherwise the whole log |
| Messages.AddThenGet | src/lib/agents/messages.ts:58-70 | appending a message leaves every earlier read unchanged and adds the message at the end of its thread's view and of the whole log |
| Messages.TwoMessagesOnOneThread | src/tests/agent-communication.test.ts:111-180 | two messages added to an empty thread read back as exactly those two, in order |
| Messages.AddMessageToThread | src/lib/agents/messages.ts:15-56 | a listing failure is raised again; an active run raises the busy error and logs nothing; otherwise the user's message is logged and the engine's answer is returned |
| Grouping.KeyOf | src/lib/agents/sql/agent-communication.ts:75 | with the `unknown` rule the key is never empty; a present, non-empty token is its own key |
| Grouping.KeyOfDefaults | src/lib/agents/sql/agent-communication.ts:75 | with the `unknown` rule an absent or empty token files the row under `unknown`; read as a property name, an absent token files it under `undefined` and an empty one under the empty key |
| Grouping.GroupBy | src/lib/agents/sql/index.ts:27-43 | fails exactly when some row's key names an inherited member; otherwise the groups are the keys in order of first appearance, each holding the projections of its rows in order, none empty, totalling the rows |
| Grouping.InsertTokens | src/lib/agents/sql/index.ts:28-30 | a new key opens a group at the end; a known key opens none |
| Grouping.InsertLookup | src/lib/agents/sql/index.ts:31-41 | the record goes to the end of its key's group and no other group changes |
| Grouping.InsertTotal | src/lib/agents/sql/index.ts:27-43 | one step adds one record and leaves no group empty |
| Grouping.GroupAllTokens | src/lib/agents/sql/index.ts:27-43 | the group names are the keys of the rows in order of first appearance |
| Grouping.GroupAllLookup | src/lib/agents/sql/index.ts:27-43 | each key's group holds the projections of exactly its rows, in arrival order |
| Grouping.GroupAllTotal | src/lib/agents/sql/index.ts:27-43 | the groups hold as many records as there are rows, and none is empty |
| Grouping.GroupAllIsGrouping | src/lib/agents/sql/index.ts:27-43 | the reduction meets the reference definition of a grouping |
| Grouping.GroupKeysDistinct | src/lib/agents/sql/index.ts:27-43 | group names are distinct, and a name is a group exactly when some row has that key |
| DirectSearch.OutcomeMessage | src/lib/agents/sql/index.ts:104-119 | the outcome entry is a response exactly when the reply has rows; otherwise it is an error entry, with `No results found` for an empty answer |
| DirectSearch.DirectQueries | src/lib/agents/sql/index.ts:93-125 | one call per term, two log entries per term, and the log only grows |
| DirectSearch.DirectQueriesCalls | src/lib/agents/sql/index.ts:99-102 | the i-th call searches the i-th term with threshold 0.3 |
| DirectSearch.DirectQueriesResults | src/lib/agents/sql/index.ts:104-107 | the rows kept are the rows of every reply, in call order; errors and empty answers add none |
| DirectSearch.TermEntriesAt | src/lib/agents/sql/index.ts:93-123 | the i-th term's entries sit at positions 2i and 2i+1: its attempt, then its reply's outcome |
| DirectSearch.DirectQueriesLog | src/lib/agents/sql/index.ts:93-123 | the loop appends exactly each term's attempt and outcome entries, in order |
| DirectSearch.Report | src/lib/agents/sql/index.ts:27-66 | an inherited key gives the grouping failure; otherwise data is present, there is no error, and the status is `success` exactly when there are rows |
| DirectSearch.ReportGroups | src/lib/agents/sql/index.ts:58-66 | without an inherited key, the data is the grouping of the rows, the found terms are the group names, and the total counts every row |
| DirectSearch.GroupTotalsPositive | src/lib/agents/sql/index.ts:59 | there is a group exactly when there is a row |
| DirectSearch.QueryAll | src/lib/agents/sql/index.ts:17-70 | the last log entry is the response sent to the main assistant; the data is absent or grouped |
| DirectSearch.QueryAllCalls | src/lib/agents/sql/index.ts:17-66 | one call per term in order, and the response is built from all rows the store returned |
| DirectSearch.QueryAllLog | src/lib/agents/sql/index.ts:24-69 | the log gains each term's attempt and outcome, in order, and then the response message, and nothing else |
| DirectSearch.InvokeSqlAgent | src/lib/agents/sql/index.ts:10-87 | the response is always sent to the main assistant last; a missing phrase gives the `split` failure with no call |
| DirectSearch.InvokeSqlAgentResponse | src/lib/agents/sql/index.ts:10-87 | whatever the log and thread, the response is the `split` failure for a missing phrase and otherwise the report on all rows the store returned for the phrase's terms |
| DirectSearch.DirectStatus | src/lib/agents/sql/index.ts:58-86 | `success` exactly when a phrase was given, the store returned a row, and no row's token names an inherited member; never `partial_success`; an error message exactly when there is no data |
| AgentCommunication.SendToSqlAgent | src/lib/agents/sql/agent-communication.ts:6-69 | logs the tool invocation from the main to the pricing assistant; the message names the query tool and carries the ingredients and threshold 0.3; its query is one the guard refuses |
| AgentCommunication.RefusedWhenLeadingW | src/lib/agents/sql/recursive-search.ts:28-38 | a query beginning with `W` and ending with `;` is refused for not starting with SELECT |
| AgentCommunication.CombinedQueryIsRefused | src/lib/agents/sql/agent-communication.ts:25-46 | the prepared query fails the guard's SELECT check |
| AgentCommunication.Summary | src/lib/agents/sql/agent-communication.ts:94-100 | the summary names its key and counts its records; there is a best match exactly when there are records, and then it is the first record's name with the first record's similarity as score; an empty group has no score |
| AgentCommunication.Format | src/lib/agents/sql/agent-communication.ts:74-112 | absent data gives no groups; grouped data has no `reduce` and fails; rows fail exactly when a key names an inherited member, and otherwise are grouped by `KeyOf`'s `unknown` rule, which files an absent or empty token under `unknown` (`KeyOfDefaults`) |
| AgentCommunication.FormatRows | src/lib/agents/sql/agent-communication.ts:74-112 | for rows without an inherited key, the total equals the rows, the key count is the distinct keys, and each summary counts its key's rows and names the first |
| AgentCommunication.SendResponseToAgent1 | src/lib/agents/sql/agent-communication.ts:71-145 | one message from the pricing to the main assistant; a response exactly when formatting succeeds, keeping the status; otherwise an error carrying the raw data and the failure |
| AgentCommunication.DirectResponseFallsBack | src/lib/agents/sql/agent-communication.ts:74-145 | given a direct search response with data, the formatter always sends the fallback error message with the `reduce` failure |
| Runs.CancelActive | src/lib/agents/runs.ts:32-42 | a cancellation is issued exactly for each active run |
| Runs.CancelActiveAppend | src/lib/agents/runs.ts:32-42 | the cancellations follow listing order: those of a listing split in two are the first part's, then the second part's |
| Runs.CleanupIncompleteRuns | src/lib/agents/runs.ts:29-53 | a listing failure cancels nothing and raises nothing; otherwise the requests added are exactly the cancellations of the queued, in-progress and action-requiring runs |
| Runs.ProcessToolCall | src/lib/agents/runs.ts:55-112 | raises exactly when the arguments do not parse, logging nothing; otherwise answers under the call's id with the direct search's response for the SQL tool, logged as its invocation followed by the direct search's own entries, and with `Unknown function` and nothing logged for any other name |
| Runs.SqlToolCallMeaning | src/lib/agents/runs.ts:60-92 | an SQL tool call's output is a success exactly when a phrase was given, the store returned a row and no token names an inherited member; the log gains the invocation, each term's attempt and outcome, and the response sent back |
| Runs.Handle | src/lib/agents/runs.ts:142-144 | the handler used for a batch keeps every per-call promise of `processToolCall`, including the answer it gives |
| Runs.ProcessToolCalls | src/lib/agents/runs.ts:142-144 | a batch only appends to the log |
| Runs.BatchFailure | src/lib/agents/runs.ts:142-144 | a batch fails exactly when some call's arguments do not parse, and then with the first such failure |
| Runs.BatchAnswersEveryCall | src/lib/agents/runs.ts:142-144 | a batch without failures answers every call, in order, under its id, with that call's answer: the direct search's response for the SQL tool, `Unknown function` otherwise |
| Runs.ToolAnswerer | src/lib/agents/runs.ts:142-144 | answering a required action only appends to the log |
| Runs.PollOnce | src/lib/agents/runs.ts:122-172 | polling continues exactly when the run is pending or asks for tool outputs that all parse; only a pending poll counts an attempt; completed returns the snapshot; a failed, cancelled or expired run raises; another action cancels the run |
| Runs.PollOnceCases | src/lib/agents/runs.ts:122-169 | for each status the poll reads: completed returns that snapshot; failed, cancelled or expired raises with that status; an action other than tool outputs cancels the run and raises; pending counts one attempt and polls again; a tool-output request raises the batch's own failure, or submits the outputs and polls again without counting |
| Runs.PollOnceStopsOn | src/lib/agents/runs.ts:122-166 | a poll that stops the loop stops it on the snapshot it read: completed gives that snapshot, a terminal status raises with that status, an unexpected action needs a non-tool-output request, and a tool failure a tool-output request |
| Runs.PollOnceAppends | src/lib/agents/runs.ts:132-162 | one poll only appends to the log |
| Runs.Wait | src/lib/agents/runs.ts:118-177 | attempts stay within the limit; completion only on a completed run; failure only on a terminal status; a timeout exactly when the attempts reach the limit, and a timeout or unexpected action ends with cancelling the run |
| Runs.WaitAppendsLog | src/lib/agents/runs.ts:118-177 | waiting only appends to the log |
| Runs.WaitCountsPending | src/lib/agents/runs.ts:121-173 | the attempts counted are exactly the polls that found the run pending |
| Runs.WaitStopsOnLastPoll | src/lib/agents/runs.ts:121-166 | unless the loop times out or runs out of fuel, it polled at least once and its outcome is decided by the last snapshot polled, as for one poll |
| Runs.WaitForRun | src/lib/agents/runs.ts:118-177 | a timeout comes after exactly the limit's number of pending polls and cancels the run; any other ending is decided by the last snapshot polled (completion returns it, a terminal status raises with it); trace and log only grow |
| Runs.PendingRunSettles | src/lib/agents/runs.ts:121-130 | a run pending for its next `k` polls, within the limit, that then completes or fails ends the wait at that poll with that snapshot or status, having counted `k` attempts and leaving log and trace unchanged |
| Runs.RunCompletesAfterPending | src/lib/agents/runs.ts:118-130 | a run pending for its first `k` polls, `k` below the limit, and completed at the next, is returned as polled at poll `k`, after `k` counted attempts |
| Runs.ToolRequestsDoNotCount | src/lib/agents/runs.ts:132-162 | polls that ask for tool outputs never count, so such a run never times out |
| Runs.PendingRunTimesOut | src/lib/agents/runs.ts:168-176 | a run that stays pending is polled once per remaining attempt, then cancelled once; the log is unchanged and the wait ends with the timeout |
| Runs.ToolsFor | src/lib/agents/runs.ts:191 | every assistant gets exactly one tool; the SQL-agent tool exactly when it is the main assistant, and the query tool exactly when it is not |
| Runs.RecordReply | src/lib/agents/runs.ts:197-215 | the newest message is logged from the assistant to the user with its first part's text when it is the assistant's; no parts raises the `text` read error and a non-text first part the `value` read error; a non-assistant newest message logs nothing |
| Runs.RunAssistant | src/lib/agents/runs.ts:179-232 | trace and log only grow, and a returned run has completed |
| Runs.CleanupBeforeCreate | src/lib/agents/runs.ts:179-193 | before the run is created, exactly the listed active runs are cancelled; the run is created with the assistant's tools |

## Left out

- Agent message ids and timestamps (`Date.now`) are left out.
- System log writes (`createLog`) are assumed to succeed and are not
  modelled. In the code every call is awaited, and `createLog` raises when the
  insert fails (src/lib/logging.ts:28), so a failed write aborts the operation
  that awaited it: the runs, the direct search and the thread messages. Only
  the `.catch(console.error)` sites in src/lib/agents/sql/index.ts:203-211 and
  src/lib/agents/messages.ts:60-82 are fire-and-forget; `console.error` output
  is left out.
- Message contents are structured values rather than JSON text.
  `JSON.stringify` is not modelled.
- Delays (`setTimeout`), execution times, and the elapsed milliseconds in the
  timeout message of `executeSearch` are left out. The timeout log entry
  keeps the store's message only.
- Concurrency: `Promise.all` over tool calls and cancellations is taken
  sequentially, in list order.
- SQL semantics are not modelled. The store is an opaque function of the call
  number and the query (or term).
- The formatter's `average_price` and the `query_time` timestamps involve
  floating point and clocks. They are not modelled.
- JavaScript orders integer-like object keys first. The model keeps every
  key in order of first appearance.
- `toLowerCase` is modelled for ASCII letters only.
- Tool arguments that parse to something other than an object are not
  modelled. Arguments either parse, with an optional `query_ingredients`, or
  fail with a message.
- Under the recursive search, an attempt with no search token is never
  recorded. The `search_token === undefined` branch of the attempt count is
  therefore dead and not modelled.
- The `catch` of `sendToSqlAgent` cannot be reached: the literal query
  message always passes its schema. It is not modelled.
- `communication.ts` is not part of this model.
- A failed cancellation is swallowed. The model records the cancel request
  only.
- The thread's message list is taken as newest first, as the engine returns
  it.
- Failures of the engine's `runs.retrieve` and `submitToolOutputs` calls
  are left out: each poll returns a snapshot and each submission succeeds. In
  the code either failure is raised out of `waitForRun`, and `runAssistant`
  raises it again.
- A row whose `nombre_generico` is null is left out: rows always carry a
  name. In the code, `validateMatch` would throw on such a row, and the
  attempt would be logged as `Search failed: …` of type `execution`.
- A `search_token` that is null rather than absent is left out. The direct
  search's grouping would file such a row under `null`, where the model
  files an absent token under `undefined`. The formatter maps both to
  `unknown`.
- The messages of JavaScript `TypeError`s (`MissingIngredientsError`,
  `GroupFailure`, `ReduceFailure`, `PushFailure`, `NoContentError`,
  `MissingTextError`) follow V8's wording. Other engines word them
  differently.
- `DirectSearch.InvokeSqlAgent`: the store's call numbers restart at zero for
  each invocation.
- `Runs.Wait`, `Runs.WaitForRun` and `Runs.RunAssistant` take a `fuel` bound
  on the number of polls and stop with `OutOfFuel` when it runs out. The code
  has no such bound, because tool-output requests do not count as attempts
  (`Runs.ToolRequestsDoNotCount`). The contracts say nothing about runs that
  exhaust the fuel.
- `Runs.ProcessToolCalls`: its contract states only that the log grows. The
  per-call facts are stated by `Runs.BatchFailure` and
  `Runs.BatchAnswersEveryCall`.
- `Runs.RunAssistant`: its contract states only that trace and log grow and
  that an answered run completed. The cleanup-then-create order is stated by
  `Runs.CleanupBeforeCreate`.
- `RecursiveSearch.Search`: its contract bounds the calls only. Soundness and
  status are stated by `RecursiveSearch.SearchIsSound` and
  `RecursiveSearch.SearchStatusMeaning`.

=== FILE: agent_communication.dfy ===
/**
 * The exchange between the two assistants (src/lib/agents/sql/agent-communication.ts):
 * preparing the query message for the SQL-executing assistant, and formatting
 * a pricing response for the main assistant, with its fallback when the
 * formatting throws.
 */
module AgentCommunication {
  import opened Wrappers
  import opened Text
  import opened SqlTypes
  import opened AgentTypes
  import opened Messages
  import opened QueryGuard
  import opened Grouping
  import opened DirectSearch

  const Indent: string := "\n        "
  const Margin: string := "\n      "

  const QueryHead: string := "WITH search_results AS ("

  /** The rest of the query: the store's search as a common table expression, filtered and ordered by token. */
  const QueryRest: string :=
    Indent + "SELECT * FROM search_ingredients_v3($1, $2)" + Margin + ")"
    + Margin + "SELECT " + Indent + "nombre_generico," + Indent + "precio_promedio,"
    + Indent + "unidad," + Indent + "division," + Indent + "grupo," + Indent + "clase,"
    + Indent + "subclase," + Indent + "match_type," + Indent + "similarity," + Indent + "search_token"
    + Margin + "FROM search_results" + Margin + "WHERE similarity >= $2"
    + Margin + "ORDER BY " + Indent + "search_token," + Indent + "similarity DESC," + Indent + "match_type;"

  /** The trimmed query text sent to the SQL-executing assistant. */
  const CombinedQuery: string := QueryHead + QueryRest

  datatype Prepared = Prepared(message: SqlQueryMessage, log: Log)

  /**
   * `sendToSqlAgent`: logs the tool invocation from the main assistant to the
   * pricing assistant and returns the query message, whose parameters are the
   * ingredient list and the threshold 0.3.
   */
  function SendToSqlAgent(log: Log, threadId: string, ingredients: string): (r: Prepared)
    ensures r.log == log + [AgentMessage(Assistant1Id, Assistant2Id, ToolInvocationLog(SqlAgentTool, Some(ingredients)), Query, threadId)]
    ensures r.message.functionName == QueryTool && r.message.functionName in Assistant2Tools
    ensures r.message.ingredientsParam == ingredients && r.message.thresholdParam == SimilarityThreshold
    ensures ValidateQuery(r.message.query) == Invalid(NotSelectError)
  {
    CombinedQueryIsRefused();
    Prepared(SqlQueryMessage(QueryTool, CombinedQuery, ingredients, SimilarityThreshold),
             log + [AgentMessage(Assistant1Id, Assistant2Id, ToolInvocationLog(SqlAgentTool, Some(ingredients)), Query, threadId)])
  }

  /** A text whose first character is `w` does not start with `select`. */
  lemma NotSelectWhenW(n: string)
    requires |n| > 0 && n[0] == 'w'
    ensures !StartsWith(n, "select")
  {
    if |n| >= 6 {
      assert n[..6][0] == 'w';
    }
  }

  /** A query that begins with `W` and ends with `;` is refused for not starting with SELECT. */
  lemma RefusedWhenLeadingW(q: string)
    requires |q| > 0 && q[0] == 'W' && q[|q| - 1] == ';'
    ensures ValidateQuery(q) == Invalid(NotSelectError)
  {
    assert IsTrimmed(q);
    TrimOfTrimmed(q);
    assert Normalize(q)[0] == LowerChar('W') == 'w';
    NotSelectWhenW(Normalize(q));
  }

  /** The query starts with `WITH`, so the read-only guard refuses it for not starting with SELECT. */
  lemma CombinedQueryIsRefused()
    ensures ValidateQuery(CombinedQuery) == Invalid(NotSelectError)
  {
    assert QueryHead[0] == 'W' && QueryRest[|QueryRest| - 1] == ';';
    assert CombinedQuery[0] == QueryHead[0];
    assert CombinedQuery[|CombinedQuery| - 1] == QueryRest[|QueryRest| - 1];
    RefusedWhenLeadingW(CombinedQuery);
  }

  // ---------------------------------------------------------------------------
  // Formatting a response for the main assistant
  // ---------------------------------------------------------------------------

  /** What the `reduce` on a response whose data is already an object throws. */
  const ReduceFailure: string := "response.data?.reduce is not a function"

  /** What the grouping `push` on an inherited member throws. */
  const PushFailure: string := "acc[token].push is not a function"

  const FormatFailurePrefix: string := "Failed to format response: "

  /** One summary entry: the key, its count, and the first record's name and similarity. */
  function Summary(g: Group): (s: SearchSummary)
    ensures s.searchTerm == g.token && s.matchesFound == |g.records|
    ensures s.bestMatch.Some? <==> |g.records| > 0
    ensures |g.records| > 0 ==> s.bestMatch == Some(g.records[0].nombreGenerico) && s.bestMatchScore == g.records[0].similarity
    ensures |g.records| == 0 ==> s.bestMatchScore.None?
  {
    if |g.records| == 0 then SearchSummary(g.token, 0, None, None)
    else SearchSummary(g.token, |g.records|, Some(g.records[0].nombreGenerico), g.records[0].similarity)
  }

  function Summaries(groups: seq<Group>): (ss: seq<SearchSummary>)
    ensures |ss| == |groups|
    ensures forall i :: 0 <= i < |groups| ==> ss[i] == Summary(groups[i])
  {
    seq(|groups|, i requires 0 <= i < |groups| => Summary(groups[i]))
  }

  /** The formatted object before validation: the groups, the key and record counts, the summary. */
  function Formatted(status: ResponseStatus, groups: seq<Group>): FormattedResponse {
    FormattedResponse(status, groups, |groups|, TotalRecords(groups), Summaries(groups))
  }

  /**
   * The grouping step: an absent `data` reads as no groups; a list of rows is
   * grouped by token, with an absent or empty token under "unknown"; data
   * that is already grouped has no `reduce` and fails.
   */
  function Format(response: SqlAgentResponse): (r: Result<FormattedResponse>)
    ensures response.data.None? ==> r == Ok(Formatted(response.status, []))
    ensures response.data.Some? && response.data.value.GroupedRows? ==> r == Err(ReduceFailure)
    ensures response.data.Some? && response.data.value.RowList? ==>
              var rows := response.data.value.rows;
              && (r.Err? <==> exists i :: 0 <= i < |rows| && KeyOf(TokenOrUnknown, rows[i]) in PrototypeKeys)
              && (r.Err? ==> r.error == PushFailure)
              && (r.Ok? ==> r.value.status == response.status && GroupsOf(r.value.data, rows, TokenOrUnknown))
  {
    match response.data
    case None => Ok(Formatted(response.status, []))
    case Some(GroupedRows(_)) => Err(ReduceFailure)
    case Some(RowList(rows)) =>
      match GroupBy(rows, TokenOrUnknown, PushFailure)
      case Err(message) => Err(message)
      case Ok(groups) => Ok(Formatted(response.status, groups))
  }

  /**
   * What the response schema keeps of the formatted object: the status, the
   * groups and the total match count; the key count and the summary are not
   * among the schema's metadata fields and are dropped.
   */
  function Validated(f: FormattedResponse): SqlAgentResponse {
    SqlAgentResponse(f.status, Some(GroupedRows(f.data)), None, Some(Metadata(None, Some(f.totalMatches))))
  }

  /** The fallback response: error status, the failure message, and the data as received. */
  function Fallback(response: SqlAgentResponse, message: string): SqlAgentResponse {
    SqlAgentResponse(ResponseStatus.Error, response.data, Some(FormatFailurePrefix + message), None)
  }

  /**
   * `sendResponseToAgent1`: one message from the pricing assistant to the
   * main assistant, a response when formatting succeeds and an error that
   * carries the raw data otherwise.
   */
  function SendResponseToAgent1(log: Log, threadId: string, response: SqlAgentResponse): (r: Log)
    ensures |r| == |log| + 1 && log <= r
    ensures r[|log|].fromAgent == Assistant2Id && r[|log|].toAgent == Assistant1Id && r[|log|].threadId == threadId
    ensures r[|log|].content.SqlResponseLog?
    ensures r[|log|].kind == Response <==> Format(response).Ok?
    ensures r[|log|].kind != Response ==>
              r[|log|].kind == MessageType.Error
              && r[|log|].content.response == Fallback(response, Format(response).error)
    ensures r[|log|].kind == Response ==> r[|log|].content.response.status == response.status
  {
    match Format(response)
    case Ok(formatted) =>
      log + [AgentMessage(Assistant2Id, Assistant1Id, SqlResponseLog(Validated(formatted)), Response, threadId)]
    case Err(message) =>
      log + [AgentMessage(Assistant2Id, Assistant1Id, SqlResponseLog(Fallback(response, message)), MessageType.Error, threadId)]
  }

  /**
   * For a list of rows without an inherited key: the message carries one
   * group per distinct key, the total equals the number of rows, and each
   * summary entry counts its key's rows and names the first of them.
   */
  lemma FormatRows(response: SqlAgentResponse)
    requires response.data.Some? && response.data.value.RowList?
    requires forall i :: 0 <= i < |response.data.value.rows| ==>
               KeyOf(TokenOrUnknown, response.data.value.rows[i]) !in PrototypeKeys
    ensures var rows := response.data.value.rows;
            var f := Format(response).value;
            && Format(response).Ok?
            && f.totalMatches == |rows|
            && f.totalIngredientsFound == |Dedup(Keys(rows, TokenOrUnknown))|
            && forall i :: 0 <= i < |f.searchSummary| ==>
                 var s := f.searchSummary[i];
                 && s.searchTerm != ""
                 && s.matchesFound == |Matching(rows, TokenOrUnknown, s.searchTerm)| > 0
                 && s.bestMatch == Some(Matching(rows, TokenOrUnknown, s.searchTerm)[0].nombreGenerico)
  {
    var rows := response.data.value.rows;
    var f := Format(response).value;
    var groups := f.data;
    assert GroupsOf(groups, rows, TokenOrUnknown);
    GroupKeysDistinct(rows, TokenOrUnknown, groups);
    forall i | 0 <= i < |f.searchSummary|
      ensures f.searchSummary[i].searchTerm != ""
      ensures f.searchSummary[i].matchesFound == |Matching(rows, TokenOrUnknown, f.searchSummary[i].searchTerm)| > 0
      ensures f.searchSummary[i].bestMatch == Some(Matching(rows, TokenOrUnknown, f.searchSummary[i].searchTerm)[0].nombreGenerico)
    {
      RecordsOfNamed(groups, i);
      assert RecordsOf(groups, groups[i].token) == Matching(rows, TokenOrUnknown, groups[i].token);
      assert groups[i].token in Tokens(groups);
      var k :| 0 <= k < |rows| && KeyOf(TokenOrUnknown, rows[k]) == groups[i].token;
    }
  }

  /**
   * The direct search answers with rows already grouped into an object, so
   * handing its response to this formatter always takes the fallback when it
   * has data.
   */
  lemma DirectResponseFallsBack(log: Log, threadId: string, ingredients: Option<string>, rpc: Rpc, log2: Log)
    requires InvokeSqlAgent(log, threadId, ingredients, rpc).response.data.Some?
    ensures var response := InvokeSqlAgent(log, threadId, ingredients, rpc).response;
            var r := SendResponseToAgent1(log2, threadId, response);
            r[|log2|].kind == MessageType.Error
            && r[|log2|].content.response == Fallback(response, ReduceFailure)
  {
  }
}

=== FILE: agent_types.dfy ===
/**
 * The agents' shared vocabulary: identities and tool names, inter-agent
 * messages, tool calls and their outputs, and the conversation engine's runs.
 */
module AgentTypes {
  import opened Wrappers
  import opened SqlTypes

  const Assistant1Id: string := "asst_Uhstgtl3OSr0oygbleimaLNd"
  const Assistant2Id: string := "asst_QuPvhhxHk5jLsjjLk2qgT5hU"
  const SqlDirect: string := "SQL_DIRECT"
  const SystemAgent: string := "system"
  const UserAgent: string := "user"

  /** The tool the main assistant may call, and the one declared for the pricing assistant. */
  const SqlAgentTool: string := "invocar_agente_sql"
  const QueryTool: string := "ejecuta_query_sql"
  const Assistant1Tools: seq<string> := [SqlAgentTool]
  const Assistant2Tools: seq<string> := [QueryTool]

  /** The message kinds; `Error` is used by the code although the declared union omits it. */
  datatype MessageType = Query | Response | User | Assistant | Error

  /** The payload of a message, one variant per kind of JSON object the code serialises. */
  datatype Content =
    | Text(text: string)
    | SearchAttemptLog(attempt: nat, terms: seq<string>, query: Option<string>)
    | SearchResultsLog(attempt: nat, matchesFound: nat, foundTerms: seq<string>)
    | SearchErrorLog(attempt: nat, error: string, errorType: Option<ErrorType>)
    | SearchTimeoutLog(attempt: nat, message: string)
    | ToolInvocationLog(functionName: string, ingredients: Option<string>)
    | SqlResponseLog(response: SqlAgentResponse)

  datatype AgentMessage = AgentMessage(
    fromAgent: string,
    toAgent: string,
    content: Content,
    kind: MessageType,
    threadId: string)

  /** A tool call's arguments as `JSON.parse` leaves them. */
  datatype ToolArguments =
    | Parsed(queryIngredients: Option<string>)
    | Unparseable(message: string)

  datatype ToolCall = ToolCall(id: string, name: string, arguments: ToolArguments)

  /** The serialised output of one tool call: the pricing result or an error object. */
  datatype ToolResult = SqlResult(response: SqlAgentResponse) | CallFailed(error: string)

  datatype ToolCallOutput = ToolCallOutput(toolCallId: string, output: ToolResult)

  datatype RunStatus =
    | Queued | InProgress | RequiresAction | Cancelling | Cancelled | Failed | Completed | Incomplete | Expired

  /** The statuses of a run that is not finished: these block a new message and are cancelled before a new run. */
  predicate IsActive(s: RunStatus) {
    s == InProgress || s == Queued || s == RequiresAction
  }

  function StatusName(s: RunStatus): string {
    match s
    case Queued => "queued"
    case InProgress => "in_progress"
    case RequiresAction => "requires_action"
    case Cancelling => "cancelling"
    case Cancelled => "cancelled"
    case Failed => "failed"
    case Completed => "completed"
    case Incomplete => "incomplete"
    case Expired => "expired"
  }

  datatype RunInfo = RunInfo(id: string, status: RunStatus)

  /** The engine's answer to listing a thread's runs. */
  datatype RunList = Listed(runs: seq<RunInfo>) | ListFailed(message: string)

  datatype RequiredAction = SubmitToolOutputs(toolCalls: seq<ToolCall>) | OtherAction(kind: string)

  /** One poll of a run: its status and, when it waits on the caller, what it asks for. */
  datatype RunSnapshot = RunSnapshot(status: RunStatus, requiredAction: Option<RequiredAction>)

  /** One part of a thread message's content: a text part carries its value. */
  datatype ContentPart = TextPart(value: string) | OtherPart

  /** A message of the engine's thread: its role and its content parts, in order. */
  datatype ThreadMessage = ThreadMessage(role: string, content: seq<ContentPart>)
}

=== FILE: direct_search.dfy ===
/**
 * The direct price search behind the SQL tool (`invokeSqlAgent` in
 * src/lib/agents/sql/index.ts): one call of the store's search function per
 * term, the returned rows grouped by their search token, and the response
 * reported to the main assistant through the message log.
 *
 * The store is a parameter: `rpc(n, term)` is its answer to the n-th call,
 * made for `term` with the similarity threshold 0.3.
 */
module DirectSearch {
  import opened Wrappers
  import opened Terms
  import opened SqlTypes
  import opened AgentTypes
  import opened Messages
  import opened Grouping
  import opened SeqFacts

  type Rpc = (nat, string) -> StoreReply

  /** The arguments of one call of the store's search function. */
  datatype RpcCall = RpcCall(searchTerms: string, similarityThreshold: real)

  datatype DirectState = DirectState(results: seq<PriceRow>, calls: seq<RpcCall>, log: Log)

  const NoResultsText: string := "No results found"

  /** What `split` on a missing ingredient list throws. */
  const MissingIngredientsError: string := "Cannot read properties of undefined (reading 'split')"

  /** What the grouping `push` on an inherited member throws. */
  const GroupFailure: string := "acc[item.search_token].push is not a function"

  function Logged(threadId: string, content: Content, kind: MessageType): AgentMessage {
    AgentMessage(SqlDirect, SystemAgent, content, kind, threadId)
  }

  function AttemptMessage(threadId: string, term: string): AgentMessage {
    Logged(threadId, SearchAttemptLog(1, [term], None), Query)
  }

  /** The rows a reply contributes: those of a non-error answer, none otherwise. */
  function RowsOf(reply: StoreReply): seq<PriceRow> {
    if reply.Rows? then reply.rows else []
  }

  /** The log entry after a call: a success with the row count, or an error with its reason. */
  function OutcomeMessage(threadId: string, term: string, reply: StoreReply): (m: AgentMessage)
    ensures m.kind == Response <==> |RowsOf(reply)| > 0
    ensures m.kind != Response ==> m.kind == MessageType.Error && m.content.SearchErrorLog?
    ensures reply == Rows([]) ==> m.content == SearchErrorLog(1, NoResultsText, None)
  {
    match reply
    case Rows(data) =>
      if |data| > 0 then Logged(threadId, SearchResultsLog(1, |data|, [term]), Response)
      else Logged(threadId, SearchErrorLog(1, NoResultsText, None), MessageType.Error)
    case StoreError(message) => Logged(threadId, SearchErrorLog(1, message, None), MessageType.Error)
    case StoreThrew(message) => Logged(threadId, SearchErrorLog(1, message, None), MessageType.Error)
  }

  /** The store's replies to the calls numbered from `base`, one per term. */
  function Replies(rpc: Rpc, base: nat, terms: seq<string>): (rs: seq<StoreReply>)
    ensures |rs| == |terms|
  {
    seq(|terms|, i requires 0 <= i < |terms| => rpc(base + i, terms[i]))
  }

  /** All rows of the replies, in call order. */
  function Harvest(replies: seq<StoreReply>): seq<PriceRow>
    decreases |replies|
  {
    if |replies| == 0 then [] else RowsOf(replies[0]) + Harvest(replies[1..])
  }

  /** One pass of the loop: call the store for the term, keep its rows, log the attempt and the outcome. */
  function QueryTerm(threadId: string, term: string, st: DirectState, rpc: Rpc): DirectState {
    var reply := rpc(|st.calls|, term);
    DirectState(st.results + RowsOf(reply),
                st.calls + [RpcCall(term, SimilarityThreshold)],
                st.log + [AttemptMessage(threadId, term), OutcomeMessage(threadId, term, reply)])
  }

  /**
   * `executeDirectQueries`: one call per term in order, logging an attempt
   * and then its outcome; every non-empty answer's rows are appended, and a
   * failing call does not stop the loop.
   */
  function DirectQueries(threadId: string, terms: seq<string>, st: DirectState, rpc: Rpc): (r: DirectState)
    ensures |r.calls| == |st.calls| + |terms|
    ensures |r.log| == |st.log| + 2 * |terms| && st.log <= r.log
    decreases |terms|
  {
    if |terms| == 0 then st
    else
      var next := QueryTerm(threadId, terms[0], st, rpc);
      var r := DirectQueries(threadId, terms[1..], next, rpc);
      assert r.log[..|st.log|] == r.log[..|next.log|][..|st.log|];
      r
  }

  /** The calls are one per term, in order, with the fixed threshold. */
  lemma {:induction false} DirectQueriesCalls(threadId: string, terms: seq<string>, st: DirectState, rpc: Rpc)
    ensures var r := DirectQueries(threadId, terms, st, rpc);
            && st.calls <= r.calls
            && forall i :: 0 <= i < |terms| ==> r.calls[|st.calls| + i] == RpcCall(terms[i], SimilarityThreshold)
    decreases |terms|
  {
    if |terms| > 0 {
      var next := QueryTerm(threadId, terms[0], st, rpc);
      var r := DirectQueries(threadId, terms[1..], next, rpc);
      DirectQueriesCalls(threadId, terms[1..], next, rpc);
      assert r.calls[..|st.calls|] == r.calls[..|next.calls|][..|st.calls|];
      assert r.calls[|st.calls|] == r.calls[..|next.calls|][|st.calls|];
      forall i | 1 <= i < |terms|
        ensures r.calls[|st.calls| + i] == RpcCall(terms[i], SimilarityThreshold)
      {
        assert terms[i] == terms[1..][i - 1];
      }
    }
  }

  /** The rows of a run of replies: the first reply's, then the rest's. */
  lemma HarvestStep(rpc: Rpc, base: nat, terms: seq<string>)
    requires |terms| > 0
    ensures Harvest(Replies(rpc, base, terms)) == RowsOf(rpc(base, terms[0])) + Harvest(Replies(rpc, base + 1, terms[1..]))
  {
    var rs := Replies(rpc, base, terms);
    assert rs[1..] == Replies(rpc, base + 1, terms[1..]);
  }

  /** The rows kept are those of every reply, in call order. */
  lemma {:induction false} DirectQueriesResults(threadId: string, terms: seq<string>, st: DirectState, rpc: Rpc)
    ensures DirectQueries(threadId, terms, st, rpc).results == st.results + Harvest(Replies(rpc, |st.calls|, terms))
    decreases |terms|
  {
    if |terms| > 0 {
      var next := QueryTerm(threadId, terms[0], st, rpc);
      DirectQueriesResults(threadId, terms[1..], next, rpc);
      HarvestStep(rpc, |st.calls|, terms);
      assert |next.calls| == |st.calls| + 1;
    }
  }

  /** The two log entries of each term, in order: its attempt, then the outcome of its reply, replies numbered from `base`. */
  function TermEntries(threadId: string, terms: seq<string>, rpc: Rpc, base: nat): (es: Log)
    ensures |es| == 2 * |terms|
    decreases |terms|
  {
    if |terms| == 0 then []
    else [AttemptMessage(threadId, terms[0]), OutcomeMessage(threadId, terms[0], rpc(base, terms[0]))]
         + TermEntries(threadId, terms[1..], rpc, base + 1)
  }

  /** The entries of the `i`-th term sit at `2 * i` and `2 * i + 1`. */
  lemma {:induction false} TermEntriesAt(threadId: string, terms: seq<string>, rpc: Rpc, base: nat, i: nat)
    requires i < |terms|
    ensures TermEntries(threadId, terms, rpc, base)[2 * i] == AttemptMessage(threadId, terms[i])
    ensures TermEntries(threadId, terms, rpc, base)[2 * i + 1] == OutcomeMessage(threadId, terms[i], rpc(base + i, terms[i]))
    decreases i
  {
    if i > 0 {
      TermEntriesAt(threadId, terms[1..], rpc, base + 1, i - 1);
      assert terms[1..][i - 1] == terms[i];
    }
  }

  /** Every term leaves two entries, the attempt and then the outcome of its call, and nothing else is logged. */
  lemma {:induction false} DirectQueriesLog(threadId: string, terms: seq<string>, st: DirectState, rpc: Rpc)
    ensures DirectQueries(threadId, terms, st, rpc).log == st.log + TermEntries(threadId, terms, rpc, |st.calls|)
    decreases |terms|
  {
    if |terms| > 0 {
      var next := QueryTerm(threadId, terms[0], st, rpc);
      DirectQueriesLog(threadId, terms[1..], next, rpc);
      assert |next.calls| == |st.calls| + 1;
    }
  }

  /** The message the pricing side sends the main assistant with its response. */
  function ToAssistant1(threadId: string, response: SqlAgentResponse): AgentMessage {
    AgentMessage(SqlDirect, Assistant1Id, SqlResponseLog(response), Response, threadId)
  }

  /** The response of the `catch`: error status and the message, nothing else. */
  function Failure(message: string): SqlAgentResponse {
    SqlAgentResponse(ResponseStatus.Error, None, Some(message), None)
  }

  /** The grouped response: success when some term has rows; the metadata lists the keys and counts the rows. */
  function Grouped(groups: seq<Group>, total: nat): SqlAgentResponse {
    SqlAgentResponse(if |groups| > 0 then Success else ResponseStatus.Error,
                     Some(GroupedRows(groups)), None, Some(Metadata(Some(Tokens(groups)), Some(total))))
  }

  datatype DirectOutcome = DirectOutcome(response: SqlAgentResponse, calls: seq<RpcCall>, log: Log)

  /** The rows the store returns for the terms of a phrase, in call order. */
  function StoreRows(rpc: Rpc, ingredients: string): seq<PriceRow> {
    Harvest(Replies(rpc, 0, SplitTerms(ingredients)))
  }

  /** The response to the rows found: the groups, or the failure of the grouping. */
  function Report(rows: seq<PriceRow>): (response: SqlAgentResponse)
    ensures response.data.None? || response.data.value.GroupedRows?
    ensures (exists k :: 0 <= k < |rows| && KeyOf(RawToken, rows[k]) in PrototypeKeys) ==> response == Failure(GroupFailure)
    ensures (forall k :: 0 <= k < |rows| ==> KeyOf(RawToken, rows[k]) !in PrototypeKeys) ==>
              && response.data.Some? && response.error.None?
              && response.status == (if |rows| > 0 then Success else ResponseStatus.Error)
  {
    match GroupBy(rows, RawToken, GroupFailure)
    case Err(message) => Failure(message)
    case Ok(groups) =>
      GroupTotalsPositive(groups, rows);
      Grouped(groups, |rows|)
  }

  /** Without an inherited key, the response holds the grouping of the rows and counts them all. */
  lemma ReportGroups(rows: seq<PriceRow>)
    requires forall k :: 0 <= k < |rows| ==> KeyOf(RawToken, rows[k]) !in PrototypeKeys
    ensures exists groups :: GroupsOf(groups, rows, RawToken) && Report(rows) == Grouped(groups, |rows|)
  {
    var groups := GroupBy(rows, RawToken, GroupFailure).value;
    assert GroupsOf(groups, rows, RawToken);
  }

  /**
   * `invokeSqlAgent`: split the phrase, query every term, group the rows by
   * token and report. A missing phrase or a grouping failure takes the
   * `catch` path. Either way the response is sent to the main assistant.
   */
  function InvokeSqlAgent(log: Log, threadId: string, ingredients: Option<string>, rpc: Rpc): (r: DirectOutcome)
    ensures log < r.log && r.log[|r.log| - 1] == ToAssistant1(threadId, r.response)
    ensures ingredients.None? ==> r.response == Failure(MissingIngredientsError) && r.calls == [] && r.log == log + [ToAssistant1(threadId, r.response)]
    ensures r.response.data.None? || r.response.data.value.GroupedRows?
  {
    match ingredients
    case None =>
      var response := Failure(MissingIngredientsError);
      DirectOutcome(response, [], log + [ToAssistant1(threadId, response)])
    case Some(text) => QueryAll(log, threadId, SplitTerms(text), rpc)
  }

  /** The `try` path once the phrase is split: query the terms, report, send. */
  function QueryAll(log: Log, threadId: string, terms: seq<string>, rpc: Rpc): (r: DirectOutcome)
    ensures log < r.log && r.log[|r.log| - 1] == ToAssistant1(threadId, r.response)
    ensures r.response.data.None? || r.response.data.value.GroupedRows?
  {
    var st := DirectQueries(threadId, terms, DirectState([], [], log), rpc);
    var response := Report(st.results);
    DirectOutcome(response, st.calls, st.log + [ToAssistant1(threadId, response)])
  }

  /** With a phrase: one call per term in order, and the response built from all rows the store returned. */
  lemma QueryAllCalls(log: Log, threadId: string, terms: seq<string>, rpc: Rpc)
    ensures var r := QueryAll(log, threadId, terms, rpc);
            && |r.calls| == |terms|
            && (forall i :: 0 <= i < |terms| ==> r.calls[i] == RpcCall(terms[i], SimilarityThreshold))
            && r.response == Report(Harvest(Replies(rpc, 0, terms)))
  {
    var st0 := DirectState([], [], log);
    DirectQueriesCalls(threadId, terms, st0, rpc);
    QueryAllRows(log, threadId, terms, rpc);
  }

  lemma QueryAllRows(log: Log, threadId: string, terms: seq<string>, rpc: Rpc)
    ensures DirectQueries(threadId, terms, DirectState([], [], log), rpc).results == Harvest(Replies(rpc, 0, terms))
  {
    DirectQueriesResults(threadId, terms, DirectState([], [], log), rpc);
  }

  /** Every term is logged as an attempt and an outcome, in order, and then the response is sent. */
  lemma QueryAllLog(log: Log, threadId: string, terms: seq<string>, rpc: Rpc)
    ensures var r := QueryAll(log, threadId, terms, rpc);
            r.log == log + TermEntries(threadId, terms, rpc, 0) + [ToAssistant1(threadId, r.response)]
  {
    DirectQueriesLog(threadId, terms, DirectState([], [], log), rpc);
  }

  /**
   * The direct search reports success exactly when the phrase was given, the
   * store returned some row, and no row's token names an inherited member;
   * an error response carries a message exactly when it came from the `catch`.
   */
  lemma DirectStatus(log: Log, threadId: string, ingredients: Option<string>, rpc: Rpc)
    ensures var r := InvokeSqlAgent(log, threadId, ingredients, rpc);
            && (r.response.status == Success <==>
                  ingredients.Some?
                  && |StoreRows(rpc, ingredients.value)| > 0
                  && forall k :: 0 <= k < |StoreRows(rpc, ingredients.value)| ==>
                       KeyOf(RawToken, StoreRows(rpc, ingredients.value)[k]) !in PrototypeKeys)
            && r.response.status != PartialSuccess
            && (r.response.error.Some? <==> r.response.data.None?)
  {
    if ingredients.Some? {
      var rows := StoreRows(rpc, ingredients.value);
      QueryAllCalls(log, threadId, SplitTerms(ingredients.value), rpc);
    }
  }

  /**
   * The response of the direct search from the phrase and the store alone:
   * the `split` failure when the phrase is missing, and otherwise the report
   * on every row the store returns for the phrase's terms.
   */
  function DirectResponse(ingredients: Option<string>, rpc: Rpc): SqlAgentResponse {
    match ingredients
    case None => Failure(MissingIngredientsError)
    case Some(text) => Report(StoreRows(rpc, text))
  }

  /** Whatever the log and the thread, `invokeSqlAgent` answers with the direct search's response. */
  lemma InvokeSqlAgentResponse(log: Log, threadId: string, ingredients: Option<string>, rpc: Rpc)
    ensures InvokeSqlAgent(log, threadId, ingredients, rpc).response == DirectResponse(ingredients, rpc)
  {
    if ingredients.Some? {
      QueryAllCalls(log, threadId, SplitTerms(ingredients.value), rpc);
    }
  }

  /** There are groups exactly when there are rows. */
  lemma GroupTotalsPositive(groups: seq<Group>, rows: seq<PriceRow>)
    requires GroupsOf(groups, rows, RawToken)
    ensures |groups| > 0 <==> |rows| > 0
  {
    if |groups| == 0 {
      assert TotalRecords(groups) == 0;
    }
  }
}

=== FILE: grouping.dfy ===
/**
 * Grouping rows by search term into a plain object, as both
 * `sendResponseToAgent1` variants do with `reduce` over an empty object
 * literal. Keys keep the order in which they first appear, each key holds the
 * nine-field projection of its rows in arrival order, and a key that names an
 * inherited member of the object (`constructor`, `toString`, ...) finds that
 * member instead of an array, so the `push` on it throws.
 */
module Grouping {
  import opened Wrappers
  import opened SqlTypes
  import opened SeqFacts

  /** The properties every object literal inherits; `acc[key]` is truthy for each of them. */
  const PrototypeKeys: seq<string> := [
    "constructor", "__proto__", "__defineGetter__", "__defineSetter__",
    "hasOwnProperty", "__lookupGetter__", "__lookupSetter__", "isPrototypeOf",
    "propertyIsEnumerable", "toString", "valueOf", "toLocaleString"]

  /**
   * How a row's key is read: the token as a property name (an absent token
   * becomes the key "undefined"), or the token with an absent or empty one
   * replaced by "unknown".
   */
  datatype KeyRule = RawToken | TokenOrUnknown

  function KeyOf(rule: KeyRule, row: PriceRow): (k: string)
    ensures rule == TokenOrUnknown ==> k != ""
    ensures row.searchToken.Some? && row.searchToken.value != "" ==> k == row.searchToken.value
  {
    match rule
    case RawToken => (match row.searchToken case Some(t) => t case None => "undefined")
    case TokenOrUnknown =>
      (match row.searchToken case Some(t) => if t == "" then "unknown" else t case None => "unknown")
  }

  /**
   * The keys a row without a usable token falls under: "unknown" when the
   * token is absent or empty and defaults apply, "undefined" when an absent
   * token is read as a property name; a raw token, even empty, is its own key.
   */
  lemma KeyOfDefaults(rule: KeyRule, row: PriceRow)
    ensures rule == TokenOrUnknown && (row.searchToken.None? || row.searchToken.value == "") ==> KeyOf(rule, row) == "unknown"
    ensures rule == RawToken && row.searchToken.None? ==> KeyOf(rule, row) == "undefined"
    ensures rule == RawToken && row.searchToken.Some? ==> KeyOf(rule, row) == row.searchToken.value
  {
  }

  function Keys(rows: seq<PriceRow>, rule: KeyRule): (ks: seq<string>)
    ensures |ks| == |rows|
    ensures forall i :: 0 <= i < |rows| ==> ks[i] == KeyOf(rule, rows[i])
  {
    seq(|rows|, i requires 0 <= i < |rows| => KeyOf(rule, rows[i]))
  }

  function Tokens(groups: seq<Group>): (ts: seq<string>)
    ensures |ts| == |groups|
    ensures forall i :: 0 <= i < |groups| ==> ts[i] == groups[i].token
  {
    seq(|groups|, i requires 0 <= i < |groups| => groups[i].token)
  }

  /** The records of the first group named `key`, or none. */
  function RecordsOf(groups: seq<Group>, key: string): seq<PriceRecord>
    decreases |groups|
  {
    if |groups| == 0 then []
    else if groups[0].token == key then groups[0].records
    else RecordsOf(groups[1..], key)
  }

  function TotalRecords(groups: seq<Group>): nat
    decreases |groups|
  {
    if |groups| == 0 then 0 else |groups[0].records| + TotalRecords(groups[1..])
  }

  // Reference definitions, stated without groups.

  /** The keys in order of first appearance. */
  function Dedup(keys: seq<string>): (r: seq<string>)
    ensures Distinct(r)
    ensures forall k :: k in r <==> k in keys
    decreases |keys|
  {
    if |keys| == 0 then []
    else
      var r := Dedup(keys[..|keys| - 1]);
      var last := keys[|keys| - 1];
      assert forall k :: k in keys <==> k in keys[..|keys| - 1] || k == last by {
        assert keys == keys[..|keys| - 1] + [last];
      }
      if last in r then r else r + [last]
  }

  /** The projections of the rows whose key is `key`, in arrival order. */
  function Matching(rows: seq<PriceRow>, rule: KeyRule, key: string): (r: seq<PriceRecord>)
    ensures |r| <= |rows|
    decreases |rows|
  {
    if |rows| == 0 then []
    else
      var last := rows[|rows| - 1];
      Matching(rows[..|rows| - 1], rule, key) + (if KeyOf(rule, last) == key then [Project(last)] else [])
  }

  // The reduction.

  /** One step of the reduction: append the record to the group of its key, opening the group when new. */
  function Insert(groups: seq<Group>, key: string, record: PriceRecord): seq<Group>
    decreases |groups|
  {
    if |groups| == 0 then [Group(key, [record])]
    else if groups[0].token == key then [groups[0].(records := groups[0].records + [record])] + groups[1..]
    else [groups[0]] + Insert(groups[1..], key, record)
  }

  function GroupAll(rows: seq<PriceRow>, rule: KeyRule): seq<Group>
    decreases |rows|
  {
    if |rows| == 0 then []
    else
      var last := rows[|rows| - 1];
      Insert(GroupAll(rows[..|rows| - 1], rule), KeyOf(rule, last), Project(last))
  }

  /** The groups are exactly the keys of the rows in first-appearance order, each holding its rows' projections. */
  ghost predicate GroupsOf(groups: seq<Group>, rows: seq<PriceRow>, rule: KeyRule) {
    && Tokens(groups) == Dedup(Keys(rows, rule))
    && (forall k :: RecordsOf(groups, k) == Matching(rows, rule, k))
    && (forall i :: 0 <= i < |groups| ==> |groups[i].records| > 0)
    && TotalRecords(groups) == |rows|
  }

  /**
   * The `reduce` into `{}`: the groups when no key names an inherited member,
   * and the `push` failure otherwise.
   */
  function GroupBy(rows: seq<PriceRow>, rule: KeyRule, failure: string): (r: Result<seq<Group>>)
    ensures r.Err? <==> exists i :: 0 <= i < |rows| && KeyOf(rule, rows[i]) in PrototypeKeys
    ensures r.Err? ==> r.error == failure
    ensures r.Ok? ==> GroupsOf(r.value, rows, rule)
  {
    if exists i :: 0 <= i < |rows| && KeyOf(rule, rows[i]) in PrototypeKeys then Err(failure)
    else
      GroupAllIsGrouping(rows, rule);
      Ok(GroupAll(rows, rule))
  }

  lemma {:induction false} InsertTokens(groups: seq<Group>, key: string, record: PriceRecord)
    ensures Tokens(Insert(groups, key, record)) == if key in Tokens(groups) then Tokens(groups) else Tokens(groups) + [key]
    decreases |groups|
  {
    if |groups| > 0 {
      if groups[0].token == key {
        InsertAtHead(groups, record);
      } else {
        var rest := Tokens(groups[1..]);
        InsertTokens(groups[1..], key, record);
        assert Tokens(groups) == [groups[0].token] + rest;
        assert Tokens(Insert(groups, key, record)) == [groups[0].token] + Tokens(Insert(groups[1..], key, record));
      }
    }
  }

  /** Proof step: a record for the first group's key joins that group, and the keys stay as they are. */
  lemma InsertAtHead(groups: seq<Group>, record: PriceRecord)
    requires |groups| > 0
    ensures groups[0].token in Tokens(groups)
    ensures Tokens(Insert(groups, groups[0].token, record)) == Tokens(groups)
  {
    assert Tokens(groups)[0] == groups[0].token;
  }

  lemma {:induction false} InsertLookup(groups: seq<Group>, key: string, record: PriceRecord, k: string)
    ensures RecordsOf(Insert(groups, key, record), k) == RecordsOf(groups, k) + (if k == key then [record] else [])
    decreases |groups|
  {
    if |groups| > 0 && groups[0].token != key {
      InsertLookup(groups[1..], key, record, k);
    }
  }

  lemma {:induction false} InsertTotal(groups: seq<Group>, key: string, record: PriceRecord)
    ensures TotalRecords(Insert(groups, key, record)) == TotalRecords(groups) + 1
    ensures (forall i :: 0 <= i < |groups| ==> |groups[i].records| > 0) ==>
            forall i :: 0 <= i < |Insert(groups, key, record)| ==> |Insert(groups, key, record)[i].records| > 0
    decreases |groups|
  {
    if |groups| > 0 && groups[0].token != key {
      InsertTotal(groups[1..], key, record);
      var r := Insert(groups, key, record);
      if forall i :: 0 <= i < |groups| ==> |groups[i].records| > 0 {
        forall i | 0 <= i < |r|
          ensures |r[i].records| > 0
        {
          if i > 0 {
            assert r[i] == Insert(groups[1..], key, record)[i - 1];
          }
        }
      }
    }
  }

  lemma {:induction false} GroupAllTokens(rows: seq<PriceRow>, rule: KeyRule)
    ensures Tokens(GroupAll(rows, rule)) == Dedup(Keys(rows, rule))
    decreases |rows|
  {
    if |rows| > 0 {
      var prefix := rows[..|rows| - 1];
      var last := rows[|rows| - 1];
      var key := KeyOf(rule, last);
      var before := Dedup(Keys(prefix, rule));
      assert Keys(rows, rule)[..|rows| - 1] == Keys(prefix, rule);
      assert Dedup(Keys(rows, rule)) == if key in before then before else before + [key];
      GroupAllTokens(prefix, rule);
      InsertTokens(GroupAll(prefix, rule), key, Project(last));
    }
  }

  lemma {:induction false} GroupAllLookup(rows: seq<PriceRow>, rule: KeyRule, k: string)
    ensures RecordsOf(GroupAll(rows, rule), k) == Matching(rows, rule, k)
    decreases |rows|
  {
    if |rows| > 0 {
      var prefix := rows[..|rows| - 1];
      var last := rows[|rows| - 1];
      GroupAllLookup(prefix, rule, k);
      InsertLookup(GroupAll(prefix, rule), KeyOf(rule, last), Project(last), k);
    }
  }

  lemma {:induction false} GroupAllTotal(rows: seq<PriceRow>, rule: KeyRule)
    ensures TotalRecords(GroupAll(rows, rule)) == |rows|
    ensures forall i :: 0 <= i < |GroupAll(rows, rule)| ==> |GroupAll(rows, rule)[i].records| > 0
    decreases |rows|
  {
    if |rows| > 0 {
      var prefix := rows[..|rows| - 1];
      var last := rows[|rows| - 1];
      GroupAllTotal(prefix, rule);
      InsertTotal(GroupAll(prefix, rule), KeyOf(rule, last), Project(last));
    }
  }

  lemma GroupAllIsGrouping(rows: seq<PriceRow>, rule: KeyRule)
    ensures GroupsOf(GroupAll(rows, rule), rows, rule)
  {
    GroupAllTokens(rows, rule);
    GroupAllTotal(rows, rule);
    forall k
      ensures RecordsOf(GroupAll(rows, rule), k) == Matching(rows, rule, k)
    {
      GroupAllLookup(rows, rule, k);
    }
  }

  /** Every key of the rows names exactly one group. */
  lemma GroupKeysDistinct(rows: seq<PriceRow>, rule: KeyRule, groups: seq<Group>)
    requires GroupsOf(groups, rows, rule)
    ensures forall i, j :: 0 <= i < j < |groups| ==> groups[i].token != groups[j].token
    ensures forall k :: k in Tokens(groups) <==> exists i :: 0 <= i < |rows| && KeyOf(rule, rows[i]) == k
  {
    var ts := Tokens(groups);
    forall i, j | 0 <= i < j < |groups|
      ensures groups[i].token != groups[j].token
    {
      assert ts[i] != ts[j];
    }
    forall k
      ensures k in ts <==> exists i :: 0 <= i < |rows| && KeyOf(rule, rows[i]) == k
    {
      var ks := Keys(rows, rule);
      if k in ks {
        var i :| 0 <= i < |ks| && ks[i] == k;
        assert KeyOf(rule, rows[i]) == k;
      }
    }
  }

  /** With distinct names, looking a group's name up finds that group. */
  lemma {:induction false} RecordsOfNamed(groups: seq<Group>, i: int)
    requires 0 <= i < |groups|
    requires forall a, b :: 0 <= a < b < |groups| ==> groups[a].token != groups[b].token
    ensures RecordsOf(groups, groups[i].token) == groups[i].records
    decreases |groups|
  {
    if i > 0 {
      assert groups[0].token != groups[i].token;
      RecordsOfNamed(groups[1..], i - 1);
    }
  }
}

=== FILE: messages.dfy ===
/**
 * The in-memory log of inter-agent messages: an append-only sequence read
 * whole or filtered by conversation thread, and the guarded append of a
 * user's message.
 */
module Messages {
  import opened Wrappers
  import opened AgentTypes

  type Log = seq<AgentMessage>

  /** The messages of one thread, in insertion order. */
  function OnThread(log: Log, threadId: string): (r: Log)
    ensures |r| <= |log|
    ensures forall m :: m in r <==> m in log && m.threadId == threadId
    decreases |log|
  {
    if |log| == 0 then []
    else (if log[0].threadId == threadId then [log[0]] else []) + OnThread(log[1..], threadId)
  }

  /** Filtering by thread distributes over concatenation, so it keeps insertion order. */
  lemma {:induction false} OnThreadAppend(a: Log, b: Log, threadId: string)
    ensures OnThread(a + b, threadId) == OnThread(a, threadId) + OnThread(b, threadId)
    decreases |a|
  {
    if |a| == 0 {
      assert a + b == b;
    } else {
      assert (a + b)[1..] == a[1..] + b;
      OnThreadAppend(a[1..], b, threadId);
    }
  }

  /** `getAgentMessages`: with a non-empty thread id, that thread's messages; otherwise the whole log. */
  function GetAgentMessages(log: Log, threadId: Option<string>): (r: Log)
    ensures threadId.Some? && threadId.value != "" ==>
      forall m :: m in r <==> m in log && m.threadId == threadId.value
    ensures threadId.None? || threadId.value == "" ==> r == log
  {
    if threadId.Some? && threadId.value != "" then OnThread(log, threadId.value) else log
  }

  function AddAgentMessage(log: Log, message: AgentMessage): Log {
    log + [message]
  }

  /**
   * Appending one message leaves every earlier read unchanged and adds the
   * message at the end of its own thread's view and of the whole log.
   */
  lemma AddThenGet(log: Log, message: AgentMessage, threadId: string)
    requires threadId != ""
    ensures GetAgentMessages(AddAgentMessage(log, message), Some(threadId))
         == GetAgentMessages(log, Some(threadId)) + (if message.threadId == threadId then [message] else [])
    ensures GetAgentMessages(AddAgentMessage(log, message), None) == GetAgentMessages(log, None) + [message]
  {
    OnThreadAppend(log, [message], threadId);
    assert OnThread([message], threadId) == (if message.threadId == threadId then [message] else []) + OnThread([], threadId);
  }

  /** Two messages added on a thread with no earlier messages are read back in order, unchanged. */
  lemma TwoMessagesOnOneThread(log: Log, first: AgentMessage, second: AgentMessage, threadId: string)
    requires threadId != ""
    requires OnThread(log, threadId) == []
    requires first.threadId == threadId && second.threadId == threadId
    ensures GetAgentMessages(AddAgentMessage(AddAgentMessage(log, first), second), Some(threadId)) == [first, second]
  {
    AddThenGet(log, first, threadId);
    AddThenGet(AddAgentMessage(log, first), second, threadId);
  }

  const BusyMessage: string := "Cannot add message while another request is being processed"

  function UserMessage(threadId: string, content: string): AgentMessage {
    AgentMessage(UserAgent, Assistant1Id, Text(content), User, threadId)
  }

  predicate HasActiveRun(runs: seq<RunInfo>) {
    exists r | r in runs :: IsActive(r.status)
  }

  datatype AddResult = AddResult(log: Log, outcome: Outcome)

  /**
   * `addMessageToThread`: refuses while a run of the thread is active, and
   * otherwise logs the user's message before handing it to the engine, whose
   * answer `created` becomes the outcome.
   */
  function AddMessageToThread(log: Log, threadId: string, content: string, runs: RunList, created: Outcome): (r: AddResult)
    ensures runs.ListFailed? ==> r == AddResult(log, Raised(runs.message))
    ensures runs.Listed? && (exists k :: 0 <= k < |runs.runs| && IsActive(runs.runs[k].status)) ==>
      r == AddResult(log, Raised(BusyMessage))
    ensures runs.Listed? && (forall k :: 0 <= k < |runs.runs| ==> !IsActive(runs.runs[k].status)) ==>
      r.log == log + [UserMessage(threadId, content)] && r.outcome == created
    ensures r.outcome.Done? ==> |r.log| == |log| + 1 && r.log[|log|].kind == User
  {
    match runs
    case ListFailed(message) => AddResult(log, Raised(message))
    case Listed(rs) =>
      if HasActiveRun(rs) then AddResult(log, Raised(BusyMessage))
      else AddResult(AddAgentMessage(log, UserMessage(threadId, content)), created)
  }
}

=== FILE: query_guard.dfy ===
/**
 * The read-only guard for generated SQL (`validateQuery` in
 * src/lib/agents/sql/recursive-search.ts). It is a standalone check: no search
 * path in the code calls it.
 */
module QueryGuard {
  import opened Wrappers
  import opened Text

  /** The operations a query may not mention, in the order they are checked. */
  const ForbiddenOperations: seq<string> := ["insert", "update", "delete", "drop", "truncate", "alter", "create"]

  const NotSelectError: string := "Query must start with SELECT"
  const ForbiddenPrefix: string := "Query contains forbidden operation: "
  const WrongTableError: string := "Query must select from price_data table"

  datatype Verdict = Valid | Invalid(error: string)

  /** The text the guard inspects: lower-cased and trimmed. */
  function Normalize(query: string): string {
    Lower(Trim(query))
  }

  /** The first of `ops` that occurs in `text`. */
  function FirstOccurring(text: string, ops: seq<string>): (r: Option<string>)
    ensures r.None? <==> forall k :: 0 <= k < |ops| ==> !Contains(text, ops[k])
    ensures r.Some? ==> exists k :: 0 <= k < |ops| && ops[k] == r.value && Contains(text, ops[k])
                          && forall j :: 0 <= j < k ==> !Contains(text, ops[j])
    decreases |ops|
  {
    if |ops| == 0 then None
    else if Contains(text, ops[0]) then Some(ops[0])
    else
      var r := FirstOccurring(text, ops[1..]);
      assert forall k :: 1 <= k < |ops| ==> ops[k] == ops[1..][k - 1];
      r
  }

  /** No forbidden operation occurs in the text. */
  predicate NoneForbidden(text: string) {
    forall k :: 0 <= k < |ForbiddenOperations| ==> !Contains(text, ForbiddenOperations[k])
  }

  /** The guard accepts exactly the queries that pass all three checks. */
  predicate ReadOnlyPriceQuery(query: string) {
    var n := Normalize(query);
    StartsWith(n, "select") && NoneForbidden(n) && Contains(n, "from price_data")
  }

  /**
   * `validateQuery`: the checks run in order (SELECT prefix, forbidden
   * operations in list order, the price table) and the first failure names
   * the verdict.
   */
  function ValidateQuery(query: string): (v: Verdict)
    ensures v.Valid? <==> ReadOnlyPriceQuery(query)
    ensures !StartsWith(Normalize(query), "select") ==> v == Invalid(NotSelectError)
    ensures StartsWith(Normalize(query), "select") && NoneForbidden(Normalize(query))
            && !Contains(Normalize(query), "from price_data")
            ==> v == Invalid(WrongTableError)
  {
    var n := Normalize(query);
    if !StartsWith(n, "select") then Invalid(NotSelectError)
    else
      match FirstOccurring(n, ForbiddenOperations)
      case Some(op) => Invalid(ForbiddenPrefix + op)
      case None => if !Contains(n, "from price_data") then Invalid(WrongTableError) else Valid
  }

  /** Among several forbidden operations, the verdict names the first in list order. */
  lemma FirstForbiddenIsNamed(query: string, k: int)
    requires StartsWith(Normalize(query), "select")
    requires 0 <= k < |ForbiddenOperations| && Contains(Normalize(query), ForbiddenOperations[k])
    requires forall j :: 0 <= j < k ==> !Contains(Normalize(query), ForbiddenOperations[j])
    ensures ValidateQuery(query) == Invalid(ForbiddenPrefix + ForbiddenOperations[k])
  {
    var n := Normalize(query);
    var r := FirstOccurring(n, ForbiddenOperations);
    var i :| 0 <= i < |ForbiddenOperations| && ForbiddenOperations[i] == r.value && Contains(n, ForbiddenOperations[i])
             && forall j :: 0 <= j < i ==> !Contains(n, ForbiddenOperations[j]);
    assert i == k;
  }

  /** A query mentioning a forbidden operation is refused, whatever else it says. */
  lemma ForbiddenIsRefused(query: string, op: string)
    requires op in ForbiddenOperations
    requires Contains(Normalize(query), op)
    ensures ValidateQuery(query).Invalid?
  {
  }
}

=== FILE: recursive_search.dfy ===
/**
 * The recursive price search (`recursiveSearch` in
 * src/lib/agents/sql/recursive-search.ts): every term of the phrase is
 * searched up to three times with increasingly broad strategies, each answer
 * is filtered by a name check, and the outcome reports which terms were found.
 *
 * The price store is a parameter: `store(n, q)` is its answer to the n-th call,
 * whose query text is q. Delays between attempts and execution times are left
 * out.
 */
module RecursiveSearch {
  import opened Wrappers
  import opened Text
  import opened Terms
  import opened SqlTypes
  import opened AgentTypes
  import opened Messages
  import opened QueryGuard
  import opened SearchQuery
  import opened SeqFacts

  const MaxAttemptsPerTerm: nat := 3

  datatype BestMatch = BestMatch(term: string, similarity: real)

  /** The record of one answered store call. */
  datatype SearchAttempt = SearchAttempt(
    attempt: nat,
    query: string,
    results: seq<PriceRow>,
    success: bool,
    error: Option<string>,
    errorType: Option<ErrorType>,
    searchToken: string,
    bestMatch: Option<BestMatch>)

  /** One call made to the store: the term, the attempt number that chose the strategy, the query. */
  datatype StoreCall = StoreCall(term: string, attemptNumber: nat, query: string)

  /** The search context, plus the rows accepted so far and the calls made. */
  datatype SearchState = SearchState(
    threadId: string,
    attempts: seq<SearchAttempt>,
    foundTerms: seq<string>,
    results: seq<PriceRow>,
    calls: seq<StoreCall>,
    log: Log)

  type Store = (nat, string) -> StoreReply

  /** Builds the query for a term and an attempt number; the search uses `GenerateSearchQuery`. */
  type Builder = (string, int) -> string

  /** How an error message is classified: by the words it contains, timeout first. */
  function Classify(message: string): (t: ErrorType)
    ensures t == Timeout <==> Contains(message, "timeout")
    ensures t == Syntax <==> !Contains(message, "timeout") && Contains(message, "syntax")
    ensures t != NoResults && t != Validation
  {
    if Contains(message, "timeout") then Timeout
    else if Contains(message, "syntax") then Syntax
    else Execution
  }

  /** How many recorded attempts searched for `term`. */
  function CountToken(attempts: seq<SearchAttempt>, term: string): (n: nat)
    ensures n <= |attempts|
    decreases |attempts|
  {
    if |attempts| == 0 then 0
    else CountToken(attempts[..|attempts| - 1], term) + (if attempts[|attempts| - 1].searchToken == term then 1 else 0)
  }

  lemma CountTokenPush(attempts: seq<SearchAttempt>, a: SearchAttempt, term: string)
    ensures CountToken(attempts + [a], term) == CountToken(attempts, term) + (if a.searchToken == term then 1 else 0)
  {
    assert (attempts + [a])[..|attempts|] == attempts;
  }

  /** How many store calls were made for `term`. */
  function CountCalls(calls: seq<StoreCall>, term: string): (n: nat)
    ensures n <= |calls|
    decreases |calls|
  {
    if |calls| == 0 then 0
    else CountCalls(calls[..|calls| - 1], term) + (if calls[|calls| - 1].term == term then 1 else 0)
  }

  lemma {:induction false} CountCallsAppend(a: seq<StoreCall>, b: seq<StoreCall>, term: string)
    ensures CountCalls(a + b, term) == CountCalls(a, term) + CountCalls(b, term)
    decreases |b|
  {
    if |b| == 0 {
      assert a + b == a;
    } else {
      var b' := b[..|b| - 1];
      assert (a + b)[..|a + b| - 1] == a + b';
      CountCallsAppend(a, b', term);
    }
  }

  /** A run of calls all for one term counts fully for it and not at all for any other. */
  lemma {:induction false} CountCallsUniform(b: seq<StoreCall>, term: string, t: string)
    requires forall i :: 0 <= i < |b| ==> b[i].term == term
    ensures CountCalls(b, t) == if t == term then |b| else 0
    decreases |b|
  {
    if |b| > 0 {
      CountCallsUniform(b[..|b| - 1], term, t);
    }
  }

  lemma {:induction false} CountCallsPrefix(calls: seq<StoreCall>, j: nat, term: string)
    requires j <= |calls|
    ensures CountCalls(calls[..j], term) <= CountCalls(calls, term)
  {
    assert calls == calls[..j] + calls[j..];
    CountCallsAppend(calls[..j], calls[j..], term);
  }

  /**
   * How many of the calls for `term` the store answered, with rows or an
   * error object, rather than throwing: each of them left an attempt record.
   * The i-th call was answered by `store(i, ...)`.
   */
  function CountAnswered(calls: seq<StoreCall>, term: string, store: Store): (n: nat)
    ensures n <= CountCalls(calls, term)
    decreases |calls|
  {
    if |calls| == 0 then 0
    else
      var i := |calls| - 1;
      CountAnswered(calls[..i], term, store) + (if calls[i].term == term && !store(i, calls[i].query).StoreThrew? then 1 else 0)
  }

  lemma CountAnsweredPush(calls: seq<StoreCall>, c: StoreCall, t: string, store: Store)
    ensures CountAnswered(calls + [c], t, store)
            == CountAnswered(calls, t, store) + (if c.term == t && !store(|calls|, c.query).StoreThrew? then 1 else 0)
  {
    assert (calls + [c])[..|calls|] == calls;
  }

  /** Against a store that never throws, every call for a term is counted as answered. */
  lemma {:induction false} CountAnsweredAll(calls: seq<StoreCall>, term: string, store: Store)
    requires forall n, q :: !store(n, q).StoreThrew?
    ensures CountAnswered(calls, term, store) == CountCalls(calls, term)
    decreases |calls|
  {
    if |calls| > 0 {
      CountAnsweredAll(calls[..|calls| - 1], term, store);
    }
  }

  /** `bestMatch`: the first row's name and similarity, where a missing or zero similarity reads as 1. */
  function BestMatchOf(rows: seq<PriceRow>): (r: Option<BestMatch>)
    ensures r.Some? <==> |rows| > 0
    ensures r.Some? ==> r.value.term == rows[0].nombreGenerico && r.value.similarity != 0.0
    ensures r.Some? && rows[0].similarity.Some? && rows[0].similarity.value != 0.0 ==>
              r.value.similarity == rows[0].similarity.value
    ensures r.Some? && (rows[0].similarity.None? || rows[0].similarity.value == 0.0) ==> r.value.similarity == 1.0
  {
    if |rows| == 0 then None
    else
      var score := match rows[0].similarity
        case Some(x) => if x == 0.0 then 1.0 else x
        case None => 1.0;
      Some(BestMatch(rows[0].nombreGenerico, score))
  }

  /** The number the next log entry reports: one more than the attempts recorded so far. */
  function NextAttempt(st: SearchState): nat {
    |st.attempts| + 1
  }

  function Note(st: SearchState, content: Content, kind: MessageType): SearchState {
    st.(log := AddAgentMessage(st.log, AgentMessage(Assistant2Id, SystemAgent, content, kind, st.threadId)))
  }

  /** The attempt number of the next search for `term`: one more than the attempts already recorded for it. */
  function AttemptNumber(st: SearchState, term: string): nat {
    1 + CountToken(st.attempts, term)
  }

  function CallFor(st: SearchState, term: string, build: Builder): StoreCall {
    var n := AttemptNumber(st, term);
    StoreCall(term, n, build(term, n))
  }

  /** What one search hands back: the state after it, and the rows or the error it raised. */
  datatype Searched = Searched(state: SearchState, outcome: Result<seq<PriceRow>>)

  /** The record `executeSearch` prepares before calling the store: numbered, with the query and the term. */
  function Pending(st: SearchState, term: string, build: Builder): SearchAttempt {
    SearchAttempt(NextAttempt(st), CallFor(st, term, build).query, [], false, None, None, term, None)
  }

  /**
   * `after` is `before` plus the pending record completed by the store's
   * answer: rows make it a success holding them, an error object leaves it a
   * failure carrying the message and its classification.
   */
  predicate Records(before: seq<SearchAttempt>, after: seq<SearchAttempt>, pending: SearchAttempt, reply: StoreReply) {
    && |after| == |before| + 1 && after[..|before|] == before
    && var a := after[|before|];
    && a.attempt == pending.attempt && a.query == pending.query && a.searchToken == pending.searchToken
    && (a.success <==> reply.Rows?)
    && (reply.Rows? ==>
          && a.results == reply.rows && a.bestMatch == BestMatchOf(reply.rows)
          && a.error == pending.error && a.errorType == pending.errorType)
    && (reply.StoreError? ==>
          && a.error == Some(reply.message) && a.errorType == Some(Classify(reply.message))
          && a.results == pending.results && a.bestMatch == pending.bestMatch)
  }

  /**
   * `executeSearch`: logs the attempt, asks the store once and records the
   * attempt when the store answered. A store error is recorded, logged and
   * raised; a raised error mentioning a timeout is logged and read as no rows.
   */
  function ExecuteSearch(term: string, st: SearchState, store: Store, build: Builder): (r: Searched)
    ensures r.state.calls == st.calls + [CallFor(st, term, build)]
    ensures r.state.threadId == st.threadId && r.state.foundTerms == st.foundTerms && r.state.results == st.results
    ensures var reply := store(|st.calls|, CallFor(st, term, build).query);
            && (reply.StoreThrew? ==> r.state.attempts == st.attempts)
            && (!reply.StoreThrew? ==> Records(st.attempts, r.state.attempts, Pending(st, term, build), reply))
            && CountToken(r.state.attempts, term) == CountToken(st.attempts, term) + (if reply.StoreThrew? then 0 else 1)
            && (reply.Rows? ==> r.outcome == Ok(reply.rows))
            && (!reply.Rows? ==> r.outcome == if Contains(reply.message, "timeout") then Ok([]) else Err(reply.message))
    ensures forall t :: t != term ==> CountToken(r.state.attempts, t) == CountToken(st.attempts, t)
    ensures |st.log| < |r.state.log| && r.state.log[..|st.log|] == st.log
  {
    var call := CallFor(st, term, build);
    var logged := Note(st, SearchAttemptLog(NextAttempt(st), [term], Some(call.query)), Query);
    var st1 := logged.(calls := st.calls + [call]);
    Answer(st1, Pending(st, term, build), store(|st.calls|, call.query))
  }

  /**
   * The part of `executeSearch` after the store call, given the pending
   * attempt record: rows are recorded and returned; an error object is
   * recorded and raised, and read as no rows when it mentions a timeout; a
   * thrown error records nothing and is treated the same way.
   */
  function Answer(st: SearchState, attempt: SearchAttempt, reply: StoreReply): (r: Searched)
    ensures r.state.calls == st.calls
    ensures r.state.threadId == st.threadId && r.state.foundTerms == st.foundTerms && r.state.results == st.results
    ensures reply.StoreThrew? ==> r.state.attempts == st.attempts
    ensures !reply.StoreThrew? ==> Records(st.attempts, r.state.attempts, attempt, reply)
    ensures CountToken(r.state.attempts, attempt.searchToken)
            == CountToken(st.attempts, attempt.searchToken) + (if reply.StoreThrew? then 0 else 1)
    ensures forall t :: t != attempt.searchToken ==> CountToken(r.state.attempts, t) == CountToken(st.attempts, t)
    ensures reply.Rows? ==> r.outcome == Ok(reply.rows)
    ensures !reply.Rows? ==> r.outcome == if Contains(reply.message, "timeout") then Ok([]) else Err(reply.message)
    ensures |st.log| <= |r.state.log| && r.state.log[..|st.log|] == st.log
  {
    match reply
    case Rows(rows) =>
      var answered := attempt.(results := rows, success := true, bestMatch := BestMatchOf(rows));
      CountTokenPushAll(st.attempts, answered, attempt.searchToken);
      Searched(st.(attempts := st.attempts + [answered]), Ok(rows))
    case StoreError(message) =>
      var kind := Classify(message);
      var failed := attempt.(success := false, error := Some(message), errorType := Some(kind));
      var st2 := st.(attempts := st.attempts + [failed]);
      CountTokenPushAll(st.attempts, failed, attempt.searchToken);
      var r := Absorb(Note(st2, SearchErrorLog(NextAttempt(st2), message, Some(kind)), Query), message);
      assert r.state.log[..|st.log|] == r.state.log[..|st2.log| + 1][..|st.log|];
      r
    case StoreThrew(message) =>
      Absorb(st, message)
  }

  lemma CountTokenPushAll(attempts: seq<SearchAttempt>, a: SearchAttempt, term: string)
    requires a.searchToken == term
    ensures CountToken(attempts + [a], term) == CountToken(attempts, term) + 1
    ensures forall t :: t != term ==> CountToken(attempts + [a], t) == CountToken(attempts, t)
  {
    CountTokenPush(attempts, a, term);
    forall t | t != term
      ensures CountToken(attempts + [a], t) == CountToken(attempts, t)
    {
      CountTokenPush(attempts, a, t);
    }
  }

  /** The `catch` of `executeSearch`: a timeout is logged and reads as no rows; anything else propagates. */
  function Absorb(st: SearchState, message: string): (r: Searched)
    ensures r.state.attempts == st.attempts && r.state.calls == st.calls
    ensures r.state.threadId == st.threadId && r.state.foundTerms == st.foundTerms && r.state.results == st.results
    ensures Contains(message, "timeout") <==> r.outcome == Ok([])
    ensures !Contains(message, "timeout") <==> r.outcome == Err(message)
    ensures |st.log| <= |r.state.log| && r.state.log[..|st.log|] == st.log
  {
    if Contains(message, "timeout") then
      Searched(Note(st, SearchTimeoutLog(NextAttempt(st), message), Query), Ok([]))
    else
      Searched(st, Err(message))
  }

  /** `validateMatch`: one of the trimmed, lower-cased names contains the other. */
  predicate ValidateMatch(term: string, name: string) {
    var t := Lower(Trim(term));
    var n := Lower(Trim(name));
    Contains(n, t) || Contains(t, n)
  }

  /**
   * `validateMatch` lower-cases and then trims both names, and passes when
   * either contains the other. So it is symmetric, a name equal to the term
   * once normalised passes, and a term that is blank once normalised passes
   * every name.
   */
  lemma ValidateMatchMeaning(term: string, name: string)
    ensures ValidateMatch(term, name) <==>
            Contains(Trim(Lower(name)), Trim(Lower(term))) || Contains(Trim(Lower(term)), Trim(Lower(name)))
    ensures ValidateMatch(term, name) == ValidateMatch(name, term)
    ensures Trim(Lower(term)) == Trim(Lower(name)) ==> ValidateMatch(term, name)
    ensures Trim(Lower(term)) == "" ==> ValidateMatch(term, name)
  {
    LowerTrim(term);
    LowerTrim(name);
    ContainsSelf(Trim(Lower(name)));
    assert OccursAt(Trim(Lower(name)), "", 0);
  }

  /** The rows whose name passes `validateMatch` for the term, in order. */
  function ValidRows(term: string, rows: seq<PriceRow>): (r: seq<PriceRow>)
    ensures |r| <= |rows|
    ensures forall x :: x in r <==> x in rows && ValidateMatch(term, x.nombreGenerico)
    decreases |rows|
  {
    if |rows| == 0 then []
    else (if ValidateMatch(term, rows[0].nombreGenerico) then [rows[0]] else []) + ValidRows(term, rows[1..])
  }

  /** A single row is kept exactly when it passes the check. */
  lemma ValidRowsOne(term: string, x: PriceRow)
    ensures ValidRows(term, [x]) == if ValidateMatch(term, x.nombreGenerico) then [x] else []
  {
    assert [x][1..] == [];
  }

  /**
   * Filtering a concatenation filters each part and keeps them in order, so
   * together with `ValidRowsOne` the kept rows are the passing rows in their
   * original order, repetitions included.
   */
  lemma {:induction false} ValidRowsAppend(term: string, a: seq<PriceRow>, b: seq<PriceRow>)
    ensures ValidRows(term, a + b) == ValidRows(term, a) + ValidRows(term, b)
    decreases |a|
  {
    if |a| == 0 {
      assert a + b == b;
    } else {
      var h, t, v := ValidRows(term, [a[0]]), ValidRows(term, a[1..]), ValidRows(term, b);
      HeadTail(a, b);
      calc {
        ValidRows(term, a + b);
        { ValidRowsCons(term, a[0], a[1..] + b); }
        h + ValidRows(term, a[1..] + b);
        { ValidRowsAppend(term, a[1..], b); }
        h + (t + v);
        { ConcatAssoc(h, t, v); }
        (h + t) + v;
        { ValidRowsCons(term, a[0], a[1..]); }
        ValidRows(term, a) + v;
      }
    }
  }

  /** Proof step: filtering a row followed by more rows. */
  lemma ValidRowsCons(term: string, x: PriceRow, rest: seq<PriceRow>)
    ensures ValidRows(term, [x] + rest) == ValidRows(term, [x]) + ValidRows(term, rest)
  {
    assert ([x] + rest)[1..] == rest;
    assert [x][1..] == [];
  }

  /** The accepted rows, each labelled with the term it was found for. */
  function Stamp(rows: seq<PriceRow>, term: string): (r: seq<PriceRow>)
    ensures |r| == |rows|
    ensures forall i :: 0 <= i < |r| ==> r[i].searchToken == Some(term)
    ensures forall i :: 0 <= i < |r| ==> r[i].(searchToken := rows[i].searchToken) == rows[i]
  {
    seq(|rows|, i requires 0 <= i < |rows| => rows[i].(searchToken := Some(term)))
  }

  /** One pass of the attempt loop's body, after the search: found, or why not. */
  datatype Round = Round(state: SearchState, found: bool)

  /**
   * The loop body after `executeSearch`: the term is found when some row
   * passes the name check; those rows are kept, labelled with the term. Any
   * other answer is logged with the reason it did not count.
   */
  function Examine(term: string, e: Searched): (r: Round)
    ensures r.state.calls == e.state.calls && r.state.attempts == e.state.attempts
    ensures r.state.threadId == e.state.threadId
    ensures r.found <==> e.outcome.Ok? && exists x :: x in e.outcome.value && ValidateMatch(term, x.nombreGenerico)
    ensures r.found ==> (r.state.foundTerms == AddNew(e.state.foundTerms, term)
                     && r.state.results == e.state.results + Stamp(ValidRows(term, e.outcome.value), term))
    ensures !r.found ==> r.state.foundTerms == e.state.foundTerms && r.state.results == e.state.results
    ensures |e.state.log| < |r.state.log| && r.state.log[..|e.state.log|] == e.state.log
  {
    var st := e.state;
    match e.outcome
    case Ok(rows) =>
      var valid := ValidRows(term, rows);
      if |valid| > 0 then
        assert valid[0] in valid;
        var st1 := st.(foundTerms := AddNew(st.foundTerms, term), results := st.results + Stamp(valid, term));
        Round(Note(st1, SearchResultsLog(NextAttempt(st1), |valid|, st1.foundTerms), Response), true)
      else if |rows| > 0 then
        var reason := "Found " + NatToString(|rows|) + " results but none met validation criteria";
        Round(Note(st, SearchErrorLog(NextAttempt(st), reason, Some(Validation)), Query), false)
      else
        Round(Note(st, SearchErrorLog(NextAttempt(st), "No results found", Some(NoResults)), Query), false)
    case Err(message) =>
      Round(Note(st, SearchErrorLog(NextAttempt(st), "Search failed: " + message, Some(Classify(message))), Query), false)
  }

  /**
   * The attempt loop for one term, entered after `done` passes: it stops at
   * the first pass that finds the term, and after three passes in any case.
   */
  function TermLoop(term: string, st: SearchState, store: Store, build: Builder, done: nat): (r: Round)
    requires done < MaxAttemptsPerTerm
    ensures |st.calls| < |r.state.calls| <= |st.calls| + (MaxAttemptsPerTerm - done)
    ensures !r.found ==> |r.state.calls| == |st.calls| + (MaxAttemptsPerTerm - done)
    decreases MaxAttemptsPerTerm - done
  {
    var round := Examine(term, ExecuteSearch(term, st, store, build));
    if round.found || done + 1 == MaxAttemptsPerTerm then round
    else TermLoop(term, round.state, store, build, done + 1)
  }

  /** One term of the phrase: the attempt loop, then a final note when the term was not found. */
  function SearchTerm(term: string, st: SearchState, store: Store, build: Builder): (r: SearchState)
    ensures |st.calls| < |r.calls| <= |st.calls| + MaxAttemptsPerTerm
  {
    var round := TermLoop(term, st, store, build, 0);
    if round.found then round.state
    else
      var reason := "No valid matches found for term: " + term;
      Note(round.state, SearchErrorLog(NextAttempt(round.state), reason, Some(NoResults)), Query)
  }

  /** The terms of the phrase, one after the other. */
  function SearchAll(terms: seq<string>, st: SearchState, store: Store, build: Builder): (r: SearchState)
    ensures |st.calls| + |terms| <= |r.calls| <= |st.calls| + MaxAttemptsPerTerm * |terms|
    decreases |terms|
  {
    if |terms| == 0 then st
    else SearchAll(terms[1..], SearchTerm(terms[0], st, store, build), store, build)
  }

  /** The response of `recursiveSearch`, with the calls it made and the log it left. */
  datatype SearchOutcome = SearchOutcome(
    status: ResponseStatus,
    data: seq<PriceRow>,
    attempts: seq<SearchAttempt>,
    foundTerms: seq<string>,
    calls: seq<StoreCall>,
    log: Log)

  function InitialState(log: Log, threadId: string): SearchState {
    SearchState(threadId, [], [], [], [], log)
  }

  /** Every term counts as found, some do, or none does. */
  function StatusOf(found: nat, wanted: nat): (s: ResponseStatus)
    ensures s == Success <==> found == wanted
    ensures s == ResponseStatus.Error <==> found == 0 && wanted > 0
  {
    if found == wanted then Success
    else if found > 0 then PartialSuccess
    else ResponseStatus.Error
  }

  /**
   * `recursiveSearch`: searches every term of the phrase, each with at least
   * one and at most three store calls.
   */
  function Search(log: Log, threadId: string, ingredients: string, store: Store): (r: SearchOutcome)
    ensures |SplitTerms(ingredients)| <= |r.calls| <= MaxAttemptsPerTerm * |SplitTerms(ingredients)|
  {
    var terms := SplitTerms(ingredients);
    var st := SearchAll(terms, InitialState(log, threadId), store, GenerateSearchQuery);
    SearchOutcome(StatusOf(|st.foundTerms|, |terms|), st.results, st.attempts, st.foundTerms, st.calls, st.log)
  }

  // ---------------------------------------------------------------------------
  // What a search leaves behind
  // ---------------------------------------------------------------------------

  /**
   * From `a` to `b` the search only grew the call list and the log, worked on
   * the given terms alone, and kept every term it had found.
   */
  predicate Frame(a: SearchState, b: SearchState, terms: seq<string>) {
    && a.threadId == b.threadId
    && a.calls <= b.calls
    && a.log <= b.log
    && (forall i :: |a.calls| <= i < |b.calls| ==> b.calls[i].term in terms)
    && (forall f :: f in a.foundTerms ==> f in b.foundTerms)
    && (forall f :: f in b.foundTerms ==> f in a.foundTerms || f in terms)
  }

  lemma FrameTrans(a: SearchState, b: SearchState, c: SearchState, terms: seq<string>)
    requires Frame(a, b, terms) && Frame(b, c, terms)
    ensures Frame(a, c, terms)
  {
    assert c.calls[..|a.calls|] == c.calls[..|b.calls|][..|a.calls|];
    assert c.log[..|a.log|] == c.log[..|b.log|][..|a.log|];
  }

  lemma FrameWiden(a: SearchState, b: SearchState, terms: seq<string>, more: seq<string>)
    requires Frame(a, b, terms)
    requires forall t :: t in terms ==> t in more
    ensures Frame(a, b, more)
  {
  }

  lemma ExecuteFrame(term: string, st: SearchState, store: Store, build: Builder)
    ensures Frame(st, ExecuteSearch(term, st, store, build).state, [term])
  {
    var r := ExecuteSearch(term, st, store, build).state;
    assert r.calls[..|st.calls|] == st.calls;
  }

  lemma ExamineFrame(term: string, e: Searched)
    ensures var round := Examine(term, e);
            Frame(e.state, round.state, [term]) && (round.found ==> term in round.state.foundTerms)
  {
  }

  lemma RoundFrame(term: string, st: SearchState, store: Store, build: Builder)
    ensures var round := Examine(term, ExecuteSearch(term, st, store, build));
            && Frame(st, round.state, [term]) && (round.found ==> term in round.state.foundTerms)
            && (!round.found ==> round.state.foundTerms == st.foundTerms)
  {
    var e := ExecuteSearch(term, st, store, build);
    ExecuteFrame(term, st, store, build);
    ExamineFrame(term, e);
    FrameTrans(st, e.state, Examine(term, e).state, [term]);
  }

  /** The attempt loop works on its own term only, and a found term is recorded. */
  lemma {:induction false} TermLoopFrame(term: string, st: SearchState, store: Store, build: Builder, done: nat)
    requires done < MaxAttemptsPerTerm
    ensures var r := TermLoop(term, st, store, build, done);
            && Frame(st, r.state, [term]) && (r.found ==> term in r.state.foundTerms)
            && (!r.found ==> r.state.foundTerms == st.foundTerms)
    decreases MaxAttemptsPerTerm - done
  {
    var round := Examine(term, ExecuteSearch(term, st, store, build));
    RoundFrame(term, st, store, build);
    if !(round.found || done + 1 == MaxAttemptsPerTerm) {
      TermLoopFrame(term, round.state, store, build, done + 1);
      FrameTrans(st, round.state, TermLoop(term, round.state, store, build, done + 1).state, [term]);
    }
  }

  /** A term is found exactly when its attempt loop found it. */
  lemma SearchTermFrame(term: string, st: SearchState, store: Store, build: Builder)
    ensures Frame(st, SearchTerm(term, st, store, build), [term])
    ensures term in SearchTerm(term, st, store, build).foundTerms <==>
            term in st.foundTerms || TermLoop(term, st, store, build, 0).found
  {
    TermLoopFrame(term, st, store, build, 0);
    var round := TermLoop(term, st, store, build, 0);
    if !round.found {
      var r := SearchTerm(term, st, store, build);
      NoteFrame(round.state, SearchErrorLog(NextAttempt(round.state), "No valid matches found for term: " + term, Some(NoResults)), Query, [term]);
      FrameTrans(st, round.state, r, [term]);
    }
  }

  /** Proof step: a log entry leaves calls and found terms alone and only appends to the log. */
  lemma NoteFrame(st: SearchState, content: Content, kind: MessageType, terms: seq<string>)
    ensures Frame(st, Note(st, content, kind), terms)
    ensures Note(st, content, kind).foundTerms == st.foundTerms
  {
  }

  // ---------------------------------------------------------------------------
  // The search invariant
  // ---------------------------------------------------------------------------

  /**
   * The i-th call was numbered one past the earlier calls for its term that
   * the store answered (attempts raised before an answer are not recorded,
   * so they do not count), and its query is the one built for that number.
   */
  predicate CallNumbered(calls: seq<StoreCall>, i: int, build: Builder, store: Store)
    requires 0 <= i < |calls|
  {
    && calls[i].attemptNumber == 1 + CountAnswered(calls[..i], calls[i].term, store)
    && calls[i].query == build(calls[i].term, calls[i].attemptNumber)
  }

  /** A kept row carries the term it was found for, which passes the name check against the row. */
  predicate RowTagged(row: PriceRow, found: seq<string>) {
    row.searchToken.Some? && row.searchToken.value in found && ValidateMatch(row.searchToken.value, row.nombreGenerico)
  }

  predicate HasRowFor(rows: seq<PriceRow>, term: string) {
    exists k :: 0 <= k < |rows| && rows[k].searchToken == Some(term)
  }

  ghost predicate Sound(st: SearchState, build: Builder, store: Store) {
    && (forall i :: 0 <= i < |st.calls| ==> CallNumbered(st.calls, i, build, store))
    && (forall t :: CountToken(st.attempts, t) == CountAnswered(st.calls, t, store))
    && (forall k :: 0 <= k < |st.results| ==> RowTagged(st.results[k], st.foundTerms))
    && (forall f :: f in st.foundTerms ==> HasRowFor(st.results, f))
    && Distinct(st.foundTerms)
  }

  lemma CountCallsPush(calls: seq<StoreCall>, c: StoreCall, t: string)
    ensures CountCalls(calls + [c], t) == CountCalls(calls, t) + (if c.term == t then 1 else 0)
  {
    assert (calls + [c])[..|calls|] == calls;
  }

  /** After one search every call, the new one included, still carries the number and query its term's answered calls give it. */
  lemma {:induction false} SoundExecuteNumbering(term: string, st: SearchState, store: Store, build: Builder)
    requires Sound(st, build, store)
    ensures var r := ExecuteSearch(term, st, store, build).state;
            forall i :: 0 <= i < |r.calls| ==> CallNumbered(r.calls, i, build, store)
  {
    var r := ExecuteSearch(term, st, store, build).state;
    forall i | 0 <= i < |r.calls|
      ensures CallNumbered(r.calls, i, build, store)
    {
      if i < |st.calls| {
        assert r.calls[..i] == st.calls[..i];
        assert CallNumbered(st.calls, i, build, store);
      } else {
        assert r.calls[..i] == st.calls;
        assert CountToken(st.attempts, term) == CountAnswered(st.calls, term, store);
      }
    }
  }

  /** After one search each term's recorded attempts still equal its answered calls. */
  lemma {:induction false} SoundExecuteCounts(term: string, st: SearchState, store: Store, build: Builder)
    requires Sound(st, build, store)
    ensures var r := ExecuteSearch(term, st, store, build).state;
            forall t :: CountToken(r.attempts, t) == CountAnswered(r.calls, t, store)
  {
    var r := ExecuteSearch(term, st, store, build).state;
    var c := CallFor(st, term, build);
    forall t
      ensures CountToken(r.attempts, t) == CountAnswered(r.calls, t, store)
    {
      CountAnsweredPush(st.calls, c, t, store);
      assert CountToken(st.attempts, t) == CountAnswered(st.calls, t, store);
    }
  }

  lemma SoundExecute(term: string, st: SearchState, store: Store, build: Builder)
    requires Sound(st, build, store)
    ensures Sound(ExecuteSearch(term, st, store, build).state, build, store)
  {
    SoundExecuteNumbering(term, st, store, build);
    SoundExecuteCounts(term, st, store, build);
  }

  /** Appending rows that pass the name check, labelled with a term now found, keeps every row tagged. */
  lemma StampedRowsTagged(results: seq<PriceRow>, found: seq<string>, term: string, valid: seq<PriceRow>)
    requires forall k :: 0 <= k < |results| ==> RowTagged(results[k], found)
    requires forall x :: x in valid ==> ValidateMatch(term, x.nombreGenerico)
    ensures forall k :: 0 <= k < |results + Stamp(valid, term)| ==>
              RowTagged((results + Stamp(valid, term))[k], AddNew(found, term))
  {
    var all := results + Stamp(valid, term);
    forall k | 0 <= k < |all|
      ensures RowTagged(all[k], AddNew(found, term))
    {
      if k < |results| {
        assert all[k] == results[k];
      } else {
        assert all[k] == valid[k - |results|].(searchToken := Some(term));
        assert valid[k - |results|] in valid;
      }
    }
  }

  /** After appending at least one row labelled with the new term, every found term has a row. */
  lemma StampedTermsHaveRows(results: seq<PriceRow>, found: seq<string>, term: string, valid: seq<PriceRow>)
    requires forall f :: f in found ==> HasRowFor(results, f)
    requires |valid| > 0
    ensures forall f :: f in AddNew(found, term) ==> HasRowFor(results + Stamp(valid, term), f)
  {
    var all := results + Stamp(valid, term);
    forall f | f in AddNew(found, term)
      ensures HasRowFor(all, f)
    {
      if f in found {
        var k :| 0 <= k < |results| && results[k].searchToken == Some(f);
        assert all[k] == results[k];
      } else {
        assert all[|results|] == Stamp(valid, term)[0];
      }
    }
  }

  lemma {:induction false} SoundExamine(term: string, e: Searched, build: Builder, store: Store)
    requires Sound(e.state, build, store)
    ensures Sound(Examine(term, e).state, build, store)
  {
    var st := e.state;
    var r := Examine(term, e);
    if r.found {
      var valid := ValidRows(term, e.outcome.value);
      var x :| x in e.outcome.value && ValidateMatch(term, x.nombreGenerico);
      assert x in valid;
      StampedRowsTagged(st.results, st.foundTerms, term, valid);
      StampedTermsHaveRows(st.results, st.foundTerms, term, valid);
    }
  }

  lemma SoundRound(term: string, st: SearchState, store: Store, build: Builder)
    requires Sound(st, build, store)
    ensures Sound(Examine(term, ExecuteSearch(term, st, store, build)).state, build, store)
  {
    SoundExecute(term, st, store, build);
    SoundExamine(term, ExecuteSearch(term, st, store, build), build, store);
  }

  lemma {:induction false} SoundTermLoop(term: string, st: SearchState, store: Store, build: Builder, done: nat)
    requires done < MaxAttemptsPerTerm
    requires Sound(st, build, store)
    ensures Sound(TermLoop(term, st, store, build, done).state, build, store)
    decreases MaxAttemptsPerTerm - done
  {
    SoundRound(term, st, store, build);
    var round := Examine(term, ExecuteSearch(term, st, store, build));
    if !(round.found || done + 1 == MaxAttemptsPerTerm) {
      SoundTermLoop(term, round.state, store, build, done + 1);
    }
  }

  lemma {:induction false} SoundSearchAll(terms: seq<string>, st: SearchState, store: Store, build: Builder)
    requires Sound(st, build, store)
    ensures Sound(SearchAll(terms, st, store, build), build, store)
    decreases |terms|
  {
    if |terms| > 0 {
      SoundTermLoop(terms[0], st, store, build, 0);
      SoundSearchAll(terms[1..], SearchTerm(terms[0], st, store, build), store, build);
    }
  }

  // ---------------------------------------------------------------------------
  // Counting calls
  // ---------------------------------------------------------------------------

  lemma {:induction false} SearchAllFrame(terms: seq<string>, st: SearchState, store: Store, build: Builder)
    ensures Frame(st, SearchAll(terms, st, store, build), terms)
    decreases |terms|
  {
    if |terms| > 0 {
      var next := SearchTerm(terms[0], st, store, build);
      var r := SearchAll(terms[1..], next, store, build);
      SearchTermFrame(terms[0], st, store, build);
      FrameWiden(st, next, [terms[0]], terms);
      SearchAllFrame(terms[1..], next, store, build);
      FrameWiden(next, r, terms[1..], terms);
      FrameTrans(st, next, r, terms);
    }
  }

  /** Extending a call list by at most `k` calls for `term` adds at most `k` to that term's count and nothing to others. */
  lemma CountCallsExtension(a: seq<StoreCall>, b: seq<StoreCall>, term: string, k: nat)
    requires a <= b && |b| <= |a| + k
    requires forall i :: |a| <= i < |b| ==> b[i].term == term
    ensures forall t :: CountCalls(b, t) <= CountCalls(a, t) + (if t == term then k else 0)
  {
    var tail := b[|a|..];
    assert b == a + tail;
    assert forall i :: 0 <= i < |tail| ==> tail[i].term == term by {
      forall i | 0 <= i < |tail|
        ensures tail[i].term == term
      {
        assert tail[i] == b[|a| + i];
      }
    }
    forall t
      ensures CountCalls(b, t) <= CountCalls(a, t) + (if t == term then k else 0)
    {
      CountCallsAppend(a, tail, t);
      CountCallsUniform(tail, term, t);
    }
  }

  /** One term costs at most three calls, all counted for that term. */
  lemma SearchTermCounts(term: string, st: SearchState, store: Store, build: Builder)
    ensures forall t :: CountCalls(SearchTerm(term, st, store, build).calls, t)
                        <= CountCalls(st.calls, t) + (if t == term then MaxAttemptsPerTerm else 0)
  {
    SearchTermFrame(term, st, store, build);
    FrameCounts(st, SearchTerm(term, st, store, build), term, MaxAttemptsPerTerm);
  }

  /** Calls added within a frame for one term count for that term only. */
  lemma FrameCounts(a: SearchState, b: SearchState, term: string, k: nat)
    requires Frame(a, b, [term]) && |b.calls| <= |a.calls| + k
    ensures forall t :: CountCalls(b.calls, t) <= CountCalls(a.calls, t) + (if t == term then k else 0)
  {
    assert forall i :: |a.calls| <= i < |b.calls| ==> b.calls[i].term in [term];
    CountCallsExtension(a.calls, b.calls, term, k);
  }

  /** The calls for a term are at most three per occurrence of it in the phrase. */
  lemma {:induction false} SearchAllCounts(terms: seq<string>, st: SearchState, store: Store, build: Builder)
    ensures forall t :: CountCalls(SearchAll(terms, st, store, build).calls, t)
                        <= CountCalls(st.calls, t) + MaxAttemptsPerTerm * Occurrences(terms, t)
    decreases |terms|
  {
    if |terms| > 0 {
      var next := SearchTerm(terms[0], st, store, build);
      SearchTermCounts(terms[0], st, store, build);
      SearchAllCounts(terms[1..], next, store, build);
    }
  }

  /** A call is counted after the calls before it. */
  lemma CountCallsBefore(calls: seq<StoreCall>, i: int)
    requires 0 <= i < |calls|
    ensures CountCalls(calls[..i], calls[i].term) + 1 <= CountCalls(calls, calls[i].term)
  {
    assert calls[..i + 1][..i] == calls[..i];
    CountCallsPrefix(calls, i + 1, calls[i].term);
  }

  // ---------------------------------------------------------------------------
  // What `recursiveSearch` promises
  // ---------------------------------------------------------------------------

  /**
   * Every call is for a term of the phrase, numbered by the earlier calls for
   * that term and made with the query generated for that number; every
   * returned row carries a found term it passes the name check for; every
   * found term is a term of the phrase with at least one row, listed once;
   * and the log is only appended to.
   */
  lemma SearchIsSound(log: Log, threadId: string, ingredients: string, store: Store)
    ensures var r := Search(log, threadId, ingredients, store);
            var terms := SplitTerms(ingredients);
            && log <= r.log
            && (forall i :: 0 <= i < |r.calls| ==> r.calls[i].term in terms && CallNumbered(r.calls, i, GenerateSearchQuery, store))
            && (forall k :: 0 <= k < |r.data| ==> RowTagged(r.data[k], r.foundTerms))
            && (forall f :: f in r.foundTerms ==> f in terms && HasRowFor(r.data, f))
            && Distinct(r.foundTerms)
  {
    var terms := SplitTerms(ingredients);
    SoundSearchAll(terms, InitialState(log, threadId), store, GenerateSearchQuery);
    SearchAllFrame(terms, InitialState(log, threadId), store, GenerateSearchQuery);
  }

  /**
   * The status is success exactly when every term was found and no term is
   * repeated (a repeated term is recorded once, so the counts never match),
   * and error exactly when the phrase has terms and no row was kept.
   */
  lemma SearchStatusMeaning(log: Log, threadId: string, ingredients: string, store: Store)
    ensures var r := Search(log, threadId, ingredients, store);
            var terms := SplitTerms(ingredients);
            && (r.status == Success <==> Distinct(terms) && forall t :: t in terms ==> t in r.foundTerms)
            && (r.status == ResponseStatus.Error <==> |terms| > 0 && |r.data| == 0)
            && (r.status == PartialSuccess ==> |r.data| > 0)
  {
    var r := Search(log, threadId, ingredients, store);
    SearchIsSound(log, threadId, ingredients, store);
    StatusMeaning(r.foundTerms, r.data, SplitTerms(ingredients));
  }

  /** The status rule, given found terms that are distinct, drawn from the terms, and each backed by a row. */
  lemma StatusMeaning(found: seq<string>, data: seq<PriceRow>, terms: seq<string>)
    requires Distinct(found)
    requires forall f :: f in found ==> f in terms && HasRowFor(data, f)
    requires forall k :: 0 <= k < |data| ==> RowTagged(data[k], found)
    ensures var s := StatusOf(|found|, |terms|);
            && (s == Success <==> Distinct(terms) && forall t :: t in terms ==> t in found)
            && (s == ResponseStatus.Error <==> |terms| > 0 && |data| == 0)
            && (s == PartialSuccess ==> |data| > 0)
  {
    CoversExactly(found, terms);
    if |data| > 0 {
      assert RowTagged(data[0], found);
    }
    if |found| > 0 {
      assert HasRowFor(data, found[0]);
    }
  }

  /** A phrase of only commas and white space makes no call and reports success with no rows. */
  lemma BlankPhraseSucceeds(log: Log, threadId: string, ingredients: string, store: Store)
    requires forall i :: 0 <= i < |ingredients| ==> ingredients[i] == ',' || IsSpace(ingredients[i])
    ensures var r := Search(log, threadId, ingredients, store);
            r.status == Success && r.calls == [] && r.data == [] && r.log == log
  {
    BlankPhraseHasNoTerms(ingredients);
  }

  /**
   * A term that occurs once in the phrase is searched with attempt numbers 1
   * to 3 only, so each of its queries reads the price table, and the
   * read-only guard would accept it unless the term itself spells a
   * forbidden operation.
   */
  lemma SingleTermQueriesReadPriceTable(log: Log, threadId: string, ingredients: string, store: Store, i: int)
    requires 0 <= i < |Search(log, threadId, ingredients, store).calls|
    requires Occurrences(SplitTerms(ingredients), Search(log, threadId, ingredients, store).calls[i].term) == 1
    ensures var c := Search(log, threadId, ingredients, store).calls[i];
            && 1 <= c.attemptNumber <= MaxAttemptsPerTerm
            && Contains(Normalize(c.query), "from price_data")
            && (ValidateQuery(c.query).Valid? <==> NoneForbidden(Normalize(c.query)))
  {
    var terms := SplitTerms(ingredients);
    var r := Search(log, threadId, ingredients, store);
    var c := r.calls[i];
    SearchIsSound(log, threadId, ingredients, store);
    SearchAllCounts(terms, InitialState(log, threadId), store, GenerateSearchQuery);
    CountCallsBefore(r.calls, i);
    assert CallNumbered(r.calls, i, GenerateSearchQuery, store);
    PriceTableIffNarrowStrategy(c.term, c.attemptNumber);
    GuardOnGeneratedQuery(c.term, c.attemptNumber);
  }

  // ---------------------------------------------------------------------------
  // Which terms are found
  // ---------------------------------------------------------------------------

  /** The store answered call `c`, the i-th, with rows, one of which passes the name check for the call's term. */
  predicate FruitfulCall(i: nat, c: StoreCall, store: Store) {
    var reply := store(i, c.query);
    reply.Rows? && |ValidRows(c.term, reply.rows)| > 0
  }

  /** The i-th call of `calls` was fruitful. */
  predicate Fruitful(calls: seq<StoreCall>, i: int, store: Store)
    requires 0 <= i < |calls|
  {
    FruitfulCall(i, calls[i], store)
  }

  /** Every found term had a call that `hit` accepts. */
  predicate FoundOnlyByCalls(found: seq<string>, calls: seq<StoreCall>, hit: (nat, StoreCall) -> bool) {
    forall f :: f in found ==> exists i :: 0 <= i < |calls| && calls[i].term == f && hit(i, calls[i])
  }

  /** The term of every call that `hit` accepts was found. */
  predicate FoundByEveryCall(found: seq<string>, calls: seq<StoreCall>, hit: (nat, StoreCall) -> bool) {
    forall i :: 0 <= i < |calls| && hit(i, calls[i]) ==> calls[i].term in found
  }

  /** `FruitfulCall` for a fixed store. */
  function Hits(store: Store): (nat, StoreCall) -> bool {
    (i: nat, c: StoreCall) => FruitfulCall(i, c, store)
  }

  /** The terms found so far are exactly the terms of the fruitful calls. */
  predicate FoundByCalls(st: SearchState, store: Store) {
    FoundOnlyByCalls(st.foundTerms, st.calls, Hits(store)) && FoundByEveryCall(st.foundTerms, st.calls, Hits(store))
  }

  lemma FoundOnlyStep(calls: seq<StoreCall>, c: StoreCall, found: seq<string>, found2: seq<string>, hit: (nat, StoreCall) -> bool)
    requires FoundOnlyByCalls(found, calls, hit)
    requires forall f :: f in found2 ==> f in found || (f == c.term && hit(|calls|, c))
    ensures FoundOnlyByCalls(found2, calls + [c], hit)
  {
    var all := calls + [c];
    forall f | f in found2
      ensures exists i :: 0 <= i < |all| && all[i].term == f && hit(i, all[i])
    {
      if f in found {
        var i :| 0 <= i < |calls| && calls[i].term == f && hit(i, calls[i]);
        assert all[i] == calls[i];
      } else {
        assert all[|calls|] == c;
      }
    }
  }

  lemma FoundEveryStep(calls: seq<StoreCall>, c: StoreCall, found: seq<string>, found2: seq<string>, hit: (nat, StoreCall) -> bool)
    requires FoundByEveryCall(found, calls, hit)
    requires forall f :: f in found ==> f in found2
    requires hit(|calls|, c) ==> c.term in found2
    ensures FoundByEveryCall(found2, calls + [c], hit)
  {
    var all := calls + [c];
    forall i | 0 <= i < |all| && hit(i, all[i])
      ensures all[i].term in found2
    {
      if i < |calls| {
        assert all[i] == calls[i];
      } else {
        assert all[i] == c;
      }
    }
  }

  /** A pass of the loop finds its term exactly when the store's answer to its call was fruitful. */
  lemma FoundRound(term: string, st: SearchState, store: Store, build: Builder)
    requires FoundByCalls(st, store)
    ensures FoundByCalls(Examine(term, ExecuteSearch(term, st, store, build)).state, store)
  {
    var e := ExecuteSearch(term, st, store, build);
    var round := Examine(term, e);
    var c := CallFor(st, term, build);
    assert round.state.calls == st.calls + [c];
    assert round.found <==> Hits(store)(|st.calls|, c);
    FoundOnlyStep(st.calls, c, st.foundTerms, round.state.foundTerms, Hits(store));
    FoundEveryStep(st.calls, c, st.foundTerms, round.state.foundTerms, Hits(store));
  }

  lemma {:induction false} FoundTermLoop(term: string, st: SearchState, store: Store, build: Builder, done: nat)
    requires done < MaxAttemptsPerTerm
    requires FoundByCalls(st, store)
    ensures FoundByCalls(TermLoop(term, st, store, build, done).state, store)
    decreases MaxAttemptsPerTerm - done
  {
    FoundRound(term, st, store, build);
    var round := Examine(term, ExecuteSearch(term, st, store, build));
    if !(round.found || done + 1 == MaxAttemptsPerTerm) {
      FoundTermLoop(term, round.state, store, build, done + 1);
    }
  }

  lemma {:induction false} FoundSearchAll(terms: seq<string>, st: SearchState, store: Store, build: Builder)
    requires FoundByCalls(st, store)
    ensures FoundByCalls(SearchAll(terms, st, store, build), store)
    decreases |terms|
  {
    if |terms| > 0 {
      FoundTermLoop(terms[0], st, store, build, 0);
      FoundSearchAll(terms[1..], SearchTerm(terms[0], st, store, build), store, build);
    }
  }

  /**
   * A term counts as found exactly when the store answered one of its calls
   * with rows, one of which passes the name check: rows that all fail the
   * check, an error, a timeout or an exception never make a term found.
   */
  lemma SearchFindsFruitfulTerms(log: Log, threadId: string, ingredients: string, store: Store)
    ensures var r := Search(log, threadId, ingredients, store);
            forall f :: f in r.foundTerms <==>
              exists i :: 0 <= i < |r.calls| && r.calls[i].term == f && Fruitful(r.calls, i, store)
  {
    var r := Search(log, threadId, ingredients, store);
    FoundSearchAll(SplitTerms(ingredients), InitialState(log, threadId), store, GenerateSearchQuery);
    FoundByCallsMeaning(r.foundTerms, r.calls, store);
  }

  lemma FoundByCallsMeaning(found: seq<string>, calls: seq<StoreCall>, store: Store)
    requires FoundOnlyByCalls(found, calls, Hits(store)) && FoundByEveryCall(found, calls, Hits(store))
    ensures forall f :: f in found <==> exists i :: 0 <= i < |calls| && calls[i].term == f && Fruitful(calls, i, store)
  {
    forall f | f in found
      ensures exists i :: 0 <= i < |calls| && calls[i].term == f && Fruitful(calls, i, store)
    {
      var i :| 0 <= i < |calls| && calls[i].term == f && Hits(store)(i, calls[i]);
      assert Fruitful(calls, i, store);
    }
    forall i | 0 <= i < |calls| && Fruitful(calls, i, store)
      ensures calls[i].term in found
    {
      assert Hits(store)(i, calls[i]);
    }
  }

  /**
   * Against a store that always answers (with rows or an error object, never
   * throwing), the k-th call for a term carries attempt number k and so the
   * k-th strategy: exact, then partial, then similarity.
   */
  lemma AnsweringStoreNumbersCalls(log: Log, threadId: string, ingredients: string, store: Store)
    requires forall n, q :: !store(n, q).StoreThrew?
    ensures var r := Search(log, threadId, ingredients, store);
            forall i :: 0 <= i < |r.calls| ==>
              && r.calls[i].attemptNumber == 1 + CountCalls(r.calls[..i], r.calls[i].term)
              && r.calls[i].query == GenerateSearchQuery(r.calls[i].term, r.calls[i].attemptNumber)
  {
    var r := Search(log, threadId, ingredients, store);
    SearchIsSound(log, threadId, ingredients, store);
    forall i | 0 <= i < |r.calls|
      ensures r.calls[i].attemptNumber == 1 + CountCalls(r.calls[..i], r.calls[i].term)
      ensures r.calls[i].query == GenerateSearchQuery(r.calls[i].term, r.calls[i].attemptNumber)
    {
      assert CallNumbered(r.calls, i, GenerateSearchQuery, store);
      CountAnsweredAll(r.calls[..i], r.calls[i].term, store);
    }
  }

  // ---------------------------------------------------------------------------
  // The stop rule: at most three calls per term, ending at the first fruitful one
  // ---------------------------------------------------------------------------

  /** What the i-th call `c` adds to the data: its valid rows labelled with its term when it was fruitful, nothing otherwise. */
  function Kept(i: nat, c: StoreCall, store: Store): (rows: seq<PriceRow>)
    ensures |rows| > 0 <==> FruitfulCall(i, c, store)
  {
    if FruitfulCall(i, c, store) then Stamp(ValidRows(c.term, store(i, c.query).rows), c.term) else []
  }

  /**
   * The calls `lo` to `hi` of `calls` are an attempt loop of `recursiveSearch`
   * for `term`: one to three calls, all for the term, none fruitful but
   * possibly the last, and three of them unless the last was fruitful.
   */
  predicate LoopOf(calls: seq<StoreCall>, lo: int, hi: int, term: string, store: Store) {
    && 0 <= lo < hi <= |calls| && hi <= lo + MaxAttemptsPerTerm
    && (forall i :: lo <= i < hi ==> calls[i].term == term)
    && (forall i :: lo <= i < hi - 1 ==> !FruitfulCall(i, calls[i], store))
    && (!FruitfulCall(hi - 1, calls[hi - 1], store) ==> hi == lo + MaxAttemptsPerTerm)
  }

  /** One pass makes one call for its term, finds the term exactly when that call is fruitful, and adds exactly that call's kept rows. */
  lemma RoundKeeps(term: string, st: SearchState, store: Store, build: Builder)
    ensures var round := Examine(term, ExecuteSearch(term, st, store, build));
            var c := CallFor(st, term, build);
            && round.state.calls == st.calls + [c] && c.term == term
            && (round.found <==> FruitfulCall(|st.calls|, c, store))
            && round.state.results == st.results + Kept(|st.calls|, c, store)
  {
    var e := ExecuteSearch(term, st, store, build);
    var c := CallFor(st, term, build);
    var reply := store(|st.calls|, c.query);
    if reply.Rows? {
      var valid := ValidRows(term, reply.rows);
      if |valid| > 0 {
        assert valid[0] in valid;
      }
    }
  }

  /** From `before` to `after` calls for `term` were appended, none of them fruitful but possibly the last. */
  predicate MissesBeforeLast(before: SearchState, after: SearchState, term: string, store: Store) {
    && |before.calls| < |after.calls| && before.calls <= after.calls
    && (forall i :: |before.calls| <= i < |after.calls| ==> after.calls[i].term == term)
    && (forall i :: |before.calls| <= i < |after.calls| - 1 ==> !FruitfulCall(i, after.calls[i], store))
  }

  /** `found` holds exactly when the last call made by `after` was fruitful. */
  predicate FoundByLast(after: SearchState, found: bool, store: Store) {
    && |after.calls| > 0
    && (found <==> FruitfulCall(|after.calls| - 1, after.calls[|after.calls| - 1], store))
  }

  /** Proof step: one call for the term. */
  lemma MissesBeforeLastOne(st: SearchState, next: SearchState, c: StoreCall, term: string, store: Store)
    requires next.calls == st.calls + [c] && c.term == term
    ensures MissesBeforeLast(st, next, term, store)
  {
    assert next.calls[|st.calls|] == c;
  }

  /** Proof step: an unfruitful call for the term in front of the rest. */
  lemma MissesBeforeLastMiss(st: SearchState, next: SearchState, after: SearchState, c: StoreCall, term: string, store: Store)
    requires next.calls == st.calls + [c] && c.term == term
    requires !FruitfulCall(|st.calls|, c, store)
    requires MissesBeforeLast(next, after, term, store)
    ensures MissesBeforeLast(st, after, term, store)
  {
    var lo, calls := |st.calls|, after.calls;
    assert calls[lo] == next.calls[lo] == c;
    forall i | lo <= i < |calls|
      ensures calls[i].term == term && (i < |calls| - 1 ==> !FruitfulCall(i, calls[i], store))
    {
      if i == lo {
        assert calls[i] == c;
      }
    }
  }

  /** Proof step: a pass finds its term exactly when its call, the last one, is fruitful. */
  lemma FoundByLastOne(st: SearchState, round: Round, c: StoreCall, store: Store)
    requires round.state.calls == st.calls + [c]
    requires round.found <==> FruitfulCall(|st.calls|, c, store)
    ensures FoundByLast(round.state, round.found, store)
  {
    assert round.state.calls[|st.calls|] == c;
  }

  /** Every call the attempt loop makes is for its term, and none but the last is fruitful. */
  lemma {:induction false} TermLoopMisses(term: string, st: SearchState, store: Store, build: Builder, done: nat)
    requires done < MaxAttemptsPerTerm
    ensures MissesBeforeLast(st, TermLoop(term, st, store, build, done).state, term, store)
    decreases MaxAttemptsPerTerm - done
  {
    var round := Examine(term, ExecuteSearch(term, st, store, build));
    RoundKeeps(term, st, store, build);
    if !(round.found || done + 1 == MaxAttemptsPerTerm) {
      TermLoopMisses(term, round.state, store, build, done + 1);
      MissesBeforeLastMiss(st, round.state, TermLoop(term, round.state, store, build, done + 1).state, CallFor(st, term, build), term, store);
    } else {
      MissesBeforeLastOne(st, round.state, CallFor(st, term, build), term, store);
    }
  }

  /** The attempt loop finds its term exactly when its last call is fruitful. */
  lemma {:induction false} TermLoopFound(term: string, st: SearchState, store: Store, build: Builder, done: nat)
    requires done < MaxAttemptsPerTerm
    ensures var r := TermLoop(term, st, store, build, done);
            FoundByLast(r.state, r.found, store)
    decreases MaxAttemptsPerTerm - done
  {
    var round := Examine(term, ExecuteSearch(term, st, store, build));
    RoundKeeps(term, st, store, build);
    if !(round.found || done + 1 == MaxAttemptsPerTerm) {
      TermLoopFound(term, round.state, store, build, done + 1);
    } else {
      FoundByLastOne(st, round, CallFor(st, term, build), store);
    }
  }

  /** Proof step: the facts about one attempt loop make it an attempt loop of the search. */
  lemma LoopOfRound(st: SearchState, after: SearchState, found: bool, term: string, store: Store)
    requires MissesBeforeLast(st, after, term, store) && FoundByLast(after, found, store)
    requires |after.calls| <= |st.calls| + MaxAttemptsPerTerm
    requires !found ==> |after.calls| == |st.calls| + MaxAttemptsPerTerm
    ensures LoopOf(after.calls, |st.calls|, |after.calls|, term, store)
  {
  }

  /** From `before` to `after`, the results grew by exactly the kept rows of the last call made. */
  predicate AddsLastKept(before: SearchState, after: SearchState, store: Store) {
    && |after.calls| > 0
    && after.results == before.results + Kept(|after.calls| - 1, after.calls[|after.calls| - 1], store)
  }

  /** Proof step: a last call adds its kept rows. */
  lemma AddsLastKeptOne(st: SearchState, next: SearchState, c: StoreCall, store: Store)
    requires next.calls == st.calls + [c]
    requires next.results == st.results + Kept(|st.calls|, c, store)
    ensures AddsLastKept(st, next, store)
  {
    assert next.calls[|next.calls| - 1] == c;
  }

  /** Proof step: an unfruitful call in front of the rest adds nothing of its own. */
  lemma AddsLastKeptMiss(st: SearchState, next: SearchState, after: SearchState, c: StoreCall, store: Store)
    requires next.calls == st.calls + [c] && !FruitfulCall(|st.calls|, c, store)
    requires next.results == st.results + Kept(|st.calls|, c, store)
    requires AddsLastKept(next, after, store)
    ensures AddsLastKept(st, after, store)
  {
    assert next.results == st.results;
  }

  /** The only rows the attempt loop adds are the kept rows of its last call. */
  lemma {:induction false} TermLoopKeeps(term: string, st: SearchState, store: Store, build: Builder, done: nat)
    requires done < MaxAttemptsPerTerm
    ensures AddsLastKept(st, TermLoop(term, st, store, build, done).state, store)
    decreases MaxAttemptsPerTerm - done
  {
    var round := Examine(term, ExecuteSearch(term, st, store, build));
    RoundKeeps(term, st, store, build);
    if !(round.found || done + 1 == MaxAttemptsPerTerm) {
      TermLoopKeeps(term, round.state, store, build, done + 1);
      AddsLastKeptMiss(st, round.state, TermLoop(term, round.state, store, build, done + 1).state, CallFor(st, term, build), store);
    } else {
      AddsLastKeptOne(st, round.state, CallFor(st, term, build), store);
    }
  }

  /** From `before` to `after` one attempt loop was run for `term`, and the results grew by its last call's kept rows. */
  predicate OneLoop(before: SearchState, after: SearchState, term: string, store: Store) {
    && before.calls <= after.calls
    && LoopOf(after.calls, |before.calls|, |after.calls|, term, store)
    && AddsLastKept(before, after, store)
  }

  /** The stop rule for one term of the phrase: its calls form one attempt loop, whose last call's kept rows are all it adds. */
  lemma SearchTermStopRule(term: string, st: SearchState, store: Store, build: Builder)
    ensures OneLoop(st, SearchTerm(term, st, store, build), term, store)
  {
    var round := TermLoop(term, st, store, build, 0);
    TermLoopMisses(term, st, store, build, 0);
    TermLoopFound(term, st, store, build, 0);
    TermLoopKeeps(term, st, store, build, 0);
    LoopOfRound(st, round.state, round.found, term, store);
  }

  /** Where each term's attempt loop ends in the call list, for the terms searched from `st` on. */
  function LoopEnds(terms: seq<string>, st: SearchState, store: Store, build: Builder): (ends: seq<int>)
    ensures |ends| == |terms|
    decreases |terms|
  {
    if |terms| == 0 then []
    else
      var next := SearchTerm(terms[0], st, store, build);
      [|next.calls|] + LoopEnds(terms[1..], next, store, build)
  }

  /** Where the j-th loop starts: where the one before it ended, or at `base` for the first. */
  function LoopStart(base: int, ends: seq<int>, j: nat): int
    requires j < |ends|
  {
    if j == 0 then base else ends[j - 1]
  }

  /** The calls from `base` on are cut, at `ends`, into one attempt loop per term of `terms`, in order. */
  predicate CutIntoLoops(calls: seq<StoreCall>, base: int, ends: seq<int>, terms: seq<string>, store: Store) {
    && |ends| == |terms|
    && (forall j :: 0 <= j < |ends| ==> 0 < ends[j] <= |calls|)
    && (forall j :: 0 <= j < |terms| ==> LoopOf(calls, LoopStart(base, ends, j), ends[j], terms[j], store))
  }

  /** The rows the loops ending at `ends` keep: each loop's last call's kept rows, in loop order. */
  function KeptByLoops(calls: seq<StoreCall>, ends: seq<int>, store: Store): seq<PriceRow>
    requires forall j :: 0 <= j < |ends| ==> 0 < ends[j] <= |calls|
    decreases |ends|
  {
    if |ends| == 0 then []
    else Kept(ends[0] - 1, calls[ends[0] - 1], store) + KeptByLoops(calls, ends[1..], store)
  }

  /** Proof step: a loop in front of a cut is a cut one loop longer. */
  lemma CutIntoLoopsCons(calls: seq<StoreCall>, base: int, mid: int, rest: seq<int>, terms: seq<string>, store: Store)
    requires |terms| > 0
    requires LoopOf(calls, base, mid, terms[0], store)
    requires CutIntoLoops(calls, mid, rest, terms[1..], store)
    ensures CutIntoLoops(calls, base, [mid] + rest, terms, store)
  {
    var ends := [mid] + rest;
    forall j | 0 <= j < |ends|
      ensures 0 < ends[j] <= |calls|
    {
      if j > 0 {
        assert ends[j] == rest[j - 1];
      }
    }
    forall j | 0 <= j < |terms|
      ensures LoopOf(calls, LoopStart(base, ends, j), ends[j], terms[j], store)
    {
      if j > 0 {
        var k := j - 1;
        assert LoopOf(calls, LoopStart(mid, rest, k), rest[k], terms[1..][k], store);
        LoopOfSame(calls, LoopStart(mid, rest, k), rest[k], terms[1..][k],
                   LoopStart(base, ends, j), ends[j], terms[j], store);
      }
    }
  }

  /** Proof step: a loop read off equal bounds and term is the same loop. */
  lemma LoopOfSame(calls: seq<StoreCall>, lo: int, hi: int, term: string, lo2: int, hi2: int, term2: string, store: Store)
    requires LoopOf(calls, lo, hi, term, store)
    requires lo == lo2 && hi == hi2 && term == term2
    ensures LoopOf(calls, lo2, hi2, term2, store)
  {
  }

  /** A loop read off a call list is read the same off any extension of it. */
  lemma LoopOfExtend(calls: seq<StoreCall>, more: seq<StoreCall>, lo: int, hi: int, term: string, store: Store)
    requires LoopOf(calls, lo, hi, term, store) && calls <= more
    ensures LoopOf(more, lo, hi, term, store)
  {
    forall i | lo <= i < hi
      ensures more[i] == calls[i]
    {
      assert more[i] == more[..|calls|][i];
    }
  }

  /** The kept rows of the loops depend only on the calls the loops made. */
  lemma {:induction false} KeptByLoopsExtend(calls: seq<StoreCall>, more: seq<StoreCall>, ends: seq<int>, store: Store)
    requires forall j :: 0 <= j < |ends| ==> 0 < ends[j] <= |calls|
    requires calls <= more
    ensures KeptByLoops(more, ends, store) == KeptByLoops(calls, ends, store)
    decreases |ends|
  {
    if |ends| > 0 {
      assert more[ends[0] - 1] == calls[ends[0] - 1];
      KeptByLoopsExtend(calls, more, ends[1..], store);
    }
  }

  /** Proof step: the rows kept by a loop in front of the rest come first. */
  lemma KeptByLoopsCons(calls: seq<StoreCall>, mid: int, rest: seq<int>, store: Store)
    requires 0 < mid <= |calls| && forall j :: 0 <= j < |rest| ==> 0 < rest[j] <= |calls|
    ensures KeptByLoops(calls, [mid] + rest, store) == Kept(mid - 1, calls[mid - 1], store) + KeptByLoops(calls, rest, store)
  {
    assert ([mid] + rest)[1..] == rest;
  }

  /** Proof step: what one term's loop added, followed by what the loops after it kept. */
  lemma SearchAllLoopsStep(st: SearchState, next: SearchState, r: SearchState, ends: seq<int>, rest: seq<int>, store: Store)
    requires AddsLastKept(st, next, store) && next.calls <= r.calls
    requires ends == [|next.calls|] + rest
    requires forall j :: 0 <= j < |ends| ==> 0 < ends[j] <= |r.calls|
    requires forall j :: 0 <= j < |rest| ==> 0 < rest[j] <= |r.calls|
    requires r.results == next.results + KeptByLoops(r.calls, rest, store)
    ensures r.results == st.results + KeptByLoops(r.calls, ends, store)
  {
    KeptByLoopsCons(r.calls, |next.calls|, rest, store);
    assert r.calls[|next.calls| - 1] == next.calls[|next.calls| - 1];
    ConcatAssoc(st.results, Kept(|next.calls| - 1, next.calls[|next.calls| - 1], store), KeptByLoops(r.calls, rest, store));
  }

  /**
   * From `before` to `after` the terms were searched one after the other: the
   * new calls are cut at `ends` into one attempt loop per term, the last loop
   * ends with the last call, and the results grew by the loops' kept rows.
   */
  predicate LoopsFrom(before: SearchState, after: SearchState, terms: seq<string>, ends: seq<int>, store: Store) {
    && before.calls <= after.calls
    && CutIntoLoops(after.calls, |before.calls|, ends, terms, store)
    && (|terms| > 0 ==> ends[|terms| - 1] == |after.calls|)
    && after.results == before.results + KeptByLoops(after.calls, ends, store)
  }

  /** Proof step: the last loop of a cut ends where the last loop of its tail does. */
  lemma LastEndCons(mid: int, rest: seq<int>, n: nat, end: int)
    requires |rest| == n - 1 && n > 0
    requires n > 1 ==> rest[n - 2] == end
    requires n == 1 ==> mid == end
    ensures ([mid] + rest)[n - 1] == end
  {
  }

  /** Proof step: the first term's loop, followed by the loops of the terms after it. */
  lemma SearchAllLoopsCons(st: SearchState, next: SearchState, r: SearchState, terms: seq<string>, rest: seq<int>, store: Store)
    requires |terms| > 0
    requires OneLoop(st, next, terms[0], store)
    requires LoopsFrom(next, r, terms[1..], rest, store)
    requires |terms| == 1 ==> r == next
    ensures LoopsFrom(st, r, terms, [|next.calls|] + rest, store)
  {
    LoopOfExtend(next.calls, r.calls, |st.calls|, |next.calls|, terms[0], store);
    CutIntoLoopsCons(r.calls, |st.calls|, |next.calls|, rest, terms, store);
    SearchAllLoopsStep(st, next, r, [|next.calls|] + rest, rest, store);
    LastEndCons(|next.calls|, rest, |terms|, |r.calls|);
  }

  /**
   * The terms searched from `st` on cut the new calls into one attempt loop
   * per term, in phrase order, and the rows added are the loops' kept rows in
   * the same order.
   */
  lemma {:induction false} SearchAllLoops(terms: seq<string>, st: SearchState, store: Store, build: Builder)
    ensures LoopsFrom(st, SearchAll(terms, st, store, build), terms, LoopEnds(terms, st, store, build), store)
    decreases |terms|
  {
    if |terms| > 0 {
      var next := SearchTerm(terms[0], st, store, build);
      var r := SearchAll(terms[1..], next, store, build);
      var rest := LoopEnds(terms[1..], next, store, build);
      assert LoopEnds(terms, st, store, build) == [|next.calls|] + rest;
      assert SearchAll(terms, st, store, build) == r;
      SearchTermStopRule(terms[0], st, store, build);
      SearchAllLoops(terms[1..], next, store, build);
      SearchAllLoopsCons(st, next, r, terms, rest, store);
    } else {
      assert SearchAll(terms, st, store, build) == st;
    }
  }

  /**
   * The stop rule for the whole search: the calls are cut into one attempt
   * loop per term of the phrase, in order, each of one to three calls for its
   * term that ends at its first fruitful call; the data is, term by term, the
   * valid rows of that fruitful call labelled with the term, and nothing for a
   * term whose loop found nothing.
   */
  lemma SearchKeepsFirstFruitfulRows(log: Log, threadId: string, ingredients: string, store: Store)
    ensures var r := Search(log, threadId, ingredients, store);
            var terms := SplitTerms(ingredients);
            var ends := LoopEnds(terms, InitialState(log, threadId), store, GenerateSearchQuery);
            && CutIntoLoops(r.calls, 0, ends, terms, store)
            && (|terms| > 0 ==> ends[|terms| - 1] == |r.calls|)
            && r.data == KeptByLoops(r.calls, ends, store)
  {
    SearchAllLoops(SplitTerms(ingredients), InitialState(log, threadId), store, GenerateSearchQuery);
  }

  // ---------------------------------------------------------------------------
  // A store that never returns rows
  // ---------------------------------------------------------------------------

  ghost predicate Barren(store: Store) {
    forall n, q :: !store(n, q).Rows? || |store(n, q).rows| == 0
  }

  lemma BarrenRound(term: string, st: SearchState, store: Store, build: Builder)
    requires Barren(store)
    ensures var round := Examine(term, ExecuteSearch(term, st, store, build));
            !round.found && round.state.foundTerms == st.foundTerms && round.state.results == st.results
  {
  }

  lemma {:induction false} BarrenTermLoop(term: string, st: SearchState, store: Store, build: Builder, done: nat)
    requires done < MaxAttemptsPerTerm
    requires Barren(store)
    ensures var r := TermLoop(term, st, store, build, done);
            !r.found && r.state.foundTerms == st.foundTerms && r.state.results == st.results
    decreases MaxAttemptsPerTerm - done
  {
    BarrenRound(term, st, store, build);
    if done + 1 < MaxAttemptsPerTerm {
      BarrenTermLoop(term, Examine(term, ExecuteSearch(term, st, store, build)).state, store, build, done + 1);
    }
  }

  lemma {:induction false} BarrenSearchAll(terms: seq<string>, st: SearchState, store: Store, build: Builder)
    requires Barren(store)
    ensures var r := SearchAll(terms, st, store, build);
            |r.calls| == |st.calls| + MaxAttemptsPerTerm * |terms|
            && r.foundTerms == st.foundTerms && r.results == st.results
    decreases |terms|
  {
    if |terms| > 0 {
      BarrenTermLoop(terms[0], st, store, build, 0);
      BarrenSearchAll(terms[1..], SearchTerm(terms[0], st, store, build), store, build);
    }
  }

  /** Against a store that never returns a row, every term is tried three times and the search fails. */
  lemma BarrenStoreFindsNothing(log: Log, threadId: string, ingredients: string, store: Store)
    requires Barren(store)
    ensures var r := Search(log, threadId, ingredients, store);
            && |r.calls| == MaxAttemptsPerTerm * |SplitTerms(ingredients)|
            && r.data == [] && r.foundTerms == []
            && (|SplitTerms(ingredients)| > 0 ==> r.status == ResponseStatus.Error)
  {
    BarrenSearchAll(SplitTerms(ingredients), InitialState(log, threadId), store, GenerateSearchQuery);
  }
}

=== FILE: runs.dfy ===
/**
 * Driving the conversation engine's runs (src/lib/agents/runs.ts): cancelling
 * unfinished runs, answering tool calls, polling a run until it settles, and
 * running an assistant end to end.
 *
 * The engine is a set of parameters: the runs it lists, the run snapshot it
 * returns at each poll, the id of a created run, the thread's messages. The
 * engine calls the code makes are recorded, in order, as `EngineCall`s. Delays
 * between polls are left out.
 */
module Runs {
  import opened Wrappers
  import opened SqlTypes
  import opened AgentTypes
  import opened Messages
  import opened Terms
  import opened Grouping
  import opened DirectSearch

  /** A request made to the engine. */
  datatype EngineCall =
    | CancelCall(runId: string)
    | SubmitCall(runId: string, outputs: seq<ToolCallOutput>)
    | CreateCall(assistantId: string, tools: seq<string>)

  type Trace = seq<EngineCall>

  /** The default number of polls reporting an unsettled run before giving up. */
  const DefaultMaxAttempts: nat := 30

  /** `cancelRun`: asks the engine to cancel; a failure is logged and swallowed, so the caller goes on. */
  function CancelRun(trace: Trace, runId: string): Trace {
    trace + [CancelCall(runId)]
  }

  /** The cancellations for the active runs among `runs`, in listing order. */
  function CancelActive(runs: seq<RunInfo>): (r: Trace)
    ensures forall c :: c in r <==> exists k :: 0 <= k < |runs| && IsActive(runs[k].status) && c == CancelCall(runs[k].id)
    decreases |runs|
  {
    if |runs| == 0 then []
    else
      var rest := CancelActive(runs[1..]);
      assert forall k :: 1 <= k < |runs| ==> runs[k] == runs[1..][k - 1];
      (if IsActive(runs[0].status) then [CancelCall(runs[0].id)] else []) + rest
  }

  /**
   * The cancellations follow the listing: those for a listing split in two
   * are the first part's followed by the second part's.
   */
  lemma {:induction false} CancelActiveAppend(a: seq<RunInfo>, b: seq<RunInfo>)
    ensures CancelActive(a + b) == CancelActive(a) + CancelActive(b)
    decreases |a|
  {
    if |a| == 0 {
      assert a + b == b;
    } else {
      assert (a + b)[0] == a[0];
      assert (a + b)[1..] == a[1..] + b;
      CancelActiveAppend(a[1..], b);
    }
  }

  /**
   * `cleanupIncompleteRuns`: cancels every queued, in-progress or
   * action-requiring run of the thread and nothing else; when listing fails
   * nothing is cancelled and nothing is raised.
   */
  function CleanupIncompleteRuns(trace: Trace, runs: RunList): (r: Trace)
    ensures runs.ListFailed? ==> r == trace
    ensures trace <= r
    ensures runs.Listed? ==>
              forall c :: c in r[|trace|..] <==>
                exists k :: 0 <= k < |runs.runs| && IsActive(runs.runs[k].status) && c == CancelCall(runs.runs[k].id)
  {
    match runs
    case ListFailed(_) => trace
    case Listed(rs) =>
      var r := trace + CancelActive(rs);
      assert r[|trace|..] == CancelActive(rs);
      r
  }

  const UnknownFunctionPrefix: string := "Unknown function: "

  datatype Processed = Processed(log: Log, output: Result<ToolCallOutput>)

  /** The log entry of an SQL tool call, from the main assistant to the direct search. */
  function Invocation(ingredients: Option<string>, threadId: string): AgentMessage {
    AgentMessage(Assistant1Id, SqlDirect, ToolInvocationLog(SqlAgentTool, ingredients), Query, threadId)
  }

  /** What a parsed tool call is answered with: the direct search's response for the SQL tool, an error object for any other name. */
  function ToolAnswer(call: ToolCall, rpc: Rpc): ToolResult
    requires call.arguments.Parsed?
  {
    if call.name == SqlAgentTool then SqlResult(DirectResponse(call.arguments.queryIngredients, rpc))
    else CallFailed(UnknownFunctionPrefix + call.name)
  }

  /**
   * `processToolCall`: arguments that do not parse raise before the `try`;
   * the SQL tool is logged and answered with the direct search's response;
   * any other name is answered with an error object. Either answer carries the
   * call's id.
   */
  function ProcessToolCall(call: ToolCall, threadId: string, log: Log, rpc: Rpc): (r: Processed)
    ensures r.output.Err? <==> call.arguments.Unparseable?
    ensures r.output.Err? ==> r.output.error == call.arguments.message && r.log == log
    ensures r.output.Ok? ==> r.output.value == ToolCallOutput(call.id, ToolAnswer(call, rpc))
    ensures r.output.Ok? && call.name != SqlAgentTool ==> r.log == log
    ensures r.output.Ok? && call.name == SqlAgentTool ==>
              && r.log == InvokeSqlAgent(log + [Invocation(call.arguments.queryIngredients, threadId)],
                                         threadId, call.arguments.queryIngredients, rpc).log
              && |r.log| > |log| + 1 && log <= r.log
              && r.log[|log|] == Invocation(call.arguments.queryIngredients, threadId)
  {
    match call.arguments
    case Unparseable(message) => Processed(log, Err(message))
    case Parsed(ingredients) =>
      if call.name == SqlAgentTool then
        var log1 := log + [AgentMessage(Assistant1Id, SqlDirect, ToolInvocationLog(call.name, ingredients), Query, threadId)];
        var invoked := InvokeSqlAgent(log1, threadId, ingredients, rpc);
        InvokeSqlAgentResponse(log1, threadId, ingredients, rpc);
        assert invoked.log[..|log|] == invoked.log[..|log1|][..|log|];
        Processed(invoked.log, Ok(ToolCallOutput(call.id, SqlResult(invoked.response))))
      else
        Processed(log, Ok(ToolCallOutput(call.id, CallFailed(UnknownFunctionPrefix + call.name))))
  }

  /**
   * An SQL tool call is answered with the direct search's response, which is
   * a success exactly when a phrase was given, the store returned some row and
   * no row's token names an inherited member; the log gains the invocation,
   * each term's attempt and outcome, and the response sent back.
   */
  lemma SqlToolCallMeaning(call: ToolCall, threadId: string, log: Log, rpc: Rpc)
    requires call.arguments.Parsed? && call.name == SqlAgentTool
    ensures var r := ProcessToolCall(call, threadId, log, rpc);
            var ingredients := call.arguments.queryIngredients;
            var response := DirectResponse(ingredients, rpc);
            && r.output == Ok(ToolCallOutput(call.id, SqlResult(response)))
            && (response.status == Success <==>
                  ingredients.Some?
                  && |StoreRows(rpc, ingredients.value)| > 0
                  && forall k :: 0 <= k < |StoreRows(rpc, ingredients.value)| ==>
                       KeyOf(RawToken, StoreRows(rpc, ingredients.value)[k]) !in PrototypeKeys)
            && (ingredients.None? ==> r.log == log + [Invocation(ingredients, threadId), ToAssistant1(threadId, response)])
            && (ingredients.Some? ==>
                  r.log == log + [Invocation(ingredients, threadId)]
                           + TermEntries(threadId, SplitTerms(ingredients.value), rpc, 0) + [ToAssistant1(threadId, response)])
  {
    var ingredients := call.arguments.queryIngredients;
    var log1 := log + [Invocation(ingredients, threadId)];
    DirectStatus(log1, threadId, ingredients, rpc);
    InvokeSqlAgentResponse(log1, threadId, ingredients, rpc);
    if ingredients.Some? {
      QueryAllLog(log1, threadId, SplitTerms(ingredients.value), rpc);
    }
  }

  /** How one tool call is answered, given the log so far. */
  type Handler = (ToolCall, Log) -> Processed

  /** What `processToolCall` promises of every call: the properties the batch relies on. */
  ghost predicate Faithful(handle: Handler) {
    forall call, log :: var p := handle(call, log);
      && log <= p.log
      && (p.output.Err? <==> call.arguments.Unparseable?)
      && (p.output.Err? ==> p.output.error == call.arguments.message)
      && (p.output.Ok? ==> p.output.value.toolCallId == call.id
                           && (p.output.value.output.SqlResult? <==> call.name == SqlAgentTool))
  }

  /** Every parsed call is answered with `ToolAnswer` against the store `rpc`. */
  ghost predicate AnswersWith(handle: Handler, rpc: Rpc) {
    forall call: ToolCall, log: Log :: call.arguments.Parsed? && handle(call, log).output.Ok? ==>
      handle(call, log).output.value == ToolCallOutput(call.id, ToolAnswer(call, rpc))
  }

  /** `processToolCall` on a thread, with the store's search procedure. */
  function Handle(threadId: string, rpc: Rpc): (handle: Handler)
    ensures Faithful(handle) && AnswersWith(handle, rpc)
  {
    (call, log) => ProcessToolCall(call, threadId, log, rpc)
  }

  /** The outputs of a batch of tool calls, or the first parse failure among them. */
  datatype Batch = Batch(log: Log, outputs: seq<ToolCallOutput>, failure: Option<string>)

  /**
   * The tool calls of one required action, taken one after the other. Every
   * call is processed even when an earlier one fails to parse; the batch then
   * fails with the first such failure.
   */
  function ProcessToolCalls(calls: seq<ToolCall>, handle: Handler, log: Log): (r: Batch)
    requires Faithful(handle)
    ensures log <= r.log
    decreases |calls|
  {
    if |calls| == 0 then Batch(log, [], None)
    else
      var first := handle(calls[0], log);
      var rest := ProcessToolCalls(calls[1..], handle, first.log);
      assert rest.log[..|log|] == rest.log[..|first.log|][..|log|];
      match first.output
      case Err(message) => Batch(rest.log, rest.outputs, Some(message))
      case Ok(output) => Batch(rest.log, [output] + rest.outputs, rest.failure)
  }

  /** The batch fails exactly when some call's arguments do not parse, and then with the first such failure. */
  lemma {:induction false} BatchFailure(calls: seq<ToolCall>, handle: Handler, log: Log)
    requires Faithful(handle)
    ensures var r := ProcessToolCalls(calls, handle, log);
            && (r.failure.None? <==> forall i :: 0 <= i < |calls| ==> calls[i].arguments.Parsed?)
            && (r.failure.Some? ==> exists i :: 0 <= i < |calls| && calls[i].arguments == Unparseable(r.failure.value)
                                      && forall j :: 0 <= j < i ==> calls[j].arguments.Parsed?)
    decreases |calls|
  {
    if |calls| > 0 {
      var first := handle(calls[0], log);
      BatchFailure(calls[1..], handle, first.log);
      assert forall i :: 1 <= i < |calls| ==> calls[i] == calls[1..][i - 1];
      var r := ProcessToolCalls(calls, handle, log);
      if first.output.Ok? && r.failure.Some? {
        var i :| 0 <= i < |calls[1..]| && calls[1..][i].arguments == Unparseable(r.failure.value)
                 && forall j :: 0 <= j < i ==> calls[1..][j].arguments.Parsed?;
        assert calls[i + 1].arguments == Unparseable(r.failure.value);
      }
    }
  }

  /** A batch without failures answers every call, in order, under the call's id, with its `ToolAnswer`. */
  lemma {:induction false} BatchAnswersEveryCall(calls: seq<ToolCall>, handle: Handler, log: Log, rpc: Rpc)
    requires Faithful(handle) && AnswersWith(handle, rpc)
    requires forall i :: 0 <= i < |calls| ==> calls[i].arguments.Parsed?
    ensures var r := ProcessToolCalls(calls, handle, log);
            && |r.outputs| == |calls|
            && forall i :: 0 <= i < |calls| ==> r.outputs[i] == ToolCallOutput(calls[i].id, ToolAnswer(calls[i], rpc))
    decreases |calls|
  {
    if |calls| > 0 {
      var first := handle(calls[0], log);
      var rest := ProcessToolCalls(calls[1..], handle, first.log);
      BatchAnswersEveryCall(calls[1..], handle, first.log, rpc);
      var r := ProcessToolCalls(calls, handle, log);
      assert first.output.Ok?;
      assert r.outputs == [first.output.value] + rest.outputs;
      forall i | 1 <= i < |calls|
        ensures r.outputs[i] == ToolCallOutput(calls[i].id, ToolAnswer(calls[i], rpc))
      {
        assert calls[i] == calls[1..][i - 1];
        assert r.outputs[i] == rest.outputs[i - 1];
      }
    }
  }

  // ---------------------------------------------------------------------------
  // Polling a run
  // ---------------------------------------------------------------------------

  /** Why polling stopped. `OutOfFuel` is the model's bound on the number of polls, not a behaviour of the code. */
  datatype WaitOutcome =
    | Finished(snapshot: RunSnapshot)
    | RunFailed(status: RunStatus)
    | UnexpectedAction
    | ToolCallsFailed(message: string)
    | TimedOut
    | OutOfFuel

  /** The message of what `waitForRun` throws. */
  function ThrownMessage(o: WaitOutcome): string
    requires !o.Finished? && !o.OutOfFuel?
  {
    match o
    case RunFailed(s) => "Run failed with status: " + StatusName(s)
    case UnexpectedAction => "Unexpected required action from assistant"
    case ToolCallsFailed(message) => message
    case TimedOut => "Assistant run timed out"
  }

  /** The statuses that end a run unsuccessfully. */
  predicate IsTerminalFailure(s: RunStatus) {
    s == Failed || s == Cancelled || s == Expired
  }

  /** A poll that counts as an attempt: the run is neither settled nor waiting on the caller. */
  predicate IsPending(s: RunStatus) {
    s != Completed && !IsTerminalFailure(s) && s != RequiresAction
  }

  /** How many of the polls numbered `lo` to `hi` - 1 counted as attempts. */
  function PendingPolls(poll: nat -> RunSnapshot, lo: nat, hi: nat): nat
    requires lo <= hi
    decreases hi
  {
    if lo == hi then 0 else PendingPolls(poll, lo, hi - 1) + (if IsPending(poll(hi - 1).status) then 1 else 0)
  }

  datatype RunState = RunState(log: Log, trace: Trace, polls: nat)

  datatype Waited = Waited(state: RunState, attempts: nat, outcome: WaitOutcome)

  /** How a required action's tool calls are answered, given the log so far. */
  type Answerer = (seq<ToolCall>, Log) -> Batch

  /** The answerer only ever appends to the log. */
  ghost predicate AppendsOnly(answer: Answerer) {
    forall calls, log :: log <= answer(calls, log).log
  }

  /** The answerer of `waitForRun`: `processToolCall` for each call of the batch. */
  function ToolAnswerer(threadId: string, rpc: Rpc): (answer: Answerer)
    ensures AppendsOnly(answer)
  {
    var handle := Handle(threadId, rpc);
    (calls, log) => ProcessToolCalls(calls, handle, log)
  }

  /** The run waits on the caller for tool outputs. */
  predicate AsksForOutputs(snap: RunSnapshot) {
    snap.status == RequiresAction && snap.requiredAction.Some? && snap.requiredAction.value.SubmitToolOutputs?
  }

  /** The poll asks for tool outputs and the answerer answers all of them. */
  predicate Resubmits(snap: RunSnapshot, answer: Answerer, log: Log) {
    AsksForOutputs(snap) && answer(snap.requiredAction.value.toolCalls, log).failure.None?
  }

  /**
   * The outcome a poll that ends the wait gives for the snapshot it read: a
   * completed run is returned as polled, a failed, cancelled or expired run
   * fails with that status, a request other than tool outputs is unexpected,
   * and only a request for tool outputs can make the tool calls fail.
   */
  predicate StopsOn(snap: RunSnapshot, o: WaitOutcome) {
    match o
    case Finished(s) => s == snap && snap.status == Completed
    case RunFailed(status) => IsTerminalFailure(snap.status) && status == snap.status
    case UnexpectedAction => snap.status == RequiresAction && !AsksForOutputs(snap)
    case ToolCallsFailed(_) => AsksForOutputs(snap)
    case TimedOut => false
    case OutOfFuel => false
  }

  /** What one poll leads to: polling again with a new attempt count, or the end of the wait. */
  datatype Step = Again(state: RunState, attempts: nat) | Stop(result: Waited)

  /**
   * One iteration of the loop of `waitForRun`. Completed returns the
   * snapshot; a failed, cancelled or expired run raises; a run waiting on tool
   * outputs has them computed and submitted and is polled again without
   * counting an attempt; any other action request cancels the run and raises;
   * every other status counts an attempt.
   */
  function PollOnce(runId: string, poll: nat -> RunSnapshot, answer: Answerer, attempts: nat, st: RunState): (s: Step)
    ensures s.Again? <==> IsPending(poll(st.polls).status) || Resubmits(poll(st.polls), answer, st.log)
    ensures s.Again? ==> s.state.polls == st.polls + 1 && st.trace <= s.state.trace
                         && s.attempts == attempts + (if IsPending(poll(st.polls).status) then 1 else 0)
    ensures s.Stop? ==> s.result.attempts == attempts && s.result.state.polls == st.polls + 1
                        && st.trace <= s.result.state.trace
    ensures s.Stop? ==> !s.result.outcome.TimedOut? && !s.result.outcome.OutOfFuel?
    ensures s.Stop? && s.result.outcome.Finished? ==> s.result.outcome.snapshot.status == Completed
    ensures s.Stop? && s.result.outcome.RunFailed? ==> IsTerminalFailure(s.result.outcome.status)
    ensures s.Stop? && s.result.outcome.UnexpectedAction? ==> s.result.state.trace == st.trace + [CancelCall(runId)]
  {
    var snap := poll(st.polls);
    var polled := st.(polls := st.polls + 1);
    if snap.status == Completed then Stop(Waited(polled, attempts, Finished(snap)))
    else if IsTerminalFailure(snap.status) then Stop(Waited(polled, attempts, RunFailed(snap.status)))
    else if snap.status == RequiresAction then
      match snap.requiredAction
      case Some(SubmitToolOutputs(calls)) =>
        var batch := answer(calls, st.log);
        if batch.failure.Some? then Stop(Waited(polled.(log := batch.log), attempts, ToolCallsFailed(batch.failure.value)))
        else Again(polled.(log := batch.log, trace := st.trace + [SubmitCall(runId, batch.outputs)]), attempts)
      case _ => Stop(Waited(polled.(trace := CancelRun(st.trace, runId)), attempts, UnexpectedAction))
    else Again(polled, attempts + 1)
  }

  /**
   * Each status read by a poll, and what the poll does with it: a completed
   * run is returned as polled; a failed, cancelled or expired run raises with
   * its status; a request other than tool outputs cancels the run and raises;
   * a pending run counts an attempt; a request for tool outputs has them
   * answered and either raises the batch's failure or submits the outputs
   * and polls again without counting.
   */
  lemma PollOnceCases(runId: string, poll: nat -> RunSnapshot, answer: Answerer, attempts: nat, st: RunState)
    ensures var s := PollOnce(runId, poll, answer, attempts, st);
            var snap, polled := poll(st.polls), st.(polls := st.polls + 1);
            && (snap.status == Completed ==> s == Stop(Waited(polled, attempts, Finished(snap))))
            && (IsTerminalFailure(snap.status) ==> s == Stop(Waited(polled, attempts, RunFailed(snap.status))))
            && (snap.status == RequiresAction && !AsksForOutputs(snap) ==>
                  s == Stop(Waited(polled.(trace := st.trace + [CancelCall(runId)]), attempts, UnexpectedAction)))
            && (IsPending(snap.status) ==> s == Again(polled, attempts + 1))
    ensures AsksForOutputs(poll(st.polls)) ==>
              var s := PollOnce(runId, poll, answer, attempts, st);
              var batch := answer(poll(st.polls).requiredAction.value.toolCalls, st.log);
              var polled := st.(polls := st.polls + 1, log := batch.log);
              && (batch.failure.Some? ==> s == Stop(Waited(polled, attempts, ToolCallsFailed(batch.failure.value))))
              && (batch.failure.None? ==>
                    s == Again(polled.(trace := st.trace + [SubmitCall(runId, batch.outputs)]), attempts))
  {
  }

  /** With an answerer that only appends, a poll only appends to the log. */
  lemma PollOnceAppends(runId: string, poll: nat -> RunSnapshot, answer: Answerer, attempts: nat, st: RunState)
    requires AppendsOnly(answer)
    ensures var s := PollOnce(runId, poll, answer, attempts, st);
            st.log <= (if s.Again? then s.state.log else s.result.state.log)
  {
    var snap := poll(st.polls);
    if snap.status == RequiresAction && snap.requiredAction.Some? && snap.requiredAction.value.SubmitToolOutputs? {
      assert st.log <= answer(snap.requiredAction.value.toolCalls, st.log).log;
    }
  }

  /**
   * The loop of `waitForRun` from `attempts` attempts already counted: polls
   * until a poll stops it; after the last attempt the run is cancelled and the
   * wait raises a timeout.
   */
  function Wait(runId: string, maxAttempts: nat, poll: nat -> RunSnapshot, answer: Answerer,
                attempts: nat, fuel: nat, st: RunState): (r: Waited)
    requires attempts <= maxAttempts
    ensures attempts <= r.attempts <= maxAttempts
    ensures st.polls <= r.state.polls && st.trace <= r.state.trace
    ensures r.outcome.Finished? ==> r.outcome.snapshot.status == Completed
    ensures r.outcome.RunFailed? ==> IsTerminalFailure(r.outcome.status)
    ensures r.outcome.TimedOut? <==> r.attempts == maxAttempts
    ensures r.outcome.TimedOut? || r.outcome.UnexpectedAction? ==>
              |r.state.trace| > 0 && r.state.trace[|r.state.trace| - 1] == CancelCall(runId)
    decreases fuel
  {
    if attempts == maxAttempts then
      Waited(st.(trace := CancelRun(st.trace, runId)), attempts, TimedOut)
    else if fuel == 0 then
      Waited(st, attempts, OutOfFuel)
    else
      match PollOnce(runId, poll, answer, attempts, st)
      case Stop(result) => result
      case Again(next, counted) =>
        var r := Wait(runId, maxAttempts, poll, answer, counted, fuel - 1, next);
        assert r.state.trace[..|st.trace|] == r.state.trace[..|next.trace|][..|st.trace|];
        r
  }

  lemma {:induction false} PendingPollsSplit(poll: nat -> RunSnapshot, a: nat, b: nat, c: nat)
    requires a <= b <= c
    ensures PendingPolls(poll, a, c) == PendingPolls(poll, a, b) + PendingPolls(poll, b, c)
    decreases c - b
  {
    if b < c {
      PendingPollsSplit(poll, a, b, c - 1);
    }
  }

  /** With an answerer that only appends, waiting only appends to the log. */
  lemma {:induction false} WaitAppendsLog(runId: string, maxAttempts: nat, poll: nat -> RunSnapshot,
                                          answer: Answerer, attempts: nat, fuel: nat, st: RunState)
    requires attempts <= maxAttempts && AppendsOnly(answer)
    ensures st.log <= Wait(runId, maxAttempts, poll, answer, attempts, fuel, st).state.log
    decreases fuel
  {
    if attempts < maxAttempts && fuel > 0 {
      PollOnceAppends(runId, poll, answer, attempts, st);
      var s := PollOnce(runId, poll, answer, attempts, st);
      if s.Again? {
        var r := Wait(runId, maxAttempts, poll, answer, s.attempts, fuel - 1, s.state);
        WaitAppendsLog(runId, maxAttempts, poll, answer, s.attempts, fuel - 1, s.state);
        assert r.state.log[..|st.log|] == r.state.log[..|s.state.log|][..|st.log|];
      }
    }
  }

  /** The attempts counted are exactly the polls that found the run pending. */
  lemma {:induction false} WaitCountsPending(runId: string, maxAttempts: nat, poll: nat -> RunSnapshot,
                                             answer: Answerer, attempts: nat, fuel: nat, st: RunState)
    requires attempts <= maxAttempts
    ensures var r := Wait(runId, maxAttempts, poll, answer, attempts, fuel, st);
            r.attempts - attempts == PendingPolls(poll, st.polls, r.state.polls)
    decreases fuel
  {
    if attempts < maxAttempts && fuel > 0 {
      var s := PollOnce(runId, poll, answer, attempts, st);
      assert PendingPolls(poll, st.polls, st.polls + 1) == if IsPending(poll(st.polls).status) then 1 else 0;
      if s.Again? {
        var r := Wait(runId, maxAttempts, poll, answer, s.attempts, fuel - 1, s.state);
        WaitCountsPending(runId, maxAttempts, poll, answer, s.attempts, fuel - 1, s.state);
        PendingPollsSplit(poll, st.polls, s.state.polls, r.state.polls);
      }
    }
  }

  /** A poll that stops the loop stops it on the status it read. */
  lemma PollOnceStopsOn(runId: string, poll: nat -> RunSnapshot, answer: Answerer, attempts: nat, st: RunState)
    ensures var s := PollOnce(runId, poll, answer, attempts, st);
            s.Stop? ==> StopsOn(poll(st.polls), s.result.outcome)
  {
  }

  /**
   * Unless the loop times out or runs out of fuel, its outcome is decided by
   * the last snapshot it polled.
   */
  lemma {:induction false} WaitStopsOnLastPoll(runId: string, maxAttempts: nat, poll: nat -> RunSnapshot,
                                               answer: Answerer, attempts: nat, fuel: nat, st: RunState)
    requires attempts <= maxAttempts
    ensures var r := Wait(runId, maxAttempts, poll, answer, attempts, fuel, st);
            !r.outcome.TimedOut? && !r.outcome.OutOfFuel? ==>
              st.polls < r.state.polls && StopsOn(poll(r.state.polls - 1), r.outcome)
    decreases fuel
  {
    if attempts < maxAttempts && fuel > 0 {
      var s := PollOnce(runId, poll, answer, attempts, st);
      PollOnceStopsOn(runId, poll, answer, attempts, st);
      if s.Again? {
        WaitStopsOnLastPoll(runId, maxAttempts, poll, answer, s.attempts, fuel - 1, s.state);
      }
    }
  }

  /** `waitForRun`: the loop from no attempts and no polls. */
  function WaitForRun(threadId: string, runId: string, maxAttempts: nat, poll: nat -> RunSnapshot, rpc: Rpc,
                      fuel: nat, log: Log, trace: Trace): (r: Waited)
    ensures r.outcome.TimedOut? ==> PendingPolls(poll, 0, r.state.polls) == maxAttempts
    ensures r.outcome.TimedOut? ==> |r.state.trace| > 0 && r.state.trace[|r.state.trace| - 1] == CancelCall(runId)
    ensures r.outcome.Finished? ==> r.outcome.snapshot.status == Completed
    ensures !r.outcome.TimedOut? && !r.outcome.OutOfFuel? ==>
              0 < r.state.polls && StopsOn(poll(r.state.polls - 1), r.outcome)
    ensures trace <= r.state.trace && log <= r.state.log
  {
    var answer := ToolAnswerer(threadId, rpc);
    WaitAppendsLog(runId, maxAttempts, poll, answer, 0, fuel, RunState(log, trace, 0));
    WaitCountsPending(runId, maxAttempts, poll, answer, 0, fuel, RunState(log, trace, 0));
    WaitStopsOnLastPoll(runId, maxAttempts, poll, answer, 0, fuel, RunState(log, trace, 0));
    Wait(runId, maxAttempts, poll, answer, 0, fuel, RunState(log, trace, 0))
  }

  /**
   * Polls that ask for tool outputs do not count: against an engine that
   * answers every poll with such a request, the loop never times out and only
   * stops for lack of fuel or a tool-call failure.
   */
  lemma {:induction false} ToolRequestsDoNotCount(runId: string, maxAttempts: nat,
                                                  poll: nat -> RunSnapshot, answer: Answerer, attempts: nat, fuel: nat, st: RunState)
    requires attempts < maxAttempts
    requires forall n :: poll(n).status == RequiresAction && poll(n).requiredAction.Some?
                         && poll(n).requiredAction.value.SubmitToolOutputs?
    ensures var r := Wait(runId, maxAttempts, poll, answer, attempts, fuel, st);
            r.attempts == attempts && (r.outcome.OutOfFuel? || r.outcome.ToolCallsFailed?)
    decreases fuel
  {
    if fuel > 0 {
      var s := PollOnce(runId, poll, answer, attempts, st);
      if s.Again? {
        ToolRequestsDoNotCount(runId, maxAttempts, poll, answer, attempts, fuel - 1, s.state);
      }
    }
  }

  /** At the limit the run is cancelled and the wait times out, without polling. */
  lemma WaitAtLimit(runId: string, maxAttempts: nat, poll: nat -> RunSnapshot, answer: Answerer, fuel: nat, st: RunState)
    ensures Wait(runId, maxAttempts, poll, answer, maxAttempts, fuel, st)
         == Waited(st.(trace := st.trace + [CancelCall(runId)]), maxAttempts, TimedOut)
  {
  }

  /** Before the limit, a pending poll counts one attempt and the wait goes on from the next poll. */
  lemma WaitPastPending(runId: string, maxAttempts: nat, poll: nat -> RunSnapshot, answer: Answerer,
                        attempts: nat, fuel: nat, st: RunState)
    requires attempts < maxAttempts && 0 < fuel
    requires IsPending(poll(st.polls).status)
    ensures Wait(runId, maxAttempts, poll, answer, attempts, fuel, st)
         == Wait(runId, maxAttempts, poll, answer, attempts + 1, fuel - 1, st.(polls := st.polls + 1))
  {
    assert PollOnce(runId, poll, answer, attempts, st) == Again(st.(polls := st.polls + 1), attempts + 1);
  }

  /**
   * Against an engine whose run stays pending, the wait polls exactly
   * `maxAttempts` times, cancels the run and times out, given enough fuel.
   */
  lemma {:induction false} PendingRunTimesOut(runId: string, maxAttempts: nat,
                                             poll: nat -> RunSnapshot, answer: Answerer, attempts: nat, fuel: nat, st: RunState)
    requires attempts <= maxAttempts && maxAttempts - attempts <= fuel
    requires forall n :: IsPending(poll(n).status)
    ensures Wait(runId, maxAttempts, poll, answer, attempts, fuel, st)
         == Waited(RunState(st.log, st.trace + [CancelCall(runId)], st.polls + (maxAttempts - attempts)), maxAttempts, TimedOut)
    decreases maxAttempts - attempts
  {
    if attempts < maxAttempts {
      var next := st.(polls := st.polls + 1);
      var last := RunState(st.log, st.trace + [CancelCall(runId)], st.polls + (maxAttempts - attempts));
      calc {
        Wait(runId, maxAttempts, poll, answer, attempts, fuel, st);
        { WaitPastPending(runId, maxAttempts, poll, answer, attempts, fuel, st); }
        Wait(runId, maxAttempts, poll, answer, attempts + 1, fuel - 1, next);
        { PendingRunTimesOut(runId, maxAttempts, poll, answer, attempts + 1, fuel - 1, next); }
        Waited(RunState(next.log, next.trace + [CancelCall(runId)], next.polls + (maxAttempts - (attempts + 1))), maxAttempts, TimedOut);
        Waited(last, maxAttempts, TimedOut);
      }
    } else {
      WaitAtLimit(runId, maxAttempts, poll, answer, fuel, st);
    }
  }

  /** How a settled run ends the wait: completed returns the snapshot, any other settled status raises with it. */
  function Settled(snap: RunSnapshot): WaitOutcome {
    if snap.status == Completed then Finished(snap) else RunFailed(snap.status)
  }

  /** The `k` polls from number `lo` on all find the run pending. */
  predicate PendingRun(poll: nat -> RunSnapshot, lo: nat, k: nat)
    decreases k
  {
    k == 0 || (IsPending(poll(lo).status) && PendingRun(poll, lo + 1, k - 1))
  }

  /** Proof step: the pending polls stated one at a time. */
  lemma {:induction false} PendingRunOfAll(poll: nat -> RunSnapshot, lo: nat, k: nat)
    requires forall n :: lo <= n < lo + k ==> IsPending(poll(n).status)
    ensures PendingRun(poll, lo, k)
    decreases k
  {
    if k > 0 {
      PendingRunOfAll(poll, lo + 1, k - 1);
    }
  }

  /**
   * A run that stays pending for `k` polls and then completes, fails, is
   * cancelled or expires ends the wait on that poll: completed returns the
   * snapshot, and any other of those statuses raises with it. Nothing is
   * logged or requested, and the `k` pending polls count as attempts.
   */
  lemma {:induction false} PendingRunSettles(runId: string, maxAttempts: nat, poll: nat -> RunSnapshot, answer: Answerer,
                                             attempts: nat, k: nat, fuel: nat, st: RunState)
    requires attempts + k < maxAttempts && k < fuel
    requires PendingRun(poll, st.polls, k)
    requires poll(st.polls + k).status == Completed || IsTerminalFailure(poll(st.polls + k).status)
    ensures Wait(runId, maxAttempts, poll, answer, attempts, fuel, st)
         == Waited(RunState(st.log, st.trace, st.polls + k + 1), attempts + k, Settled(poll(st.polls + k)))
    decreases k
  {
    if k == 0 {
      WaitOnSettled(runId, maxAttempts, poll, answer, attempts, fuel, st);
    } else {
      var next := st.(polls := st.polls + 1);
      WaitPastPending(runId, maxAttempts, poll, answer, attempts, fuel, st);
      PendingRunSettles(runId, maxAttempts, poll, answer, attempts + 1, k - 1, fuel - 1, next);
      assert next.polls + (k - 1) == st.polls + k;
    }
  }

  /** Proof step: a poll that finds the run settled ends the wait on it. */
  lemma WaitOnSettled(runId: string, maxAttempts: nat, poll: nat -> RunSnapshot, answer: Answerer,
                      attempts: nat, fuel: nat, st: RunState)
    requires attempts < maxAttempts && 0 < fuel
    requires poll(st.polls).status == Completed || IsTerminalFailure(poll(st.polls).status)
    ensures Wait(runId, maxAttempts, poll, answer, attempts, fuel, st)
         == Waited(RunState(st.log, st.trace, st.polls + 1), attempts, Settled(poll(st.polls)))
  {
    PollOnceCases(runId, poll, answer, attempts, st);
  }

  /**
   * `waitForRun` on a run that is pending for its first `k` polls, `k` below
   * the limit, and completes on the next: it returns that snapshot, with the
   * log and requests unchanged.
   */
  lemma RunCompletesAfterPending(threadId: string, runId: string, maxAttempts: nat, poll: nat -> RunSnapshot, rpc: Rpc,
                                 k: nat, fuel: nat, log: Log, trace: Trace)
    requires k < maxAttempts && k < fuel
    requires forall n :: 0 <= n < k ==> IsPending(poll(n).status)
    requires poll(k).status == Completed
    ensures var r := WaitForRun(threadId, runId, maxAttempts, poll, rpc, fuel, log, trace);
            r == Waited(RunState(log, trace, k + 1), k, Finished(poll(k)))
  {
    PendingRunOfAll(poll, 0, k);
    PendingRunSettles(runId, maxAttempts, poll, ToolAnswerer(threadId, rpc), 0, k, fuel, RunState(log, trace, 0));
  }

  // ---------------------------------------------------------------------------
  // Running an assistant
  // ---------------------------------------------------------------------------

  /** The tools a run is created with: the SQL tool for the main assistant, the query tool for any other. */
  function ToolsFor(assistantId: string): (tools: seq<string>)
    ensures assistantId == Assistant1Id ==> tools == Assistant1Tools
    ensures assistantId != Assistant1Id ==> tools == Assistant2Tools
    ensures |tools| == 1
    ensures SqlAgentTool in tools <==> assistantId == Assistant1Id
    ensures QueryTool in tools <==> assistantId != Assistant1Id
  {
    if assistantId == Assistant1Id then Assistant1Tools else Assistant2Tools
  }

  /** Raised when the assistant's message has no content part at all. */
  const NoContentError: string := "Cannot read properties of undefined (reading 'text')"

  /** Raised when the first content part of the assistant's message is not text. */
  const MissingTextError: string := "Cannot read properties of undefined (reading 'value')"

  datatype RunOutcome = Answered(snapshot: RunSnapshot) | RunThrew(message: string) | RunOutOfFuel

  datatype RunResult = RunResult(log: Log, trace: Trace, outcome: RunOutcome)

  /**
   * After a completed run: the newest thread message, when it is the
   * assistant's, is logged from the assistant to the user with the text of
   * its first content part; a message without parts, or whose first part is
   * not text, raises.
   */
  function RecordReply(log: Log, threadId: string, assistantId: string, messages: seq<ThreadMessage>): (r: Result<Log>)
    ensures r.Ok? ==> log <= r.value && |r.value| <= |log| + 1
    ensures r.Ok? && |r.value| == |log| + 1 ==>
              && |messages| > 0 && |messages[0].content| > 0 && messages[0].content[0].TextPart?
              && r.value[|log|] == AgentMessage(assistantId, UserAgent, Text(messages[0].content[0].value), Assistant, threadId)
    ensures r.Err? <==> |messages| > 0 && messages[0].role == "assistant"
                        && (|messages[0].content| == 0 || messages[0].content[0].OtherPart?)
    ensures r.Err? ==> r.error == if |messages[0].content| == 0 then NoContentError else MissingTextError
    ensures r == Ok(log) <==> |messages| == 0 || messages[0].role != "assistant"
  {
    if |messages| > 0 && messages[0].role == "assistant" then
      if |messages[0].content| == 0 then Err(NoContentError)
      else match messages[0].content[0]
        case OtherPart => Err(MissingTextError)
        case TextPart(text) => Ok(log + [AgentMessage(assistantId, UserAgent, Text(text), Assistant, threadId)])
    else Ok(log)
  }

  /**
   * `runAssistant`: cleans up the thread's unfinished runs, creates a run
   * with the assistant's tools, waits for it with the default limit, and
   * records the assistant's reply. Every failure is raised again.
   */
  function RunAssistant(threadId: string, assistantId: string, runs: RunList, created: Result<string>,
                        poll: nat -> RunSnapshot, rpc: Rpc, messages: Result<seq<ThreadMessage>>,
                        fuel: nat, log: Log, trace: Trace): (r: RunResult)
    ensures trace <= r.trace && log <= r.log
    ensures r.outcome.Answered? ==> r.outcome.snapshot.status == Completed
  {
    var cleaned := CleanupIncompleteRuns(trace, runs);
    var requested := cleaned + [CreateCall(assistantId, ToolsFor(assistantId))];
    match created
    case Err(message) => RunResult(log, requested, RunThrew(message))
    case Ok(runId) =>
      var w := WaitForRun(threadId, runId, DefaultMaxAttempts, poll, rpc, fuel, log, requested);
      assert w.state.trace[..|trace|] == w.state.trace[..|requested|][..|trace|];
      if w.outcome.OutOfFuel? then RunResult(w.state.log, w.state.trace, RunOutOfFuel)
      else if !w.outcome.Finished? then RunResult(w.state.log, w.state.trace, RunThrew(ThrownMessage(w.outcome)))
      else match messages
        case Err(message) => RunResult(w.state.log, w.state.trace, RunThrew(message))
        case Ok(ms) =>
          match RecordReply(w.state.log, threadId, assistantId, ms)
          case Err(message) => RunResult(w.state.log, w.state.trace, RunThrew(message))
          case Ok(replied) => RunResult(replied, w.state.trace, Answered(w.outcome.snapshot))
  }

  /**
   * Before the new run is created, every active run the engine listed is
   * cancelled and nothing else is; the run is then created with the
   * assistant's tools, whatever happens afterwards.
   */
  lemma CleanupBeforeCreate(threadId: string, assistantId: string, runs: RunList, created: Result<string>,
                            poll: nat -> RunSnapshot, rpc: Rpc, messages: Result<seq<ThreadMessage>>,
                            fuel: nat, log: Log, trace: Trace)
    requires runs.Listed?
    ensures var r := RunAssistant(threadId, assistantId, runs, created, poll, rpc, messages, fuel, log, trace);
            var n := |CleanupIncompleteRuns(trace, runs)|;
            && n < |r.trace|
            && r.trace[n] == CreateCall(assistantId, ToolsFor(assistantId))
            && forall c :: c in r.trace[|trace|..n] <==>
                 exists k :: 0 <= k < |runs.runs| && IsActive(runs.runs[k].status) && c == CancelCall(runs.runs[k].id)
  {
    var cleaned := CleanupIncompleteRuns(trace, runs);
    var requested := cleaned + [CreateCall(assistantId, ToolsFor(assistantId))];
    var r := RunAssistant(threadId, assistantId, runs, created, poll, rpc, messages, fuel, log, trace);
    assert requested <= r.trace;
    assert r.trace[|cleaned|] == requested[|cleaned|];
    assert r.trace[|trace|..|cleaned|] == cleaned[|trace|..];
  }
}

=== FILE: search_query.dfy ===
/**
 * The query strategy generator (`generateSearchQuery` in
 * src/lib/agents/sql/recursive-search.ts): the term is sanitised and placed in
 * one of four SQL templates chosen by the attempt number. The templates are
 * kept character for character, so the read-only guard can be run on them.
 */
module SearchQuery {
  import opened Text
  import opened QueryGuard

  /** The characters the sanitiser keeps: ASCII letters and digits, áéíóúÁÉÍÓÚñÑ, white space. */
  predicate IsKept(c: char) {
    || ('a' <= c <= 'z') || ('A' <= c <= 'Z') || ('0' <= c <= '9')
    || c in "áéíóúÁÉÍÓÚñÑ" || IsSpace(c)
  }

  /** Removes every character outside the kept class, keeping order. */
  function KeepAllowed(s: string): (r: string)
    ensures |r| <= |s|
    ensures forall i :: 0 <= i < |r| ==> IsKept(r[i])
    ensures forall c :: c in s && IsKept(c) ==> c in r
    decreases |s|
  {
    if |s| == 0 then ""
    else (if IsKept(s[0]) then [s[0]] else "") + KeepAllowed(s[1..])
  }

  lemma {:induction false} KeepAllowedOfClean(s: string)
    requires forall i :: 0 <= i < |s| ==> IsKept(s[i])
    ensures KeepAllowed(s) == s
    decreases |s|
  {
    if |s| > 0 {
      KeepAllowedOfClean(s[1..]);
      assert s == [s[0]] + s[1..];
    }
  }

  /** None of the characters that could end or widen a string literal or pattern is kept. */
  lemma KeptIsHarmless(c: char)
    requires IsKept(c)
    ensures c != '\'' && c != '%' && c != '_'
  {
  }

  /** Every character is one the sanitiser keeps. */
  predicate AllKept(s: string) {
    forall i :: 0 <= i < |s| ==> IsKept(s[i])
  }

  /**
   * The term as it is placed in the SQL text: only kept characters, trimmed,
   * hence never a quote, `%` or `_` that could change the query around it.
   */
  function Sanitize(term: string): (r: string)
    ensures AllKept(r) && IsTrimmed(r)
    ensures '\'' !in r && '%' !in r && '_' !in r
  {
    var k := KeepAllowed(term);
    var r := Trim(k);
    TrimChars(k);
    forall i | 0 <= i < |r|
      ensures IsKept(r[i])
    {
      var j :| 0 <= j < |k| && k[j] == r[i];
    }
    forall i | 0 <= i < |r|
      ensures r[i] != '\'' && r[i] != '%' && r[i] != '_'
    {
      KeptIsHarmless(r[i]);
    }
    r
  }

  /** Sanitising drops only white space at the ends and characters outside the kept class. */
  lemma SanitizeKeepsAllowed(term: string, c: char)
    requires c in term && IsKept(c) && !IsSpace(c)
    ensures c in Sanitize(term)
  {
    TrimChars(KeepAllowed(term));
  }

  /** Sanitising twice is sanitising once. */
  lemma SanitizeIdempotent(term: string)
    ensures Sanitize(Sanitize(term)) == Sanitize(term)
  {
    var s := Sanitize(term);
    KeepAllowedOfClean(s);
    TrimOfTrimmed(s);
  }

  /** A term made only of kept characters and already trimmed passes through unchanged. */
  lemma SanitizeKeepsCleanTerm(term: string)
    requires AllKept(term)
    requires IsTrimmed(term)
    ensures Sanitize(term) == term
  {
    KeepAllowedOfClean(term);
    TrimOfTrimmed(term);
  }

  /** The four matching techniques, from narrowest to broadest. */
  datatype Strategy = ExactMatch | PartialMatch | FuzzyMatch | FallbackSearch

  /** The strategy table: attempts 1, 2, 3 and then the store's own search function. */
  function StrategyFor(attempt: int): Strategy {
    if attempt == 1 then ExactMatch
    else if attempt == 2 then PartialMatch
    else if attempt == 3 then FuzzyMatch
    else FallbackSearch
  }

  /** Attempts 1 to 3 are exactly those with a strategy before the fallback. */
  lemma NarrowAttempts(attempt: int)
    ensures StrategyFor(attempt) != FallbackSearch <==> 1 <= attempt <= 3
  {
  }

  const Lead: string := "\n        "
  const Trail: string := "\n      "
  const Columns: string := "SELECT " + "\n          nombre_generico," + "\n          precio_promedio,"
    + "\n          unidad," + "\n          division," + "\n          grupo," + "\n          clase,"
    + "\n          subclase"
  const FromPriceData: string := "\n        FROM price_data"
  const OrderByPrice: string := "\n        ORDER BY precio_promedio ASC"
  const ExactFilter: string := "\n        WHERE lower(unaccent(nombre_generico)) = lower(unaccent('"
  const PartialFilter: string := "\n        WHERE lower(unaccent(nombre_generico)) ILIKE '%"
  const SimilarityColumn: string := "," + "\n          similarity(lower(unaccent(nombre_generico)), lower(unaccent('"
  const SimilarityAlias: string := "'))) as sim"
  const FallbackSource: string := "\n        FROM search_ingredients_v3('"
  const FallbackTail: string := "', 0.3)" + "\n        LIMIT 20"

  /** The fuzzy template's text after its similarity column: the filter repeats the term. */
  function FuzzyFilter(t: string): string {
    "\n        WHERE similarity(lower(unaccent(nombre_generico)), lower(unaccent('" + t + "'))) > 0.3"
    + "\n        ORDER BY sim DESC, precio_promedio ASC" + "\n        LIMIT 20"
  }

  /** The template text between the column list and the first occurrence of the term. */
  function Selection(s: Strategy): string {
    match s
    case ExactMatch => FromPriceData + ExactFilter
    case PartialMatch => FromPriceData + PartialFilter
    case FuzzyMatch => SimilarityColumn
    case FallbackSearch => FallbackSource
  }

  /** The template text before the first occurrence of the term. */
  function Opening(s: Strategy): string {
    Columns + Selection(s)
  }

  /** The template text after the first occurrence of the term. */
  function Closing(s: Strategy, t: string): string {
    match s
    case ExactMatch => "'))" + OrderByPrice + "\n        LIMIT 10"
    case PartialMatch => "%'" + OrderByPrice + "\n        LIMIT 15"
    case FuzzyMatch => SimilarityAlias + FromPriceData + FuzzyFilter(t)
    case FallbackSearch => FallbackTail
  }

  /** The query text between the template's leading and trailing white space. */
  function Body(s: Strategy, t: string): string {
    Opening(s) + t + Closing(s, t)
  }

  /**
   * `generateSearchQuery`: the strategy's template, laid out with its leading
   * and trailing white space, around the sanitised term.
   */
  function GenerateSearchQuery(term: string, attempt: int): (q: string)
    ensures Contains(q, Sanitize(term))
  {
    var s := StrategyFor(attempt);
    var t := Sanitize(term);
    TermInQuery(s, t);
    Lead + Body(s, t) + Trail
  }

  lemma TermInQuery(s: Strategy, t: string)
    ensures Contains(Lead + Body(s, t) + Trail, t)
  {
    ContainsInfix(Opening(s), t, Closing(s, t));
    ContainsWithin(Body(s, t), t, Lead, Trail);
  }

  /** The guard sees the template body, lower-cased: the layout white space is trimmed away. */
  lemma NormalizedQuery(s: Strategy, t: string)
    ensures Normalize(Lead + Body(s, t) + Trail) == Lower(Body(s, t))
  {
    var b := Body(s, t);
    var c := Closing(s, t);
    ColumnsStartWithSelect();
    ClosingEndsWithDigit(s, t);
    LayoutIsSpace();
    ConcatAssoc4(Columns, Selection(s), t, c);
    assert b[0] == Columns[0];
    assert b[|b| - 1] == c[|c| - 1];
    TrimPadded(Lead, b, Trail);
  }

  lemma LayoutIsSpace()
    ensures forall i :: 0 <= i < |Lead| ==> IsSpace(Lead[i])
    ensures forall i :: 0 <= i < |Trail| ==> IsSpace(Trail[i])
  {
  }

  /** Every template ends with the digit of its row cap. */
  lemma ClosingEndsWithDigit(s: Strategy, t: string)
    ensures |Closing(s, t)| > 0 && '0' <= Closing(s, t)[|Closing(s, t)| - 1] <= '9'
  {
    match s
    case ExactMatch =>
      LastOfJoin("'))" + OrderByPrice, "\n        LIMIT 10");
    case PartialMatch =>
      LastOfJoin("%'" + OrderByPrice, "\n        LIMIT 15");
    case FuzzyMatch =>
      var f := FuzzyFilter(t);
      LastOfJoin("\n        WHERE similarity(lower(unaccent(nombre_generico)), lower(unaccent('" + t + "'))) > 0.3"
                 + "\n        ORDER BY sim DESC, precio_promedio ASC", "\n        LIMIT 20");
      LastOfJoin(SimilarityAlias + FromPriceData, f);
    case FallbackSearch =>
      LastOfJoin("', 0.3)", "\n        LIMIT 20");
  }

  /** Facts about the template literals, each checked on its own. */
  lemma ColumnsHaveNoF()
    ensures 'f' !in Columns && 'F' !in Columns
  {
    ColumnsLack('f');
    ColumnsLack('F');
  }

  lemma ColumnsLack(c: char)
    requires c == 'f' || c == 'F'
    ensures c !in Columns
  {
    ColumnsHeadLack(c);
    var s := "SELECT " + "\n          nombre_generico," + "\n          precio_promedio," + "\n          unidad,";
    NotInJoin(c, s, "\n          division,");
    s := s + "\n          division,";
    NotInJoin(c, s, "\n          grupo,");
    s := s + "\n          grupo,";
    NotInJoin(c, s, "\n          clase,");
    s := s + "\n          clase,";
    NotInJoin(c, s, "\n          subclase");
    s := s + "\n          subclase";
  }

  lemma ColumnsHeadLack(c: char)
    requires c == 'f' || c == 'F'
    ensures c !in "SELECT " + "\n          nombre_generico," + "\n          precio_promedio," + "\n          unidad,"
  {
    var s := "SELECT ";
    NotInJoin(c, s, "\n          nombre_generico,");
    s := s + "\n          nombre_generico,";
    NotInJoin(c, s, "\n          precio_promedio,");
    s := s + "\n          precio_promedio,";
    NotInJoin(c, s, "\n          unidad,");
    s := s + "\n          unidad,";
  }

  lemma ColumnsStartWithSelect()
    ensures |Columns| > 6 && Columns[0] == 'S'
    ensures StartsWith(Lower(Columns), "select")
  {
  }

  lemma FallbackSourceLowered()
    ensures Lower(FallbackSource) == "\n        " + "f" + "rom search_ingredients_v3('"
  {
  }

  lemma FallbackTailFacts()
    ensures 'f' !in FallbackTail && 'F' !in FallbackTail && FallbackTail[0] == '\''
  {
  }

  lemma PriceTableFacts()
    ensures Lower(FromPriceData) == "\n        " + "from price_data" + ""
  {
  }

  /**
   * Proof step: associativity of a four-part concatenation. Stated over arbitrary
   * texts so that the solver does not unfold the template constants.
   */
  lemma ConcatAssoc4(a: string, b: string, c: string, d: string)
    ensures a + b + c + d == a + (b + c + d)
  {
  }

  /** Proof step: associativity of a five-part concatenation, stated like `ConcatAssoc4`. */
  lemma ConcatAssoc5(a: string, b: string, c: string, d: string, e: string)
    ensures a + (b + c) + d + e == a + b + (c + d + e)
  {
  }

  /** Every template begins with its column list. */
  lemma BodyStartsWithColumns(s: Strategy, t: string)
    ensures Lower(Body(s, t))[..|Columns|] == Lower(Columns)
  {
    ConcatAssoc4(Columns, Selection(s), t, Closing(s, t));
    LowerPrefix(Columns, Selection(s) + t + Closing(s, t));
  }

  /** Every generated query passes the guard's first check. */
  lemma GeneratedStartsWithSelect(term: string, attempt: int)
    ensures StartsWith(Normalize(GenerateSearchQuery(term, attempt)), "select")
  {
    assert GenerateSearchQuery(term, attempt) == Lead + Body(StrategyFor(attempt), Sanitize(term)) + Trail;
    TemplateStartsWithSelect(StrategyFor(attempt), Sanitize(term));
  }

  lemma TemplateStartsWithSelect(s: Strategy, t: string)
    ensures StartsWith(Normalize(Lead + Body(s, t) + Trail), "select")
  {
    NormalizedQuery(s, t);
    BodyStartsWithColumns(s, t);
    ColumnsStartWithSelect();
    StartsWithHead(Lower(Body(s, t)), Lower(Columns), "select");
  }

  /** "from price_data" cannot occur in a text with one 'f' that is not followed by "rom p", and a term with no '_' or quote before a quote. */
  lemma {:induction false} NoPriceTableAcross(c: string, b: string, t: string, e: string)
    requires 'f' !in c && 'f' !in b && 'f' !in e
    requires |b| > 4 && b[4] != 'p'
    requires '_' !in t && '\'' !in t
    requires |e| > 0 && e[0] == '\''
    ensures !Contains(c + "f" + b + t + e, "from price_data")
  {
    var w := "from price_data";
    var l := c + "f" + b + t + e;
    forall i | 0 <= i <= |l|
      ensures !OccursAt(l, w, i)
    {
      var p := |c| + 1 + |b| + |t|;
      if i < |c| {
        assert l[i] == c[i];
        MismatchNotAt(l, w, i, 0);
      } else if i == |c| {
        assert l[i + 5] == b[4];
        MismatchNotAt(l, w, i, 5);
      } else if i < |c| + 1 + |b| {
        assert l[i] == b[i - |c| - 1];
        MismatchNotAt(l, w, i, 0);
      } else if i + 10 < p {
        assert l[i + 10] == t[i + 10 - |c| - 1 - |b|];
        MismatchNotAt(l, w, i, 10);
      } else if i < p {
        assert l[p] == e[0];
        MismatchNotAt(l, w, i, p - i);
      } else {
        if i < |l| {
          assert l[i] == e[i - p];
        }
        MismatchNotAt(l, w, i, 0);
      }
    }
  }

  /** The lowered fallback query splits around the one 'f' of its text. */
  lemma FallbackShape(t: string)
    requires '_' !in t && '\'' !in t
    ensures !Contains(Lower(Body(FallbackSearch, t)), "from price_data")
  {
    var c := Lower(Columns) + "\n        ";
    var b := "rom search_ingredients_v3('";
    var e := Lower(FallbackTail);
    ColumnsHaveNoF();
    FallbackTailFacts();
    FallbackLowered(t);
    assert '_' !in Lower(t) && '\'' !in Lower(t);
    NoPriceTableAcross(c, b, Lower(t), e);
  }

  lemma FallbackLowered(t: string)
    ensures Lower(Body(FallbackSearch, t))
            == Lower(Columns) + "\n        " + "f" + "rom search_ingredients_v3('" + Lower(t) + Lower(FallbackTail)
  {
    FallbackSourceLowered();
    LowerAppend3(Columns + FallbackSource, t, FallbackTail);
    LowerAppend(Columns, FallbackSource);
  }

  lemma ExactReadsPriceTable(t: string)
    ensures Contains(Lower(Body(ExactMatch, t)), "from price_data")
  {
    PriceTableFacts();
    ContainsInfix("\n        ", "from price_data", "");
    ConcatAssoc5(Columns, FromPriceData, ExactFilter, t, Closing(ExactMatch, t));
    LowerContains(Columns, FromPriceData, ExactFilter + t + Closing(ExactMatch, t), "from price_data");
  }

  lemma PartialReadsPriceTable(t: string)
    ensures Contains(Lower(Body(PartialMatch, t)), "from price_data")
  {
    PriceTableFacts();
    ContainsInfix("\n        ", "from price_data", "");
    ConcatAssoc5(Columns, FromPriceData, PartialFilter, t, Closing(PartialMatch, t));
    LowerContains(Columns, FromPriceData, PartialFilter + t + Closing(PartialMatch, t), "from price_data");
  }

  lemma FuzzyReadsPriceTable(t: string)
    ensures Contains(Lower(Body(FuzzyMatch, t)), "from price_data")
  {
    PriceTableFacts();
    ContainsInfix("\n        ", "from price_data", "");
    ConcatAssoc4(Opening(FuzzyMatch) + t, SimilarityAlias, FromPriceData, FuzzyFilter(t));
    LowerContains(Opening(FuzzyMatch) + t + SimilarityAlias, FromPriceData, FuzzyFilter(t), "from price_data");
  }

  /** The first three strategies read the price table; the fallback reads the store's search function. */
  lemma PriceTableIffNarrowStrategy(term: string, attempt: int)
    ensures Contains(Normalize(GenerateSearchQuery(term, attempt)), "from price_data") <==> 1 <= attempt <= 3
  {
    assert GenerateSearchQuery(term, attempt) == Lead + Body(StrategyFor(attempt), Sanitize(term)) + Trail;
    TemplateReadsPriceTable(StrategyFor(attempt), Sanitize(term));
    NarrowAttempts(attempt);
  }

  lemma TemplateReadsPriceTable(s: Strategy, t: string)
    requires '_' !in t && '\'' !in t
    ensures Contains(Normalize(Lead + Body(s, t) + Trail), "from price_data") <==> s != FallbackSearch
  {
    NormalizedQuery(s, t);
    match s
    case ExactMatch => ExactReadsPriceTable(t);
    case PartialMatch => PartialReadsPriceTable(t);
    case FuzzyMatch => FuzzyReadsPriceTable(t);
    case FallbackSearch => FallbackShape(t);
  }

  /** Hence the guard refuses every fallback query, and accepts a narrower one exactly when it mentions no forbidden operation. */
  lemma GuardOnGeneratedQuery(term: string, attempt: int)
    ensures ValidateQuery(GenerateSearchQuery(term, attempt)).Valid?
        <==> 1 <= attempt <= 3 && NoneForbidden(Normalize(GenerateSearchQuery(term, attempt)))
  {
    GeneratedStartsWithSelect(term, attempt);
    PriceTableIffNarrowStrategy(term, attempt);
  }

  /** A forbidden operation spelled inside the (sanitised) term makes the guard refuse the query. */
  lemma ForbiddenTermIsRefused(term: string, attempt: int, op: string)
    requires op in ForbiddenOperations
    requires Contains(Lower(Sanitize(term)), op)
    ensures ValidateQuery(GenerateSearchQuery(term, attempt)).Invalid?
  {
    var s := StrategyFor(attempt);
    var t := Sanitize(term);
    NormalizedQuery(s, t);
    LowerAppend3(Opening(s), t, Closing(s, t));
    ContainsWithin(Lower(t), op, Lower(Opening(s)), Lower(Closing(s, t)));
    ForbiddenIsRefused(GenerateSearchQuery(term, attempt), op);
  }
}

=== FILE: seq_facts.dfy ===
/**
 * Facts about sequences used as lists without repetition (the search's set of
 * found terms keeps insertion order) and about counting occurrences.
 */
module SeqFacts {
  /** No element appears twice. */
  predicate Distinct<T(==)>(s: seq<T>) {
    forall i, j :: 0 <= i < j < |s| ==> s[i] != s[j]
  }

  function Elements<T(==)>(s: seq<T>): set<T> {
    set x | x in s
  }

  /** How many times `x` appears in `s`. */
  function Occurrences<T(==)>(s: seq<T>, x: T): (n: nat)
    ensures n <= |s|
    ensures n == 0 <==> x !in s
    decreases |s|
  {
    if |s| == 0 then 0 else (if s[0] == x then 1 else 0) + Occurrences(s[1..], x)
  }

  /** `s` with `x` added at the end unless it is already there: `Set.add` on an insertion-ordered set. */
  function AddNew<T(==,!new)>(s: seq<T>, x: T): (r: seq<T>)
    ensures Distinct(s) ==> Distinct(r)
    ensures Elements(r) == Elements(s) + {x}
    ensures forall y :: y in r <==> y in s || y == x
    ensures s <= r && (x in s ==> r == s)
  {
    if x in s then s else s + [x]
  }

  lemma {:induction false} ElementsCardinality<T>(s: seq<T>)
    ensures |Elements(s)| <= |s|
    ensures |Elements(s)| == |s| <==> Distinct(s)
    decreases |s|
  {
    if |s| > 0 {
      var rest := s[1..];
      ElementsCardinality(rest);
      assert Elements(s) == {s[0]} + Elements(rest);
      if s[0] in rest {
        assert Elements(s) == Elements(rest);
        var j :| 0 <= j < |rest| && rest[j] == s[0];
        assert s[0] == s[j + 1];
      } else {
        assert |Elements(s)| == |Elements(rest)| + 1;
        if Distinct(rest) {
          forall i, j | 0 <= i < j < |s|
            ensures s[i] != s[j]
          {
            if i == 0 {
              assert s[j] == rest[j - 1];
            } else {
              assert s[i] == rest[i - 1] && s[j] == rest[j - 1];
            }
          }
        } else {
          var i, j :| 0 <= i < j < |rest| && rest[i] == rest[j];
          assert s[i + 1] == s[j + 1];
        }
      }
    }
  }

  /** A subset as large as its superset is the whole of it. */
  lemma SubsetOfEqualSize<T>(a: set<T>, b: set<T>)
    requires a <= b && |a| == |b|
    ensures a == b
  {
    assert b == a + (b - a);
    assert a * (b - a) == {};
    assert |b - a| == 0;
    assert b - a == {};
  }

  /**
   * A repetition-free list drawn from the elements of `s` is as long as `s`
   * exactly when `s` has no repetition and the list holds all of it.
   */
  lemma {:induction false} CoversExactly<T>(found: seq<T>, s: seq<T>)
    requires Distinct(found)
    requires forall x :: x in found ==> x in s
    ensures |found| == |s| <==> Distinct(s) && forall x :: x in s ==> x in found
  {
    ElementsCardinality(found);
    ElementsCardinality(s);
    assert Elements(found) <= Elements(s);
    if |found| == |s| {
      assert |Elements(found)| <= |Elements(s)| by {
        assert Elements(s) == Elements(found) + (Elements(s) - Elements(found));
      }
      SubsetOfEqualSize(Elements(found), Elements(s));
      forall x | x in s
        ensures x in found
      {
        assert x in Elements(s);
      }
    }
    if Distinct(s) && forall x :: x in s ==> x in found {
      forall x | x in Elements(s)
        ensures x in Elements(found)
      {
        assert x in s;
      }
      assert Elements(found) == Elements(s);
      assert |found| == |Elements(found)| == |Elements(s)| == |s|;
    }
  }

  /** The sequences one after the other. */
  function Flatten<T>(ss: seq<seq<T>>): (r: seq<T>)
    decreases |ss|
  {
    if |ss| == 0 then [] else ss[0] + Flatten(ss[1..])
  }

  /** Proof step: a non-empty sequence is its head followed by its tail, also in front of another sequence. */
  lemma HeadTail<T>(a: seq<T>, b: seq<T>)
    requires |a| > 0
    ensures a == [a[0]] + a[1..]
    ensures a + b == [a[0]] + (a[1..] + b)
  {
  }

  /** Proof step: concatenation regroups. */
  lemma ConcatAssoc<T>(x: seq<T>, y: seq<T>, z: seq<T>)
    ensures x + (y + z) == (x + y) + z
  {
  }
}

=== FILE: sql_types.dfy ===
/**
 * Records exchanged by the ingredient-price search: store rows, their
 * nine-field projection, grouped results and the pricing agent's response.
 * Prices and similarity scores are carried, never computed with.
 */
module SqlTypes {
  import opened Wrappers

  /** The three outcomes a pricing response may report. */
  datatype ResponseStatus = Success | PartialSuccess | Error

  /** How a failed or fruitless search attempt is classified. */
  datatype ErrorType = Timeout | Syntax | NoResults | Execution | Validation

  /**
   * One row returned by the price store. `searchToken` names the term the row
   * was found for, when the row carries one.
   */
  datatype PriceRow = PriceRow(
    nombreGenerico: string,
    precioPromedio: real,
    unidad: string,
    division: string,
    grupo: string,
    clase: string,
    subclase: string,
    matchType: Option<string>,
    similarity: Option<real>,
    searchToken: Option<string>)

  /** A row as it appears inside a group: the nine fields from `nombre_generico` to `similarity`. */
  datatype PriceRecord = PriceRecord(
    nombreGenerico: string,
    precioPromedio: real,
    unidad: string,
    division: string,
    grupo: string,
    clase: string,
    subclase: string,
    matchType: Option<string>,
    similarity: Option<real>)

  function Project(row: PriceRow): PriceRecord {
    PriceRecord(row.nombreGenerico, row.precioPromedio, row.unidad, row.division, row.grupo,
                row.clase, row.subclase, row.matchType, row.similarity)
  }

  /** The records found for one key, in the order the rows arrived. */
  datatype Group = Group(token: string, records: seq<PriceRecord>)

  /** The `data` of a response: a plain list of rows, or rows already grouped by term. */
  datatype Payload = RowList(rows: seq<PriceRow>) | GroupedRows(groups: seq<Group>)

  /** The metadata fields the response schema keeps; the generation time is left out. */
  datatype Metadata = Metadata(foundTerms: Option<seq<string>>, totalMatches: Option<nat>)

  /** What the pricing agent hands back to the main agent. */
  datatype SqlAgentResponse = SqlAgentResponse(
    status: ResponseStatus,
    data: Option<Payload>,
    error: Option<string>,
    metadata: Option<Metadata>)

  /** One entry of the formatter's per-term summary. */
  datatype SearchSummary = SearchSummary(
    searchTerm: string,
    matchesFound: nat,
    bestMatch: Option<string>,
    bestMatchScore: Option<real>)

  /** The formatter's structured response. */
  datatype FormattedResponse = FormattedResponse(
    status: ResponseStatus,
    data: seq<Group>,
    totalIngredientsFound: nat,
    totalMatches: nat,
    searchSummary: seq<SearchSummary>)

  /** The message prepared for the SQL-executing agent: a function name and its parameters. */
  datatype SqlQueryMessage = SqlQueryMessage(
    functionName: string,
    query: string,
    ingredientsParam: string,
    thresholdParam: real)

  /**
   * The price store's answer to one call: rows (an absent `data` reads as no
   * rows), an error object it returned, or an exception the call threw.
   */
  datatype StoreReply = Rows(rows: seq<PriceRow>) | StoreError(message: string) | StoreThrew(message: string)

  /** The similarity threshold passed to the store's fuzzy search. */
  const SimilarityThreshold: real := 0.3
}

=== FILE: terms.dfy ===
/**
 * The ingredient phrase as a list of search terms: split on commas, trim each
 * segment, drop the empty ones. Both search paths derive their terms this way.
 */
module Terms {
  import opened Text

  /** A well-formed search term: non-empty, trimmed, comma-free. */
  predicate IsTerm(t: string) {
    t != "" && IsTrimmed(t) && ',' !in t
  }

  /** Trims every segment and keeps the non-empty ones, in order. */
  function TrimmedNonEmpty(segments: seq<string>): (terms: seq<string>)
    requires forall k :: 0 <= k < |segments| ==> ',' !in segments[k]
    ensures |terms| <= |segments|
    ensures forall k :: 0 <= k < |terms| ==> IsTerm(terms[k])
    decreases |segments|
  {
    if |segments| == 0 then []
    else
      var t := Trim(segments[0]);
      TrimLacks(segments[0], ',');
      var rest := TrimmedNonEmpty(segments[1..]);
      if t == "" then rest
      else [t] + rest
  }

  lemma {:induction false} TrimmedNonEmptyAppend(a: seq<string>, b: seq<string>)
    requires forall k :: 0 <= k < |a| ==> ',' !in a[k]
    requires forall k :: 0 <= k < |b| ==> ',' !in b[k]
    ensures TrimmedNonEmpty(a + b) == TrimmedNonEmpty(a) + TrimmedNonEmpty(b)
    decreases |a|
  {
    if |a| == 0 {
      assert a + b == b;
    } else {
      assert (a + b)[1..] == a[1..] + b;
      TrimmedNonEmptyAppend(a[1..], b);
    }
  }

  /** `phrase.split(',').map(t => t.trim()).filter(t => t.length > 0)`. */
  function SplitTerms(phrase: string): (terms: seq<string>)
    ensures forall k :: 0 <= k < |terms| ==> IsTerm(terms[k])
    ensures |terms| <= |Split(phrase, ',')|
  {
    SplitSegmentsFree(phrase, ',');
    TrimmedNonEmpty(Split(phrase, ','))
  }

  /** The terms of two comma-joined phrases are the terms of each, in order. */
  lemma SplitTermsAppend(a: string, b: string)
    ensures SplitTerms(a + "," + b) == SplitTerms(a) + SplitTerms(b)
  {
    SplitAppend(a, b, ',');
    SplitSegmentsFree(a, ',');
    SplitSegmentsFree(b, ',');
    TrimmedNonEmptyAppend(Split(a, ','), Split(b, ','));
  }

  lemma SplitTermsOfTerm(t: string)
    requires IsTerm(t)
    ensures SplitTerms(t) == [t]
  {
    SplitWithout(t, ',');
    TrimOfTrimmed(t);
    assert TrimmedNonEmpty([t]) == [t] + TrimmedNonEmpty([]);
  }

  /**
   * Round trip: joining well-formed terms with commas and splitting again gives
   * back the same terms, duplicates and order included.
   */
  lemma {:induction false} SplitTermsJoin(terms: seq<string>)
    requires |terms| >= 1
    requires forall k :: 0 <= k < |terms| ==> IsTerm(terms[k])
    ensures SplitTerms(Join(terms, ',')) == terms
    decreases |terms|
  {
    if |terms| == 1 {
      SplitTermsOfTerm(terms[0]);
    } else {
      var tail := Join(terms[1..], ',');
      assert Join(terms, ',') == terms[0] + "," + tail;
      calc {
        SplitTerms(Join(terms, ','));
        SplitTerms(terms[0] + "," + tail);
        { SplitTermsAppend(terms[0], tail); }
        SplitTerms(terms[0]) + SplitTerms(tail);
        { SplitTermsOfTerm(terms[0]); SplitTermsJoin(terms[1..]); }
        [terms[0]] + terms[1..];
      }
      assert terms == [terms[0]] + terms[1..];
    }
  }

  /** A phrase made only of commas and white space has no terms. */
  lemma {:induction false} BlankPhraseHasNoTerms(phrase: string)
    requires forall i :: 0 <= i < |phrase| ==> phrase[i] == ',' || IsSpace(phrase[i])
    ensures SplitTerms(phrase) == []
    decreases |phrase|
  {
    var segments := Split(phrase, ',');
    SplitSegmentsFree(phrase, ',');
    forall k | 0 <= k < |segments|
      ensures Trim(segments[k]) == ""
    {
      SegmentChars(phrase, k);
      TrimChars(segments[k]);
    }
    AllBlankSegments(segments);
  }

  lemma {:induction false} AllBlankSegments(segments: seq<string>)
    requires forall k :: 0 <= k < |segments| ==> ',' !in segments[k]
    requires forall k :: 0 <= k < |segments| ==> Trim(segments[k]) == ""
    ensures TrimmedNonEmpty(segments) == []
    decreases |segments|
  {
    if |segments| > 0 {
      AllBlankSegments(segments[1..]);
    }
  }

  /** Every character of a segment is a character of the phrase. */
  lemma {:induction false} SegmentChars(phrase: string, k: int)
    requires 0 <= k < |Split(phrase, ',')|
    ensures forall c :: c in Split(phrase, ',')[k] ==> c in phrase
    decreases |phrase|
  {
    if |phrase| > 0 {
      var rest := Split(phrase[1..], ',');
      assert forall c :: c in phrase[1..] ==> c in phrase;
      if phrase[0] == ',' {
        if k > 0 {
          assert Split(phrase, ',')[k] == rest[k - 1];
          SegmentChars(phrase[1..], k - 1);
        }
      } else if k == 0 {
        assert Split(phrase, ',')[0] == [phrase[0]] + rest[0];
        SegmentChars(phrase[1..], 0);
      } else {
        assert Split(phrase, ',')[k] == rest[k];
        SegmentChars(phrase[1..], k);
      }
    }
  }
}

=== FILE: text.dfy ===
/**
 * The JavaScript string operations the core relies on, over `string` (= `seq<char>`):
 * `trim`, `toLowerCase` (ASCII letters only), `startsWith`, `includes`,
 * `split` on one character, and the decimal rendering of a count.
 */
module Text {

  /** JavaScript white space and line terminators: what `trim()` removes and what `\s` matches. */
  predicate IsSpace(c: char) {
    || c == ' ' || c == '\t' || c == '\n' || c == '\r' || c == '\U{000B}' || c == '\U{000C}'
    || c == '\U{00A0}' || c == '\U{1680}' || ('\U{2000}' <= c <= '\U{200A}')
    || c == '\U{2028}' || c == '\U{2029}' || c == '\U{202F}' || c == '\U{205F}'
    || c == '\U{3000}' || c == '\U{FEFF}'
  }

  /** No white space at either end. */
  predicate IsTrimmed(s: string) {
    |s| == 0 || (!IsSpace(s[0]) && !IsSpace(s[|s| - 1]))
  }

  /** Removes the longest all-space prefix. */
  function TrimStart(s: string): (r: string)
    ensures |r| <= |s| && r == s[|s| - |r|..]
    ensures forall i :: 0 <= i < |s| - |r| ==> IsSpace(s[i])
    ensures |r| > 0 ==> !IsSpace(r[0])
    decreases |s|
  {
    if |s| > 0 && IsSpace(s[0]) then TrimStart(s[1..]) else s
  }

  /** Removes the longest all-space suffix. */
  function TrimEnd(s: string): (r: string)
    ensures |r| <= |s| && r == s[..|r|]
    ensures forall i :: |r| <= i < |s| ==> IsSpace(s[i])
    ensures |r| > 0 ==> !IsSpace(r[|r| - 1])
    decreases |s|
  {
    if |s| > 0 && IsSpace(s[|s| - 1]) then TrimEnd(s[..|s| - 1]) else s
  }

  /** `String.prototype.trim`: the infix of `s` left after removing white space at both ends. */
  function Trim(s: string): (r: string)
    ensures IsTrimmed(r)
    ensures |r| <= |s|
  {
    TrimEnd(TrimStart(s))
  }

  /** Trimming keeps exactly the characters between the first and last non-space ones. */
  lemma TrimChars(s: string)
    ensures forall i :: 0 <= i < |Trim(s)| ==> Trim(s)[i] in s
    ensures forall c :: c in s && !IsSpace(c) ==> c in Trim(s)
  {
    TrimCharsFromInput(s);
    TrimKeepsNonSpace(s);
  }

  lemma TrimCharsFromInput(s: string)
    ensures forall i :: 0 <= i < |Trim(s)| ==> Trim(s)[i] in s
  {
    var a := TrimStart(s);
    var r := TrimEnd(a);
    assert r == Trim(s);
    forall i | 0 <= i < |r|
      ensures r[i] in s
    {
      assert r[i] == a[i] == s[|s| - |a| + i];
    }
  }

  /** Trimming adds no character. */
  lemma TrimLacks(s: string, c: char)
    requires c !in s
    ensures c !in Trim(s)
  {
    TrimCharsFromInput(s);
  }

  lemma TrimKeepsNonSpace(s: string)
    ensures forall c :: c in s && !IsSpace(c) ==> c in Trim(s)
  {
    forall c | c in s && !IsSpace(c)
      ensures c in Trim(s)
    {
      var i :| 0 <= i < |s| && s[i] == c;
      TrimKeepsAt(s, i);
    }
  }

  /** A non-space character keeps its place, shifted by the removed prefix. */
  lemma TrimKeepsAt(s: string, i: int)
    requires 0 <= i < |s| && !IsSpace(s[i])
    ensures s[i] in Trim(s)
  {
    var a := TrimStart(s);
    var r := TrimEnd(a);
    var off := |s| - |a|;
    assert off <= i;
    assert a[i - off] == s[i];
    assert i - off < |r|;
    assert r[i - off] == s[i];
  }

  lemma TrimStartOfUnpadded(s: string)
    requires |s| == 0 || !IsSpace(s[0])
    ensures TrimStart(s) == s
  {
  }

  lemma TrimEndOfUnpadded(s: string)
    requires |s| == 0 || !IsSpace(s[|s| - 1])
    ensures TrimEnd(s) == s
  {
  }

  /** Trimming a trimmed string changes nothing; in particular `Trim` is idempotent. */
  lemma TrimOfTrimmed(s: string)
    requires IsTrimmed(s)
    ensures Trim(s) == s
  {
    TrimStartOfUnpadded(s);
    TrimEndOfUnpadded(s);
  }

  lemma {:induction false} TrimStartPadded(a: string, b: string)
    requires forall i :: 0 <= i < |a| ==> IsSpace(a[i])
    requires |b| > 0 && !IsSpace(b[0])
    ensures TrimStart(a + b) == b
    decreases |a|
  {
    if |a| == 0 {
      assert a + b == b;
    } else {
      assert (a + b)[1..] == a[1..] + b;
      TrimStartPadded(a[1..], b);
    }
  }

  lemma {:induction false} TrimEndPadded(b: string, c: string)
    requires forall i :: 0 <= i < |c| ==> IsSpace(c[i])
    requires |b| > 0 && !IsSpace(b[|b| - 1])
    ensures TrimEnd(b + c) == b
    decreases |c|
  {
    if |c| == 0 {
      assert b + c == b;
    } else {
      assert (b + c)[..|b + c| - 1] == b + c[..|c| - 1];
      TrimEndPadded(b, c[..|c| - 1]);
    }
  }

  /** White space around a string with non-space ends is exactly what `trim` removes. */
  lemma TrimPadded(a: string, b: string, c: string)
    requires forall i :: 0 <= i < |a| ==> IsSpace(a[i])
    requires forall i :: 0 <= i < |c| ==> IsSpace(c[i])
    requires |b| > 0 && !IsSpace(b[0]) && !IsSpace(b[|b| - 1])
    ensures Trim(a + b + c) == b
  {
    assert a + b + c == a + (b + c);
    TrimStartPadded(a, b + c);
    TrimEndPadded(b, c);
  }

  /** `toLowerCase` on one character, restricted to the ASCII letters. */
  function LowerChar(c: char): char {
    if 'A' <= c <= 'Z' then (c as int + 32) as char else c
  }

  /** `toLowerCase`, restricted to the ASCII letters. */
  function Lower(s: string): (r: string)
    ensures |r| == |s|
    ensures forall i :: 0 <= i < |s| ==> r[i] == LowerChar(s[i])
  {
    seq(|s|, i requires 0 <= i < |s| => LowerChar(s[i]))
  }

  /**
   * Lowering leaves no ASCII capital: each capital moves 32 code points down
   * the table to its small letter, every other character stays, and lowering
   * twice is lowering once.
   */
  lemma LowerMeaning(s: string)
    ensures |Lower(s)| == |s|
    ensures forall i :: 0 <= i < |s| ==> !('A' <= Lower(s)[i] <= 'Z')
    ensures forall i :: 0 <= i < |s| && 'A' <= s[i] <= 'Z' ==> Lower(s)[i] as int == s[i] as int + 32
    ensures forall i :: 0 <= i < |s| && !('A' <= s[i] <= 'Z') ==> Lower(s)[i] == s[i]
    ensures Lower(Lower(s)) == Lower(s)
  {
  }

  /** Lowering keeps white space and creates none: ASCII capitals and small letters are not spaces. */
  lemma LowerCharSpace(c: char)
    ensures IsSpace(LowerChar(c)) <==> IsSpace(c)
  {
  }

  lemma {:induction false} LowerTrimStart(s: string)
    ensures Lower(TrimStart(s)) == TrimStart(Lower(s))
    decreases |s|
  {
    if |s| > 0 {
      var first := s[0];
      LowerCharSpace(first);
      assert Lower(s)[0] == LowerChar(first);
      if IsSpace(first) {
        assert TrimStart(Lower(s)) == TrimStart(Lower(s)[1..]);
        assert Lower(s)[1..] == Lower(s[1..]);
        LowerTrimStart(s[1..]);
      } else {
        assert TrimStart(s) == s && TrimStart(Lower(s)) == Lower(s);
      }
    }
  }

  lemma {:induction false} LowerTrimEnd(s: string)
    ensures Lower(TrimEnd(s)) == TrimEnd(Lower(s))
    decreases |s|
  {
    if |s| > 0 {
      var last := s[|s| - 1];
      LowerCharSpace(last);
      assert Lower(s)[|s| - 1] == LowerChar(last);
      if IsSpace(last) {
        assert TrimEnd(Lower(s)) == TrimEnd(Lower(s)[..|s| - 1]);
        assert Lower(s)[..|s| - 1] == Lower(s[..|s| - 1]);
        LowerTrimEnd(s[..|s| - 1]);
      } else {
        assert TrimEnd(s) == s && TrimEnd(Lower(s)) == Lower(s);
      }
    }
  }

  /**
   * Trimming and lowering commute: trimming first and then lowering gives
   * `s.toLowerCase().trim()`.
   */
  lemma LowerTrim(s: string)
    ensures Lower(Trim(s)) == Trim(Lower(s))
  {
    LowerTrimStart(s);
    LowerTrimEnd(TrimStart(s));
  }

  lemma LowerAppend(a: string, b: string)
    ensures Lower(a + b) == Lower(a) + Lower(b)
  {
    assert forall i :: 0 <= i < |a + b| ==> Lower(a + b)[i] == (Lower(a) + Lower(b))[i];
  }

  lemma LowerAppend3(a: string, b: string, c: string)
    ensures Lower(a + b + c) == Lower(a) + Lower(b) + Lower(c)
  {
    LowerAppend(a + b, c);
    LowerAppend(a, b);
  }

  /** Lower-casing a text keeps any word that occurs, lower-cased, in one of its pieces. */
  lemma LowerContains(a: string, m: string, b: string, w: string)
    requires Contains(Lower(m), w)
    ensures Contains(Lower(a + m + b), w)
  {
    LowerAppend3(a, m, b);
    ContainsWithin(Lower(m), w, Lower(a), Lower(b));
  }

  /** Lower-casing a text begins with its lower-cased head. */
  lemma LowerPrefix(a: string, b: string)
    ensures Lower(a + b)[..|a|] == Lower(a)
  {
    LowerAppend(a, b);
  }

  lemma LastOfJoin(a: string, b: string)
    requires |b| > 0
    ensures |a + b| > 0 && (a + b)[|a + b| - 1] == b[|b| - 1]
  {
  }

  lemma NotInJoin(c: char, a: string, b: string)
    requires c !in a && c !in b
    ensures c !in a + b
  {
  }

  /** `s.startsWith(p)`. */
  predicate StartsWith(s: string, p: string) {
    |p| <= |s| && s[..|p|] == p
  }

  /** A text starts with whatever its head starts with. */
  lemma StartsWithHead(s: string, a: string, p: string)
    requires |a| <= |s| && s[..|a|] == a && StartsWith(a, p)
    ensures StartsWith(s, p)
  {
    assert s[..|p|] == s[..|a|][..|p|];
  }

  /** `w` occurs in `s` starting at index `i`. */
  predicate OccursAt(s: string, w: string, i: int) {
    0 <= i && i + |w| <= |s| && s[i..i + |w|] == w
  }

  /** `s.includes(w)`. */
  predicate Contains(s: string, w: string) {
    exists i | 0 <= i <= |s| :: OccursAt(s, w, i)
  }

  /** The characters of an occurrence are those of the word. */
  lemma OccursAtChar(s: string, w: string, i: int, k: int)
    requires OccursAt(s, w, i) && 0 <= k < |w|
    ensures s[i + k] == w[k]
  {
    assert s[i..i + |w|][k] == s[i + k];
  }

  /** One mismatching character rules an occurrence out. */
  lemma MismatchNotAt(s: string, w: string, i: int, k: int)
    requires 0 <= k < |w| && (0 <= i + k < |s| ==> s[i + k] != w[k])
    ensures !OccursAt(s, w, i)
  {
    if 0 <= i && i + |w| <= |s| {
      assert s[i..i + |w|][k] == s[i + k];
    }
  }

  lemma ContainsInfix(a: string, w: string, b: string)
    ensures Contains(a + w + b, w)
  {
    assert (a + w + b)[|a|..|a| + |w|] == w;
    assert OccursAt(a + w + b, w, |a|);
  }

  lemma ContainsWithin(s: string, w: string, a: string, b: string)
    requires Contains(s, w)
    ensures Contains(a + s + b, w)
  {
    var i :| 0 <= i <= |s| && OccursAt(s, w, i);
    assert (a + s + b)[|a| + i..|a| + i + |w|] == s[i..i + |w|];
    assert OccursAt(a + s + b, w, |a| + i);
  }

  /** Every character of an occurring word is a character of the text. */
  lemma ContainsChars(s: string, w: string, c: char)
    requires Contains(s, w) && c in w
    ensures c in s
  {
    var i :| 0 <= i <= |s| && OccursAt(s, w, i);
    var j :| 0 <= j < |w| && w[j] == c;
    assert s[i + j] == s[i..i + |w|][j];
  }

  lemma ContainsSelf(s: string)
    ensures Contains(s, s)
  {
    assert s[0..|s|] == s;
    assert OccursAt(s, s, 0);
  }

  /** One-character `split`: the segments between occurrences of `sep`, in order. */
  function Split(s: string, sep: char): (parts: seq<string>)
    ensures |parts| >= 1
    decreases |s|
  {
    if |s| == 0 then [""] else SplitCons(s[0], sep, Split(s[1..], sep))
  }

  /** Puts one more character in front of split segments: a separator opens a new first segment. */
  function SplitCons(c: char, sep: char, parts: seq<string>): (r: seq<string>)
    requires |parts| >= 1
    ensures |r| >= 1
  {
    if c == sep then [""] + parts else [[c] + parts[0]] + parts[1..]
  }

  lemma SplitConsAppend(c: char, sep: char, p: seq<string>, q: seq<string>)
    requires |p| >= 1
    ensures SplitCons(c, sep, p + q) == SplitCons(c, sep, p) + q
  {
    if c != sep {
      assert (p + q)[0] == p[0];
      assert (p + q)[1..] == p[1..] + q;
    }
  }

  /** No segment holds the separator. */
  lemma {:induction false} SplitSegmentsFree(s: string, sep: char)
    ensures forall k :: 0 <= k < |Split(s, sep)| ==> sep !in Split(s, sep)[k]
    decreases |s|
  {
    if |s| > 0 {
      SplitSegmentsFree(s[1..], sep);
      var rest := Split(s[1..], sep);
      if s[0] != sep {
        assert sep !in [s[0]] + rest[0];
        assert forall k :: 1 <= k < |rest| ==> rest[1..][k - 1] == rest[k];
      } else {
        assert forall k :: 0 <= k < |rest| ==> ([""] + rest)[k + 1] == rest[k];
      }
    }
  }

  /** `parts.join(sep)` for a non-empty list. */
  function Join(parts: seq<string>, sep: char): string
    requires |parts| >= 1
    decreases |parts|
  {
    if |parts| == 1 then parts[0] else parts[0] + [sep] + Join(parts[1..], sep)
  }

  /** Joining the segments restores the text. */
  lemma {:induction false} JoinSplit(s: string, sep: char)
    ensures Join(Split(s, sep), sep) == s
    decreases |s|
  {
    if |s| > 0 {
      var rest := Split(s[1..], sep);
      JoinSplit(s[1..], sep);
      if s[0] == sep {
        assert ([""] + rest)[1..] == rest;
        assert s == [s[0]] + s[1..];
      } else {
        var parts := [[s[0]] + rest[0]] + rest[1..];
        if |rest| == 1 {
          assert s == [s[0]] + s[1..];
        } else {
          assert parts[1..] == rest[1..];
          assert Join(rest, sep) == rest[0] + [sep] + Join(rest[1..], sep);
          assert s == [s[0]] + s[1..];
        }
      }
    }
  }

  /** A separator between two texts separates their segments. */
  lemma {:induction false} SplitAppend(a: string, b: string, sep: char)
    ensures Split(a + [sep] + b, sep) == Split(a, sep) + Split(b, sep)
    decreases |a|
  {
    var s := a + [sep] + b;
    if |a| == 0 {
      assert s[1..] == b;
    } else {
      assert s[0] == a[0];
      assert s[1..] == a[1..] + [sep] + b;
      SplitAppend(a[1..], b, sep);
      SplitConsAppend(a[0], sep, Split(a[1..], sep), Split(b, sep));
    }
  }

  /** A text without the separator is one segment. */
  lemma {:induction false} SplitWithout(s: string, sep: char)
    requires sep !in s
    ensures Split(s, sep) == [s]
    decreases |s|
  {
    if |s| > 0 {
      SplitWithout(s[1..], sep);
      assert s == [s[0]] + s[1..];
    }
  }

  /** Splitting a join of separator-free segments gives back the segments. */
  lemma {:induction false} SplitJoin(parts: seq<string>, sep: char)
    requires |parts| >= 1
    requires forall k :: 0 <= k < |parts| ==> sep !in parts[k]
    ensures Split(Join(parts, sep), sep) == parts
    decreases |parts|
  {
    if |parts| == 1 {
      SplitWithout(parts[0], sep);
    } else {
      SplitJoin(parts[1..], sep);
      SplitAppend(parts[0], Join(parts[1..], sep), sep);
      SplitWithout(parts[0], sep);
      assert parts == [parts[0]] + parts[1..];
    }
  }

  function DigitChar(d: nat): char
    requires d < 10
  {
    "0123456789"[d]
  }

  /** Decimal rendering of a count, as JavaScript template strings print it. */
  function NatToString(n: nat): (r: string)
    ensures |r| >= 1
    ensures forall i :: 0 <= i < |r| ==> '0' <= r[i] <= '9'
    decreases n
  {
    if n < 10 then [DigitChar(n)] else NatToString(n / 10) + [DigitChar(n % 10)]
  }
}

=== FILE: wrappers.dfy ===
/** Failure-carrying results. A thrown JavaScript error is reduced to its message. */
module Wrappers {

  datatype Option<+T> = None | Some(value: T)

  /** The value of an operation that may throw: `Err` carries the error's message. */
  datatype Result<+T> = Ok(value: T) | Err(error: string)

  /** The completion of an operation that returns nothing of interest but may throw. */
  datatype Outcome = Done | Raised(error: string)
}
